=== FILE: README.md ===
# ids: request handlers, scripts and dashboard helpers, modelled in Dafny

The repository is a dashboard for network-intrusion datasets. An Express
server stores uploaded CSV files and records them in a dataset registry.
Python scripts summarise a dataset's classes, preprocess its columns, and
top up minority attack classes with GAN-generated rows. A React front end
shows the summary and lets the user pick balancing methods.

This project models the decision logic of that system as pure Dafny
functions over immutable data, and proves what each part promises:

- **GAN balancing request** (`GanController`): a total function from the
  registry answer, the paths present before and after the run, the
  process outcome and a JSON parser to the HTTP reply. The reply also
  records the file probes made and the process started.
- **Preprocessing request** (`PreprocessingController`): the same shape.
  It includes:
  - the options blob and its quote escaping;
  - the shell command line, and how a shell splits it back into words;
  - the "first line starting with `{`" scanner of standard output.
- **Dataset summary script** (`AnalyzeDataset`): the choice of target
  column, the class counts, the largest-first sort, the normal/attack
  split, and the printed object.
- **Balancing script** (`GanBalancing`): the target count, the minority
  classes, the appended synthetic rows, the shape check that can stop the
  run, and the `sys.argv` reads of its entry point.
- **Preprocessing script** (`Prepro`), at column level:
  - name stripping and target extraction;
  - the numeric/non-numeric partition;
  - which summaries each switch fills in, and the header of the written
    file;
  - the response object and the error wrapping;
  - the entry point's reads of `sys.argv`.
- **Visualisation page** (`DataVisualization`):
  - the analysis chosen for a selection, and the page state;
  - the pie and bar data;
  - the display-name transform, and the screen rendered.
- **Balancing page** (`DataBalancing`): the four checkboxes, apply, and
  the "Balancing Method Applied" line. That line is shown to name exactly
  the checked methods.
- **Hand-offs between files** (`Contracts`):
  - the argument vectors each controller builds against the ones the
    scripts read;
  - the keys the summary script writes against the keys the page reads;
  - an upload's stored name on its way to the page.

Shared modules:

- `Wrappers`: `Option` and `Result`.
- `Text`: split, join, first-occurrence replace, trimming, decimal digits.
- `Fields`: ordered string-keyed entries. A repeated key is read from its
  last entry, as `JSON.parse` does.
- `Json`: JSON values with JavaScript truthiness, property reads and own
  entries.
- `Paths`: POSIX base name and resolve.
- `Registry`: the stored dataset records and the two lookups on them.
- `Process`: process outcomes, spawn records, probes and responses.
- `Frames`: columns with a dtype tag and value counts.

Environment inputs are parameters: file existence is a set of paths, the
process run is an `ExecOutcome`, and JSON parsing is a function parameter.

Three hand-offs do not fit together as the code is written. Each is proved
as a lemma in `Contracts`:

- The balancing controller passes three arguments, but the balancing
  script reads six, so the script stops at `sys.argv[3]`, the first read
  past the end.
- The preprocessing command passes two script arguments, but the script
  reads `sys.argv[3]`. Every preprocessing request of a stored, present
  dataset is therefore answered with 500 "Python script execution failed".
- The summary script writes `NoofNormalSamples`/`NoofAttackSamples`, but
  the page reads `NoOfNormalSamples`/`NoOfAttackSamples`, so both pie
  slices are 0 for every printed analysis.

## Model

| member | source | states |
|---|---|---|
| Registry.LatestPreprocessed | Server/Controllers/GANBalancingController.js:9 | No record is found exactly when no record has a preprocessed path. Otherwise the record found has one, and no record with one was uploaded later. |
| Registry.FindByName | Server/Controllers/preprocessing.js:20 | Nothing is found exactly when no record carries the name. Otherwise the result is the first record that carries it. |
| Paths.BasenameOfChild | Server/Controllers/GANBalancingController.js:17 | The base name of `dir/name` is `name`, whatever the directory. |
| Paths.Resolve | Server/Controllers/preprocessing.js:26 | An absolute second path replaces the base. A relative one is placed under the base. An empty one leaves the base. |
| Json.OwnEntries | Server/Controllers/GANBalancingController.js:74 | What spreading a value contributes. An object gives its own entries. An array or string gives one entry per index, keyed by the decimal index. `null`, booleans and numbers give nothing. |
| Text.ReplaceFirst | Server/Controllers/GANBalancingController.js:36 | Text without the pattern is unchanged. Otherwise only the first occurrence is replaced, and everything around it is kept. |
| Text.AsciiLowerMatches | Server/prepro.py:22 | Lower-casing yields a word without upper-case letters exactly when the text spells that word with any of its ASCII letters in either case. |
| Text.TrimIdempotent | Server/prepro.py:16-22 | Stripping a name a second time changes nothing. |
| GanController.ScriptEnv | Server/Controllers/GANBalancingController.js:46 | The child sees `KMP_DUPLICATE_LIB_OK=TRUE`. Every other variable has its inherited value. |
| GanController.SuccessBody | Server/Controllers/GANBalancingController.js:72-75 | The success body is an object. Its `message` is the result's own `message` if there is one, else "Dataset balanced successfully". Every other key reads as in the result's own entries. |
| GanController.OnScriptExit | Server/Controllers/GANBalancingController.js:49-90 | See the list after the table. |
| GanController.BalanceDatasetWithGan | Server/Controllers/GANBalancingController.js:6-97 | See the list after the table. |
| GanController.InputPath | Server/Controllers/GANBalancingController.js:17 | The input is `<cwd>/uploads/<base name of the stored path>`, or the `uploads` directory itself when that base name is empty. |
| GanController.OutputPath | Server/Controllers/GANBalancingController.js:36 | The first `.csv` of the input path becomes `_balanced.csv`, and the text around it is kept. A path without `.csv` is unchanged. |
| GanController.InputPathIgnoresDirectory | Server/Controllers/GANBalancingController.js:17 | The probed input is `<cwd>/uploads/<base name>`. The stored directory part plays no role, and there is no second candidate. |
| GanController.OutputPathReplacesFirstCsv | Server/Controllers/GANBalancingController.js:36 | The first `.csv`, wherever it sits, becomes `_balanced.csv`. Later `.csv`s are kept. |
| GanController.OutputPathOfCsvName | Server/Controllers/GANBalancingController.js:36 | A name whose only `.csv` is its suffix gets the suffix `_balanced.csv`. |
| GanController.NoCsvOutputIsInput | Server/Controllers/GANBalancingController.js:36-75 | An input path without `.csv` is also the output path. A launched run with an accepted result is then answered 200, because the input file satisfies the post-run check. |
| GanController.StderrAloneChangesNothing | Server/Controllers/GANBalancingController.js:58-60 | Two normal exits that differ only in standard error get the same reply, probes and spawn. |
| GanController.LogLineBeforeResultFailsParse | Server/Controllers/GANBalancingController.js:62-90 | Take a parser that rejects a non-JSON first character, and a log line printed before the JSON line. The reply is then 500 "Failed to parse GAN results", with `rawOutput` equal to the untrimmed output. |
| GanController.LoggedOutputIsRejected | Server/Controllers/GANBalancingController.js:63-64 | Output whose first character is neither white space nor a JSON start is still rejected after trimming. |
| PreprocessingController.OptionsBlob | Server/Controllers/preprocessing.js:32-37 | Decoding the blob gives back exactly the four flags, in declaration order and with nothing else. The dataset name is not among them. The blob contains no backslash, so escaping it is reversible. |
| PreprocessingController.Escape | Server/Controllers/preprocessing.js:38 | The length grows by the number of quotes. The result never starts with a quote. Text without quotes is unchanged. |
| PreprocessingController.EscapeShape | Server/Controllers/preprocessing.js:38 | Every quote in the result follows a backslash. In backslash-free input, every backslash in the result precedes a quote. |
| PreprocessingController.EscapeRoundTrip | Server/Controllers/preprocessing.js:38 | Turning each `\"` back into `"` recovers the original. |
| PreprocessingController.ReadQuotedEscaped | Server/Controllers/preprocessing.js:41 | A double-quoted escaped word reads back as the original word, and the rest of the line is left unread. |
| PreprocessingController.Command | Server/Controllers/preprocessing.js:41 | Take quote-free, backslash-free script and dataset paths, and the escaping of a backslash-free blob. The command line then splits into exactly `python`, the script, the dataset path and that blob: two arguments after the script. |
| PreprocessingController.CommandWords | Server/Controllers/preprocessing.js:40-41 | The same word split, for every blob the escaped text can come from. |
| PreprocessingController.FirstBraceIndex | Server/Controllers/preprocessing.js:50 | The index found is of a line starting with `{`, and no earlier line starts with `{`. Nothing is found only when no line starts with `{`. |
| PreprocessingController.FirstBraceLine | Server/Controllers/preprocessing.js:50 | The chosen text is the first line of `stdout` split at `\n` that starts with `{`, whole and untrimmed; there is none exactly when no such line exists. |
| PreprocessingController.LaterOutputIgnored | Server/Controllers/preprocessing.js:50 | Once some line starts with `{`, output appended after it does not change the choice. |
| PreprocessingController.LogLinesSkipped | Server/Controllers/preprocessing.js:50 | Log lines without a `{` line, printed before the output, do not change the choice. |
| PreprocessingController.DatasetPath | Server/Controllers/preprocessing.js:25-26 | An absolute stored path is used as it is. A relative one becomes `<cwd>/uploads/<stored>`, and an empty one the `uploads` directory itself. |
| PreprocessingController.OnExit | Server/Controllers/preprocessing.js:43-57 | An exec error gives 500 "Python script execution failed" with the standard error. No `{` line gives 500 "Failed to parse Python output" with "No valid JSON output from Python script.". A line that does not parse gives the same error with the parser's message. The reply is 200 exactly when the chosen line parses, and its body is then the parsed value. |
| PreprocessingController.PreprocessDataset | Server/Controllers/preprocessing.js:10-63 | A failed query gives 500 "Preprocessing failed". An unknown name gives 400 `Dataset not found: <name>`. Otherwise the resolved path is probed once. A missing file gives 400 `Dataset file not found: <name>`, with no command run. A present file runs exactly the escaped command line, and the reply is that of the exec callback. |
| PreprocessingController.ErrorKeyStillSucceeds | Server/Controllers/preprocessing.js:52-53 | A parsed object carrying an `error` key is still relayed with 200. |
| AnalyzeDataset.DatasetName | Server/analyze_dataset.py:10 | The name contains no `/`. |
| AnalyzeDataset.DatasetNameAfterLastSlash | Server/analyze_dataset.py:10 | The name of `dir/name` is `name`: the text after the last `/`. |
| AnalyzeDataset.TargetIndex | Server/analyze_dataset.py:17-21 | The target is the first column, in column order, with an object or category dtype. There is none only when no column has one. |
| AnalyzeDataset.SortByCount | Server/analyze_dataset.py:32 | The sorted classes are a permutation of the counts, in non-increasing count order, with the same total. |
| AnalyzeDataset.SortKeepsOrderedCounts | Server/analyze_dataset.py:32 | Counts already largest-first come out unchanged. |
| AnalyzeDataset.InsertWithCount | Server/analyze_dataset.py:32 | Inserting an entry into a largest-first list puts it ahead of every entry of its own count, and leaves the order among the others alone. |
| AnalyzeDataset.SortByCountIsStable | Server/analyze_dataset.py:32 | The sort is stable: it is largest-first, and the entries of each count keep their input order. |
| AnalyzeDataset.StableHeadIsFirstMaximum | Server/analyze_dataset.py:32-35 | The head of a stable descending sort is the first entry, in input order, with the largest count. |
| AnalyzeDataset.MaxFirst | Server/analyze_dataset.py:32-35 | The first sorted count is at least every class's count. |
| AnalyzeDataset.Summarise | Server/analyze_dataset.py:27-55 | See the list after the table. |
| AnalyzeDataset.Analyze | Server/analyze_dataset.py:5-57 | A read error gives its own message. A table without columns fails at `df.columns[-1]`. No categorical column, or an empty name for it, gives "No categorical target column found in the dataset.". Success means a target exists. The class counts are then the target's counts, the name is the last path segment, attributes = columns - 1, and total samples = row count. |
| AnalyzeDataset.CountsJson | Server/analyze_dataset.py:50 | The counts object keeps the classes in order, with their counts as numbers. |
| AnalyzeDataset.AnalysisJson | Server/analyze_dataset.py:43-55 | The printed object has exactly the eleven keys in the script's order and spelling. |
| AnalyzeDataset.AnalysisOutput | Server/analyze_dataset.py:43-60 | A failure prints exactly `{"error": msg}`. A success prints an object without an `error` key. |
| AnalyzeDataset.NormalNotAmongAttacks | Server/analyze_dataset.py:32-36 | With distinct class labels, the normal class is not among the attack classes. |
| GanBalancing.TargetCount | Server/GANBalancing.py:62-63 | The target is at least every class count and equal to one of them. It is 0 when there are no classes. |
| GanBalancing.Minority | Server/GANBalancing.py:64 | The minority classes are exactly the classes with count below the target, without repeats. |
| GanBalancing.Synthetic | Server/GANBalancing.py:72-79 | Exactly `k` rows are made, each with label 1 and the given class, and with the generator's features. |
| GanBalancing.Generated | Server/GANBalancing.py:69-80 | Generation succeeds exactly when every minority class's distance step has compatible tensor shapes. |
| GanBalancing.GeneratedRows | Server/GANBalancing.py:69-80 | Every generated row has label 1 and one of the minority classes. |
| GanBalancing.GeneratedCount | Server/GANBalancing.py:69-80 | For each minority class, the generated rows number `target - count`. Other classes get none. |
| GanBalancing.MinorityBroadcast | Server/GANBalancing.py:69-75 | Every minority class passes the shape check exactly when every class below the target does. |
| GanBalancing.BalanceDataset | Server/GANBalancing.py:60-82 | Balancing succeeds exactly when every minority class passes the shape check. The original rows are then an unchanged prefix. |
| GanBalancing.AppendedRowsAreSynthetic | Server/GANBalancing.py:66-80 | Every row after the originals has label 1 and a class that had fewer rows than the target. |
| GanBalancing.GainPerClass | Server/GANBalancing.py:71-80 | Each class gains exactly `target - count` new rows, so classes already at the maximum gain none. |
| GanBalancing.BalancedCounts | Server/GANBalancing.py:80-82 | After balancing, every class has exactly `target` rows. |
| GanBalancing.BalancedSize | Server/GANBalancing.py:62-82 | The balanced table has #classes × target rows with a class, plus every row whose `attack_cat` is missing: `value_counts` and the `==` selection skip those rows, and the concat keeps them. |
| GanBalancing.PyInt | Server/GANBalancing.py:88-89 | The text converts exactly when it is decimal digits, optionally after one `-` or `+`. The value is the digits' value, negated after `-`. Anything else raises ValueError with Python's `invalid literal for int() with base 10` message. |
| GanBalancing.PyIntRoundTrip | Server/GANBalancing.py:88-89 | Every integer's decimal text converts back to that integer. |
| GanBalancing.ParseGanArgv | Server/GANBalancing.py:84-90 | See the list after the table. |
| Prepro.StripNames | Server/prepro.py:16 | Each column keeps its dtype and counts, and its name is stripped of surrounding white space. |
| Prepro.StrippedNamesAreTrimmed | Server/prepro.py:16-22 | After the first step, every name is already stripped. |
| Prepro.IsTargetName | Server/prepro.py:22 | A name is a target exactly when, without its surrounding white space, it spells `attack_cat` or `label` with any of its ASCII letters in either case. |
| Prepro.Pick | Server/prepro.py:22-28 | A column is selected exactly when it is one of the input columns and has the kind asked for. |
| Prepro.PickSplits | Server/prepro.py:22-28 | Any kind and its complement split the columns into two order-keeping subsequences that interleave to the whole. |
| Prepro.TargetsSplitOff | Server/prepro.py:22-24 | The targets are exactly the columns whose stripped, lower-cased name is `attack_cat` or `label`. The features are the rest, and the two interleave to all the columns. |
| Prepro.ScalingStats | Server/prepro.py:61-70 | Each scaled column's entry has the keys Original Mean, Original Std, Scaled Mean and Scaled Std, in that order. |
| Prepro.ScalingSummary | Server/prepro.py:57-70 | The scaling summary's keys are the numeric columns' names. |
| Prepro.ClassCount | Server/prepro.py:47-54 | A column's label classes are its distinct values, plus one NaN class exactly when values are still missing at encoding time. |
| Prepro.EncodedTextNamesCount | Server/prepro.py:54 | The number in `Encoded <n> unique values` reads back as the column's class count. |
| Prepro.EncodingSummary | Server/prepro.py:47-54 | One entry per non-numeric column, keyed by its name in column order, each reading `Encoded <n> unique values` with `n` its class count. |
| Prepro.ComponentNames | Server/prepro.py:78-80 | The components are named `PC1` … `PCk`. |
| Prepro.SelectionSummary | Server/prepro.py:82-85 | The selection summary's keys are the component names. |
| Prepro.MissingCounts | Server/prepro.py:30-44 | The missing-value counts have one key per feature column. |
| Prepro.Summarise | Server/prepro.py:11-107 | The summary reports the output path it was given. |
| Prepro.PreprocessDataset | Server/prepro.py:8-112 | A read error or a later exception is the result's error. Success happens exactly when neither occurs, and is then the summary of the stripped columns. |
| Prepro.FeatureNamesSplit | Server/prepro.py:27-28 | The numeric and non-numeric name lists keep column order. Together they interleave to exactly the non-target columns, each in one list. |
| Prepro.SummariesFollowSwitches | Server/prepro.py:47-86 | See the list after the table. |
| Prepro.TargetsLast | Server/prepro.py:89-90 | The written header ends with the target columns, in column order, and no column before them has a target name. |
| Prepro.ComponentNameNotTarget | Server/prepro.py:78-80 | No component name `PC<i>` is a target name. |
| Prepro.NoPcaKeepsFeatures | Server/prepro.py:72-90 | Without feature selection, the header is the features in order, then the targets. |
| Prepro.PcaKeepsNonNumeric | Server/prepro.py:74-86 | With selection and encoding on, and some non-numeric feature: the header starts with `PC1` … `PCk`, then the non-numeric features, which the PCA also consumed. The selection summary lists those components. |
| Prepro.ResponseJson | Server/prepro.py:96-107 | The response has exactly the seven keys in order, with `preprocessedFilePath` = the output path last. |
| Prepro.Output | Server/prepro.py:96-112 | An error prints exactly `{"error": msg}`. A success prints the seven keys. |
| Prepro.OutputNamesPath | Server/prepro.py:106 | Reading `preprocessedFilePath` from a success gives the output path. A success has no `error` key. |
| Prepro.ReadArgv | Server/prepro.py:114-119 | See the list after the table. |
| Prepro.Script | Server/prepro.py:114-120 | The script prints something exactly when its entry point reaches the call. What it prints is an object. |
| DataVisualization.AnalysisFor | intrusion-detection/src/Pages/DataVisualization.js:22-29 | The analysis is that of the first record with the selected name. There is none when no record has the name. |
| DataVisualization.OnSelection | intrusion-detection/src/Pages/DataVisualization.js:12-38 | See the list after the table. |
| DataVisualization.OrZero | intrusion-detection/src/Pages/DataVisualization.js:55-56 | A slice's value is 0, or the field's value when that is present and truthy. |
| DataVisualization.PieData | intrusion-detection/src/Pages/DataVisualization.js:54-57 | The pie is Normal then Attack, each read from its own key with 0 as default. |
| DataVisualization.PieNeedsExactKeys | intrusion-detection/src/Pages/DataVisualization.js:54-57 | An object lacking both keys gives two zero slices. |
| DataVisualization.WithoutClass | intrusion-detection/src/Pages/DataVisualization.js:60 | An entry is kept exactly when it is an input entry whose class differs from the normal class. |
| DataVisualization.WithoutAbsentClass | intrusion-detection/src/Pages/DataVisualization.js:60 | Filtering out a class that is absent keeps every entry, in order. |
| DataVisualization.WithoutClassDropsOne | intrusion-detection/src/Pages/DataVisualization.js:60 | Filtering out a class that occurs once removes just that entry and keeps the others in order. |
| DataVisualization.AttackClassData | intrusion-detection/src/Pages/DataVisualization.js:59-61 | Without a class-count map, there are no bars. |
| DataVisualization.AttackBarsOfCounts | intrusion-detection/src/Pages/DataVisualization.js:59-61 | With a count object and a normal class, the bars are the counts other than the normal class. They are all the counts, in order, when the normal class is not among them. |
| DataVisualization.AttackClassDataOf | intrusion-detection/src/Pages/DataVisualization.js:59-61 | The bars are the count object's entries with the normal class filtered out. |
| DataVisualization.StripUploadPrefix | intrusion-detection/src/Pages/DataVisualization.js:76 | At most one leading `<digits>-` is removed. A name not starting with a digit is unchanged. |
| DataVisualization.StripUploadPrefixOf | intrusion-detection/src/Pages/DataVisualization.js:76 | `<digits>-rest` becomes `rest`. |
| DataVisualization.DisplayName | intrusion-detection/src/Pages/DataVisualization.js:76 | The shown name has no dot and no backslash, so it names no directory and no extension. It is never longer than the stored name. |
| DataVisualization.DisplayNameOfUpload | intrusion-detection/src/Pages/DataVisualization.js:76 | A stored name `<millis>-<original>` shows as `<original>` up to its first dot, when `<original>` has no backslash. |
| DataVisualization.Render | intrusion-detection/src/Pages/DataVisualization.js:40-124 | Loading shows the spinner. A non-empty error shows its text. "No analysis" shows exactly when neither applies and the analysis is missing or falsy. Otherwise the summary shows exactly when `DatasetName` is a string and no shown field is something React refuses as a child: an object among `DatasetType`, `Size(KB)`, `NoOfAttributes` and `TotalSamples`, or a truthy object among `NoOfClasses`, `NoOfNormalSamples` and `NoOfAttackSamples` (an array counts when one of its items is refused). Every other case is a crash. The summary holds the transformed `DatasetName` and the pie and bar data. |
| DataVisualization.ErrorSticks | intrusion-detection/src/Pages/DataVisualization.js:31-48 | After a failed fetch, every later selection shows "Failed to fetch data", whatever is fetched. |
| DataBalancing.Name | intrusion-detection/src/Pages/DataBalancing.js:5-10 | Each option key is non-empty, contains no comma, and does not start with white space. |
| DataBalancing.NameInjective | intrusion-detection/src/Pages/DataBalancing.js:5-10 | Different methods have different keys. |
| DataBalancing.InitialPageIsClear | intrusion-detection/src/Pages/DataBalancing.js:5-12 | Initially all four options are off and the summary is hidden. |
| DataBalancing.Set | intrusion-detection/src/Pages/DataBalancing.js:16-19 | The named option takes the new value. The others keep theirs. |
| DataBalancing.OnCheckboxChange | intrusion-detection/src/Pages/DataBalancing.js:14-20 | Only the changed box's option takes `checked`. The other options and the summary flag are unchanged. |
| DataBalancing.OnApply | intrusion-detection/src/Pages/DataBalancing.js:22-25 | Apply shows the summary and leaves the options untouched. |
| DataBalancing.ApplyIsIdempotent | intrusion-detection/src/Pages/DataBalancing.js:22-25 | Applying twice is applying once. |
| DataBalancing.CheckedAmongNames | intrusion-detection/src/Pages/DataBalancing.js:108 | A method's key is listed exactly when the method is among those scanned and checked. |
| DataBalancing.ListedIffChecked | intrusion-detection/src/Pages/DataBalancing.js:108 | A method is listed exactly when its box is checked. |
| DataBalancing.MethodsSummary | intrusion-detection/src/Pages/DataBalancing.js:108 | The line reads "None" exactly when no box is checked. Reading the line back gives exactly the checked options. |
| DataBalancing.NothingCheckedReadsNone | intrusion-detection/src/Pages/DataBalancing.js:108 | With no key listed, no box is checked, and "None" names no option. |
| DataBalancing.SomethingCheckedReadsNames | intrusion-detection/src/Pages/DataBalancing.js:108 | With some key listed, some box is checked, the join is not "None", and it reads back as the checked options. |
| DataBalancing.PiecesOfJoin | intrusion-detection/src/Pages/DataBalancing.js:108 | Splitting a `", "`-join of the keys at the commas, and dropping leading spaces, gives back the keys in order. |
| Contracts.GanScriptRejectsControllerArgv | Server/GANBalancing.py:84-90 | The balancing script, given the controller's `[script, input, output]`, raises "list index out of range" whatever the paths. |
| Contracts.PreproArgv | Server/Controllers/preprocessing.js:40-41 | The script's `sys.argv` is exactly `[script, dataset path, options blob]`. |
| Contracts.PreproScriptNeverRuns | Server/prepro.py:114-119 | With that argument vector, the script raises before preprocessing. When the blob parses, it raises IndexError. |
| Contracts.Completion | Server/Controllers/preprocessing.js:43-47 | An uncaught exception is exactly an exec error. |
| Contracts.PreprocessingRequestAlwaysFails | Server/Controllers/preprocessing.js:43-47 | A request for a stored, present dataset is answered 500 "Python script execution failed", with the script's standard error, whatever the flags. |
| Contracts.PageKeysNotWritten | Server/analyze_dataset.py:51-52 | The two keys the pie reads are not among the keys the summary script writes. |
| Contracts.ScriptAnalysisRenders | Server/analyze_dataset.py:43-57 | An analysis the script prints, once fetched without error, always shows as the summary. Its one object-valued field, `SamplesPerClass`, is not a field the page shows as text. |
| Contracts.PieOfScriptOutputIsEmpty | intrusion-detection/src/Pages/DataVisualization.js:54-57 | For every printed analysis, both pie slices are 0. |
| Contracts.AnalysisJsonReads | Server/analyze_dataset.py:50-53 | Reading `SamplesPerClass` and `NormalClass` from the printed object gives the counts object and the normal class. |
| Contracts.SummariseOrdered | Server/analyze_dataset.py:32-36 | For counts already largest-first: the counts are kept, the normal class is the first, and the attack classes are the rest in order. |
| Contracts.DropFirstClass | intrusion-detection/src/Pages/DataVisualization.js:60 | With distinct classes, filtering out the first class leaves the other entries, in order. |
| Contracts.BarsAreAttackClasses | intrusion-detection/src/Pages/DataVisualization.js:59-61 | For distinct classes in largest-first order, the page's bars are the script's attack classes, in order, with their counts. |
| Contracts.UploadNameShownAsOriginal | Server/Routes/datasetRoutes.js:13 | An upload stored as `<dir>/<millis>-<original>` is shown as `<original>` up to its first dot, when `<original>` has no slash or backslash. |

Members whose contracts are too long for one cell:

- **GanController.OnScriptExit**
  - An exec error gives 500 "GAN script execution failed" with the standard error.
  - Text that does not parse gives 500 "Failed to parse GAN results", with the parser's message and the untrimmed output.
  - A parsed `null` fails reading `.error`, with the same reply.
  - A truthy `error` gives 500 with the parsed value as body.
  - The reply is 200 exactly when the output file exists after the run. The body is then the success body.
  - Otherwise "Balanced dataset file was not created", with the result as details.
  - Only an accepted result probes the output.
- **GanController.BalanceDatasetWithGan**
  - A failed query gives 500 "Server error".
  - No record with a preprocessed path gives 404 "No preprocessed dataset found", with no probe and no process.
  - The first probe is the input path. A missing input gives 400 "Dataset file not found", with no process.
  - A missing model file gives 500 "GAN model files missing", with no process.
  - A process starts exactly when all three files exist: `python [script, input, output]`, the extended environment, and a 10 MiB output ceiling.
  - Post-run probes happen only after a launch.
- **AnalyzeDataset.Summarise**
  - No classes fails at `sorted_classes[0]`.
  - Otherwise the counts are kept as SamplesPerClass, and NoOfClasses is their number.
  - Normal + attack samples = the total count.
  - The normal count is at least every class's count, and the normal class and its count are a real entry.
  - There are NoOfClasses - 1 attack classes.
  - The normal class together with the attack classes is the class list as a multiset.
  - The normal class and its count are the first entry, in input order, with the largest count. No earlier entry has that count, and no entry has a larger one.
  - The normal class heads a stable largest-first sort of the counts, and the attack classes and their total are the rest of that sort.
- **GanBalancing.ParseGanArgv**
  - Fewer than five entries raise IndexError.
  - A success needs seven entries. Its paths are then entries 1, 2, 3 and 6, and its integers are entries 4 and 5.
  - Seven entries with two integers always succeed.
- **Prepro.SummariesFollowSwitches**
  - The encoding summary covers the non-numeric names exactly when encoding is on, and is empty otherwise.
  - The scaling summary covers the numeric names exactly when scaling is on, and is empty otherwise.
  - Feature selection is empty while its switch is off.
  - Both missing-value maps are keyed by the feature names.
- **Prepro.ReadArgv**
  - Fewer than three entries raise IndexError.
  - An unparsable `argv[2]` raises a decode error with the parser's message.
  - Exactly three entries with a parsable blob raise IndexError.
  - The call is made exactly when there are four entries, the blob parses, and it binds as the four keyword arguments.
  - The call then uses `argv[1]` and `argv[3]`.
- **DataVisualization.OnSelection**
  - Loading ends.
  - With no selection, the analysis is dropped and nothing is fetched.
  - A failed fetch sets "Failed to fetch data" and keeps the analysis.
  - A fetch keeps the first named record's analysis.
  - An error once set is never cleared.

## Left out

- Process spawning, output buffers and stream capture: a run is an `ExecOutcome` value, either an exec error with its standard error, or standard output and standard error. Exceeding the 10 MiB ceiling is one more exec error.
- DataVisualization.Render: what `VictoryPie` and `VictoryBar` do with a slice or bar value that is not a number is not modelled. The summary carries those values as they are.
- File existence (`fs.access`, `existsSync`): sets of paths, one before the run and one after it. The CSV writes themselves are not modelled.
- JSON parsing (`JSON.parse`, `json.loads`) and `json.dumps`: there is no parser in the repository, so they are function parameters.
  - Duplicate keys are read last-wins.
  - The order of integer-like keys is taken as given, both in `Object.entries` and when `GanController.SuccessBody` spreads the result (`{message, ...result}`). JavaScript would list integer-like keys first, in ascending order.
- Json.OwnEntries: an object with a repeated key lists every entry, once per occurrence. `Object.entries` of a parsed object lists one entry per key, at its first position with its last value. The difference reaches `DataVisualization.AttackClassData` when `SamplesPerClass` repeats a class.
- Shell semantics of the preprocessing command: only the double-quote and backslash splitting of the words is modelled. Paths containing `"` or `\` are excluded from the command lemmas. Substitution and injection are out of scope.
- Mongoose queries and the `Dataset` model: a query is a sequence of records, or the message of a failed query. The controller that stores the analysis is not part of this model, so a stored analysis is any JSON value.
- All numerics. Values that are floats, or come from torch or sklearn, are inputs, not results:
  - mean and most-frequent imputation, the `StandardScaler` statistics, the PCA component count and explained variance;
  - the generator and discriminator, the distance metric and its mean, the `Size(KB)` rounding, and the `std() > 100` Balanced/Imbalanced test;
  - the infinity-to-NaN replacement.
- pandas dtype inference and `value_counts` order: each column carries a dtype tag and its value counts, and the balancing script's class order is an input.
- Exceptions raised inside the numeric steps of the preprocessing script (imputer, `LabelEncoder`, scaler, PCA, CSV write): one optional failure message.
- Prepro.IsTargetName: lower-cases ASCII letters only. Python's Unicode case mapping (e.g. the Kelvin sign lower-casing to `k`) is not modelled. The stripping uses Python's white-space set.
- Duplicate column names after stripping: each column is treated separately, whereas pandas would select both on a repeated name.
- GanBalancing.BalanceDataset: covers only the shape check of the distance step, `(n, d) - (min(n, k), d)` broadcasting when `k ≥ n` or `k = 1`. The feature-width mismatch between the generator and the table, and non-numeric feature columns, are not modelled. The model loading and the CSV write of the script's entry point are not modelled either.
- GanBalancing.PyInt: Python's surrounding white space, `_` separators and non-ASCII digits are not modelled. The ValueError text quotes the argument plainly between `'`, whereas CPython prints `repr` of it (switching quotes, doubling backslashes) cut at 200 characters. CPython's limit on the number of digits a literal may have (4300 by default since 3.11, settable through `PYTHONINTMAXSTRDIGITS`) is not modelled: longer literals are accepted here and raise ValueError there.
- GanBalancing.PyIntRoundTrip: holds for every integer here. Under CPython's digit limit, `int(str(n))` raises for integers with more than 4300 digits, which the model does not promise.
- Prepro.ReadArgv: a failed keyword binding is the `TypeError` kind, without Python's message text.
- PreprocessingController.OptionsBlob: the four flags are booleans. A request value that is missing (dropped by `JSON.stringify`) or not a boolean is not modelled.
- Paths.Resolve: POSIX joining only, without Node's normalisation. `.`/`..` segments and Windows drive letters are not resolved. Repeated `/` are not collapsed and a trailing `/` is not dropped. A base of `/` gives `//uploads` where Node gives `/uploads`.
- The hard-coded script location of the balancing controller: a constant.
- React rendering, charts, routing, login/signup, `localStorage`, the axios wrappers, the upload form and the static pages: not modelled. The visualisation page is modelled as state plus the screen chosen.
- Password hashing, the Express wiring and the upload middleware: not modelled, apart from its file-name rule.
- Concurrent requests racing on the same output file.
- Logging: the `console.log`, `console.warn` and `console.error` calls of both controllers (including the one in `fileExists`) and of the balancing page's apply handler are not modelled. They change no reply and no state.

=== FILE: analyze_dataset.dfy ===
/** The dataset summary script: name and size facts about a CSV, the
    first categorical column taken as the class column, and a normal/attack
    split in which the largest class is called normal. */
module AnalyzeDataset {
  import opened Wrappers
  import opened Text
  import opened Fields
  import opened Json
  import opened Frames

  const NoTargetMessage := "No categorical target column found in the dataset."

  /** `df.columns[-1]` on a table without columns. */
  const NoColumnsMessage := "index -1 is out of bounds for axis 0 with size 0"

  /** `sorted_classes[0]` when the class column has no non-null value. */
  const NoClassesMessage := "list index out of range"

  datatype Analysis = Analysis(
    datasetName: string,
    datasetType: string,
    sizeKb: real,
    noOfAttributes: int,
    noOfClasses: nat,
    totalSamples: nat,
    samplesPerClass: seq<(string, nat)>,
    normalSamples: nat,
    attackSamples: nat,
    normalClass: string,
    attackClasses: seq<string>)

  /** `file_path.split("/")[-1]`. */
  function DatasetName(filePath: string): (name: string)
    ensures '/' !in name
  {
    LastSegment(filePath, '/')
  }

  /** The name is exactly what follows the last `/`. */
  lemma DatasetNameAfterLastSlash(dir: string, name: string)
    requires '/' !in name
    ensures DatasetName(dir + "/" + name) == name
  {
    LastSegmentAfterSep(dir, '/', name);
  }

  /** Position of the first object or category column. */
  function TargetIndex(cols: seq<Column>): (r: Option<nat>)
    ensures r.Some? ==> r.value < |cols| && IsCategorical(cols[r.value].dtype)
    ensures r.Some? ==> forall j :: 0 <= j < r.value ==> !IsCategorical(cols[j].dtype)
    ensures r.None? ==> forall j :: 0 <= j < |cols| ==> !IsCategorical(cols[j].dtype)
    decreases |cols|
  {
    if |cols| == 0 then None
    else if IsCategorical(cols[0].dtype) then Some(0)
    else
      match TargetIndex(cols[1..])
      case None => None
      case Some(i) => Some(i + 1)
  }

  // ---------------------------------------------------------------------
  // Sorting classes by count, largest first, keeping ties in order
  // ---------------------------------------------------------------------

  predicate NonIncreasing(cs: seq<(string, nat)>) {
    forall i, j :: 0 <= i < j < |cs| ==> cs[i].1 >= cs[j].1
  }

  /** Places `x` before the first entry whose count does not exceed its own. */
  function Insert(x: (string, nat), s: seq<(string, nat)>): (r: seq<(string, nat)>)
    requires NonIncreasing(s)
    ensures NonIncreasing(r)
    ensures multiset(r) == multiset(s) + multiset{x}
    ensures Sum(r) == x.1 + Sum(s)
    ensures |r| == |s| + 1
    decreases |s|
  {
    if |s| == 0 || s[0].1 <= x.1 then [x] + s
    else
      var rest := Insert(x, s[1..]);
      InsertBelowHead(s, x, rest);
      [s[0]] + rest
  }

  /** Putting the larger head back in front of the insertion into the
      tail keeps the order, the entries and the total. */
  lemma InsertBelowHead(s: seq<(string, nat)>, x: (string, nat), rest: seq<(string, nat)>)
    requires |s| > 0 && x.1 < s[0].1 && NonIncreasing(s)
    requires NonIncreasing(rest)
    requires multiset(rest) == multiset(s[1..]) + multiset{x}
    requires Sum(rest) == x.1 + Sum(s[1..])
    ensures NonIncreasing([s[0]] + rest)
    ensures multiset([s[0]] + rest) == multiset(s) + multiset{x}
    ensures Sum([s[0]] + rest) == x.1 + Sum(s)
  {
    var r := [s[0]] + rest;
    assert s == [s[0]] + s[1..];
    assert r[1..] == rest;
    assert NonIncreasing(r) by {
      RestBelowHead(s, x, rest);
      ConsNonIncreasing(s[0], rest);
    }
  }

  lemma RestBelowHead(s: seq<(string, nat)>, x: (string, nat), rest: seq<(string, nat)>)
    requires |s| > 0 && x.1 < s[0].1 && NonIncreasing(s)
    requires multiset(rest) == multiset(s[1..]) + multiset{x}
    ensures forall k :: 0 <= k < |rest| ==> rest[k].1 <= s[0].1
  {
    var tail := s[1..];
    forall k | 0 <= k < |rest|
      ensures rest[k].1 <= s[0].1
    {
      assert rest[k] in multiset(rest);
      if rest[k] != x {
        assert rest[k] in multiset(tail);
        var j :| 0 <= j < |tail| && tail[j] == rest[k];
        assert tail[j] == s[j + 1];
      }
    }
  }

  lemma ConsNonIncreasing(h: (string, nat), rest: seq<(string, nat)>)
    requires NonIncreasing(rest)
    requires forall k :: 0 <= k < |rest| ==> rest[k].1 <= h.1
    ensures NonIncreasing([h] + rest)
  {
    var r := [h] + rest;
    forall i, j | 0 <= i < j < |r|
      ensures r[i].1 >= r[j].1
    {
      assert r[j] == rest[j - 1];
      if i > 0 {
        assert r[i] == rest[i - 1];
      }
    }
  }

  /** `sorted(items, key=count, reverse=True)`: a stable sort, largest
      count first. */
  function SortByCount(cs: seq<(string, nat)>): (r: seq<(string, nat)>)
    ensures NonIncreasing(r)
    ensures multiset(r) == multiset(cs)
    ensures Sum(r) == Sum(cs)
    ensures |r| == |cs|
    decreases |cs|
  {
    if |cs| == 0 then []
    else
      assert cs == [cs[0]] + cs[1..];
      Insert(cs[0], SortByCount(cs[1..]))
  }

  /** The entries of `s` with count `c`, in their order in `s`. */
  function WithCount(s: seq<(string, nat)>, c: nat): seq<(string, nat)>
    decreases |s|
  {
    if |s| == 0 then [] else (if s[0].1 == c then [s[0]] else []) + WithCount(s[1..], c)
  }

  /** `s` is `cs` sorted largest count first, with entries of equal
      count kept in their order in `cs`: what a stable descending sort
      gives. */
  ghost predicate StableSorted(s: seq<(string, nat)>, cs: seq<(string, nat)>) {
    NonIncreasing(s) && forall c: nat :: WithCount(s, c) == WithCount(cs, c)
  }

  /** Inserting `x` in front of the entries it does not exceed puts it
      first among those of its own count. */
  lemma {:induction false} InsertWithCount(x: (string, nat), s: seq<(string, nat)>, c: nat)
    requires NonIncreasing(s)
    ensures WithCount(Insert(x, s), c) == (if x.1 == c then [x] else []) + WithCount(s, c)
    decreases |s|
  {
    if |s| == 0 || s[0].1 <= x.1 {
      assert Insert(x, s) == [x] + s;
      WithCountCons(x, s, c);
    } else {
      NonIncreasingTail(s);
      InsertWithCount(x, s[1..], c);
      InsertBehindHead(x, s, c);
    }
  }

  lemma InsertBehindHead(x: (string, nat), s: seq<(string, nat)>, c: nat)
    requires |s| > 0 && s[0].1 > x.1 && NonIncreasing(s) && NonIncreasing(s[1..])
    requires WithCount(Insert(x, s[1..]), c) == (if x.1 == c then [x] else []) + WithCount(s[1..], c)
    ensures WithCount(Insert(x, s), c) == (if x.1 == c then [x] else []) + WithCount(s, c)
  {
    var tail := s[1..];
    var rest := Insert(x, tail);
    assert Insert(x, s) == [s[0]] + rest;
    ConsWithCount(s[0], x, tail, rest, c);
    assert [s[0]] + tail == s;
  }

  /** An entry of larger count in front changes nothing about where the
      entries of count `c` stand relative to `x`. */
  lemma ConsWithCount(h: (string, nat), x: (string, nat), tail: seq<(string, nat)>, rest: seq<(string, nat)>, c: nat)
    requires h.1 > x.1
    requires WithCount(rest, c) == (if x.1 == c then [x] else []) + WithCount(tail, c)
    ensures WithCount([h] + rest, c) == (if x.1 == c then [x] else []) + WithCount([h] + tail, c)
  {
    WithCountCons(h, rest, c);
    WithCountCons(h, tail, c);
  }

  lemma WithCountCons(h: (string, nat), t: seq<(string, nat)>, c: nat)
    ensures WithCount([h] + t, c) == (if h.1 == c then [h] else []) + WithCount(t, c)
  {
    assert ([h] + t)[1..] == t;
  }

  lemma NonIncreasingTail(s: seq<(string, nat)>)
    requires |s| > 0 && NonIncreasing(s)
    ensures NonIncreasing(s[1..])
  {
    forall i, j | 0 <= i < j < |s[1..]|
      ensures s[1..][i].1 >= s[1..][j].1
    {
      assert s[1..][i] == s[i + 1] && s[1..][j] == s[j + 1];
    }
  }

  lemma {:induction false} SortByCountStableAt(cs: seq<(string, nat)>, c: nat)
    ensures WithCount(SortByCount(cs), c) == WithCount(cs, c)
    decreases |cs|
  {
    if |cs| > 0 {
      SortByCountStableAt(cs[1..], c);
      InsertWithCount(cs[0], SortByCount(cs[1..]), c);
    }
  }

  /** `sorted(..., reverse=True)` is stable: equal counts keep their order. */
  lemma SortByCountIsStable(cs: seq<(string, nat)>)
    ensures StableSorted(SortByCount(cs), cs)
  {
    forall c: nat
      ensures WithCount(SortByCount(cs), c) == WithCount(cs, c)
    {
      SortByCountStableAt(cs, c);
    }
  }

  /** The first entry of count `c` is the first such entry of `cs`. */
  lemma {:induction false} WithCountHead(cs: seq<(string, nat)>, c: nat)
    requires |WithCount(cs, c)| > 0
    ensures exists i :: (0 <= i < |cs| && cs[i] == WithCount(cs, c)[0] && cs[i].1 == c
                         && forall j :: 0 <= j < i ==> cs[j].1 != c)
    decreases |cs|
  {
    if cs[0].1 == c {
      assert cs[0] == WithCount(cs, c)[0];
    } else {
      assert WithCount(cs, c) == WithCount(cs[1..], c);
      WithCountHead(cs[1..], c);
      var i :| (0 <= i < |cs[1..]| && cs[1..][i] == WithCount(cs[1..], c)[0] && cs[1..][i].1 == c
                && forall j :: 0 <= j < i ==> cs[1..][j].1 != c);
      assert cs[i + 1] == cs[1..][i];
      forall j | 0 <= j < i + 1
        ensures cs[j].1 != c
      {
        if j > 0 {
          assert cs[j] == cs[1..][j - 1];
        }
      }
    }
  }

  /** The head of a stable sort is the first entry of `cs` with the
      largest count. */
  predicate FirstMaximum(cs: seq<(string, nat)>, e: (string, nat)) {
    && (forall k :: 0 <= k < |cs| ==> cs[k].1 <= e.1)
    && exists i :: 0 <= i < |cs| && cs[i] == e && forall j :: 0 <= j < i ==> cs[j].1 < e.1
  }

  lemma StableHeadIsFirstMaximum(s: seq<(string, nat)>, cs: seq<(string, nat)>)
    requires |s| > 0 && StableSorted(s, cs)
    requires forall k :: 0 <= k < |cs| ==> cs[k].1 <= s[0].1
    ensures FirstMaximum(cs, s[0])
  {
    var c := s[0].1;
    assert WithCount(s, c) == [s[0]] + WithCount(s[1..], c);
    assert WithCount(cs, c) == WithCount(s, c);
    WithCountHead(cs, c);
  }

  /** Counts already in pandas' order are left as they are. */
  lemma {:induction false} SortKeepsOrderedCounts(cs: seq<(string, nat)>)
    requires NonIncreasing(cs)
    ensures SortByCount(cs) == cs
    decreases |cs|
  {
    if |cs| > 0 {
      SortKeepsOrderedCounts(cs[1..]);
      assert cs == [cs[0]] + cs[1..];
    }
  }

  lemma MaxFirst(sorted: seq<(string, nat)>, cs: seq<(string, nat)>)
    requires |sorted| > 0 && NonIncreasing(sorted) && multiset(sorted) == multiset(cs)
    ensures forall i :: 0 <= i < |cs| ==> cs[i].1 <= sorted[0].1
  {
    forall i | 0 <= i < |cs|
      ensures cs[i].1 <= sorted[0].1
    {
      assert cs[i] in multiset(cs);
      assert cs[i] in sorted;
      var j :| 0 <= j < |sorted| && sorted[j] == cs[i];
    }
  }

  // ---------------------------------------------------------------------
  // The analysis
  // ---------------------------------------------------------------------

  /** The summary of the class column's value counts `counts`. */
  function Summarise(name: string, dtype: string, sizeKb: real, t: Table, counts: seq<(string, nat)>): (r: Result<Analysis>)
    requires |t.columns| > 0
    ensures r.Err? <==> |counts| == 0
    ensures r.Err? ==> r.msg == NoClassesMessage
    ensures r.Ok? ==>
      && r.value.samplesPerClass == counts
      && r.value.noOfClasses == |counts|
      && r.value.normalSamples + r.value.attackSamples == Sum(counts)
      && (forall i :: 0 <= i < |counts| ==> counts[i].1 <= r.value.normalSamples)
      && |r.value.attackClasses| == |counts| - 1
      && multiset([r.value.normalClass] + r.value.attackClasses) == multiset(Keys(counts))
      && (r.value.normalClass, r.value.normalSamples) in counts
    ensures r.Ok? ==> FirstMaximum(counts, (r.value.normalClass, r.value.normalSamples))
    ensures r.Ok? ==> exists s :: (StableSorted(s, counts) && |s| == |counts| && |s| > 0
                                   && s[0] == (r.value.normalClass, r.value.normalSamples)
                                   && r.value.attackClasses == Keys(s[1..]) && r.value.attackSamples == Sum(s[1..]))
  {
    var sorted := SortByCount(counts);
    if |sorted| == 0 then Err(NoClassesMessage)
    else
      MaxFirst(sorted, counts);
      SortByCountIsStable(counts);
      StableHeadIsFirstMaximum(sorted, counts);
      assert sorted == [sorted[0]] + sorted[1..];
      KeysMultiset(sorted, counts);
      assert sorted[0] in multiset(counts);
      Ok(Analysis(name, dtype, sizeKb, |t.columns| - 1, |counts|, t.rowCount, counts,
                  sorted[0].1, Sum(sorted[1..]), sorted[0].0, Keys(sorted[1..])))
  }

  lemma KeysMultiset(a: seq<(string, nat)>, b: seq<(string, nat)>)
    requires |a| > 0 && multiset(a) == multiset(b)
    ensures multiset([a[0].0] + Keys(a[1..])) == multiset(Keys(b))
  {
    assert [a[0].0] + Keys(a[1..]) == Keys(a);
    KeysOfPermutation(a, b);
  }

  lemma {:induction false} KeysOfPermutation(a: seq<(string, nat)>, b: seq<(string, nat)>)
    requires multiset(a) == multiset(b)
    ensures multiset(Keys(a)) == multiset(Keys(b))
    decreases |a|
  {
    if |a| == 0 {
      assert |b| == 0;
    } else {
      var x := a[0];
      assert x in multiset(b);
      var j :| 0 <= j < |b| && b[j] == x;
      var b' := b[..j] + b[j + 1..];
      RemoveAt(b, j);
      KeysOfCons(a);
      KeysOfPermutation(a[1..], b');
    }
  }

  lemma KeysOfCons(a: seq<(string, nat)>)
    requires |a| > 0
    ensures multiset(a[1..]) == multiset(a) - multiset{a[0]}
    ensures multiset(Keys(a)) == multiset(Keys(a[1..])) + multiset{a[0].0}
  {
    assert a == [a[0]] + a[1..];
    ConsParts(a[0], a[1..]);
  }

  lemma ConsParts(h: (string, nat), t: seq<(string, nat)>)
    ensures multiset([h] + t) == multiset{h} + multiset(t)
    ensures multiset(Keys([h] + t)) == multiset(Keys(t)) + multiset{h.0}
  {
    KeysConcat([h], t);
    assert Keys([h]) == [h.0];
  }

  /** Removing the entry at `j` removes one copy of it and of its key. */
  lemma RemoveAt(b: seq<(string, nat)>, j: nat)
    requires j < |b|
    ensures multiset(b[..j] + b[j + 1..]) == multiset(b) - multiset{b[j]}
    ensures multiset(Keys(b)) == multiset(Keys(b[..j] + b[j + 1..])) + multiset{b[j].0}
  {
    var left, right := b[..j], b[j + 1..];
    assert b == left + [b[j]] + right;
    assert multiset(b) == multiset(left) + multiset{b[j]} + multiset(right);
    KeysAround(left, b[j], right);
    assert Keys(b) == Keys(left) + [b[j].0] + Keys(right);
    assert multiset(Keys(b)) == multiset(Keys(left)) + multiset{b[j].0} + multiset(Keys(right));
  }

  lemma KeysAround(left: seq<(string, nat)>, x: (string, nat), right: seq<(string, nat)>)
    ensures Keys(left + [x] + right) == Keys(left) + [x.0] + Keys(right)
    ensures Keys(left + right) == Keys(left) + Keys(right)
  {
    KeysConcat(left + [x], right);
    KeysConcat(left, [x]);
    KeysConcat(left, right);
  }

  lemma KeysConcat(a: seq<(string, nat)>, b: seq<(string, nat)>)
    ensures Keys(a + b) == Keys(a) + Keys(b)
  {
  }

  /** `analyze_dataset(file_path)`. `load` is what `read_csv` gave; the
      Balanced/Imbalanced verdict and the rounded size are floating-point
      facts of the data, taken as given. */
  function Analyze(filePath: string, load: Result<Table>, imbalanced: bool, sizeKb: real): (r: Result<Analysis>)
    ensures load.Err? ==> r == Err(load.msg)
    ensures load.Ok? && |load.value.columns| == 0 ==> r == Err(NoColumnsMessage)
    ensures load.Ok? && |load.value.columns| > 0 && TargetIndex(load.value.columns).None? ==> r == Err(NoTargetMessage)
    ensures (load.Ok? && |load.value.columns| > 0 && TargetIndex(load.value.columns).Some?
             && load.value.columns[TargetIndex(load.value.columns).value].name == "") ==> r == Err(NoTargetMessage)
    ensures r.Ok? ==>
      && load.Ok? && TargetIndex(load.value.columns).Some?
      && var t := load.value;
         var target := t.columns[TargetIndex(t.columns).value];
         && target.name != ""
         && r.value.samplesPerClass == target.valueCounts
         && r.value.datasetName == DatasetName(filePath)
         && r.value.datasetType == (if imbalanced then "Imbalanced" else "Balanced")
         && r.value.noOfAttributes == |t.columns| - 1
         && r.value.totalSamples == t.rowCount
  {
    match load
    case Err(m) => Err(m)
    case Ok(t) =>
      if |t.columns| == 0 then Err(NoColumnsMessage)
      else
        var name := DatasetName(filePath);
        var dtype := if imbalanced then "Imbalanced" else "Balanced";
        match TargetIndex(t.columns)
        case None => Err(NoTargetMessage)
        case Some(i) =>
          // `if not target_column`: an empty column name is falsy too.
          if t.columns[i].name == "" then Err(NoTargetMessage)
          else Summarise(name, dtype, sizeKb, t, t.columns[i].valueCounts)
  }

  /** Class counts as a JSON object, in their order. */
  function CountsJson(cs: seq<(string, nat)>): (r: seq<(string, Json)>)
    ensures Keys(r) == Keys(cs)
    ensures forall i :: 0 <= i < |cs| ==> r[i].1 == JNum(cs[i].1 as real)
  {
    seq(|cs|, i requires 0 <= i < |cs| => (cs[i].0, JNum(cs[i].1 as real)))
  }

  /** The keys of the printed object, in order, spelled as the script
      spells them (note `Noof`, not `NoOf`, for the two sample totals). */
  const AnalysisKeys: seq<string> := [
    "DatasetName", "DatasetType", "Size(KB)", "NoOfAttributes", "NoOfClasses", "TotalSamples",
    "SamplesPerClass", "NoofNormalSamples", "NoofAttackSamples", "NormalClass", "AttackClasses"]

  /** The printed object. */
  function AnalysisJson(a: Analysis): (v: Json)
    ensures v.JObj? && Keys(v.fields) == AnalysisKeys
  {
    JObj(Entries(AnalysisKeys, [
      JStr(a.datasetName),
      JStr(a.datasetType),
      JNum(a.sizeKb),
      JNum(a.noOfAttributes as real),
      JNum(a.noOfClasses as real),
      JNum(a.totalSamples as real),
      JObj(CountsJson(a.samplesPerClass)),
      JNum(a.normalSamples as real),
      JNum(a.attackSamples as real),
      JStr(a.normalClass),
      JArr(seq(|a.attackClasses|, i requires 0 <= i < |a.attackClasses| => JStr(a.attackClasses[i])))]))
  }

  /** What the script prints: the analysis, or exactly `{"error": msg}`. */
  function AnalysisOutput(filePath: string, load: Result<Table>, imbalanced: bool, sizeKb: real): (out: Json)
    ensures out.JObj?
    ensures Analyze(filePath, load, imbalanced, sizeKb).Err? ==>
      out == ErrorObj(Analyze(filePath, load, imbalanced, sizeKb).msg)
    ensures Analyze(filePath, load, imbalanced, sizeKb).Ok? ==> Lookup(out.fields, "error").None?
  {
    match Analyze(filePath, load, imbalanced, sizeKb)
    case Ok(a) =>
      ErrorIsNoAnalysisKey();
      AnalysisJson(a)
    case Err(m) => ErrorObj(m)
  }

  /** Every key of the analysis is longer than `error`. */
  lemma ErrorIsNoAnalysisKey()
    ensures "error" !in AnalysisKeys
  {
    forall i | 0 <= i < |AnalysisKeys|
      ensures |AnalysisKeys[i]| > 5
    {
    }
  }

  /** Every class but the normal one is an attack class: with distinct
      labels, the normal class is not among them. */
  lemma NormalNotAmongAttacks(filePath: string, load: Result<Table>, imbalanced: bool, sizeKb: real)
    requires Analyze(filePath, load, imbalanced, sizeKb).Ok?
    requires var a := Analyze(filePath, load, imbalanced, sizeKb).value;
      forall i, j :: 0 <= i < j < |a.samplesPerClass| ==> a.samplesPerClass[i].0 != a.samplesPerClass[j].0
    ensures var a := Analyze(filePath, load, imbalanced, sizeKb).value;
      a.normalClass !in a.attackClasses
  {
    var a := Analyze(filePath, load, imbalanced, sizeKb).value;
    var ks := Keys(a.samplesPerClass);
    var m := multiset([a.normalClass] + a.attackClasses);
    assert m == multiset(ks);
    DistinctKeysOnce(ks, a.normalClass);
    assert m[a.normalClass] == 1 + multiset(a.attackClasses)[a.normalClass];
    assert multiset(a.attackClasses)[a.normalClass] == 0;
  }

  lemma DistinctKeysOnce(ks: seq<string>, k: string)
    requires forall i, j :: 0 <= i < j < |ks| ==> ks[i] != ks[j]
    ensures multiset(ks)[k] <= 1
  {
    if |ks| > 0 {
      assert ks == [ks[0]] + ks[1..];
      DistinctKeysOnce(ks[1..], k);
      if ks[0] == k {
        assert k !in ks[1..];
      }
    }
  }
}

=== FILE: contracts.dfy ===
/** What happens where one file hands data to another: the balancing
    controller's argument vector against the balancing script's reads, the
    preprocessing command against the preprocessing script's reads, the
    analysis script's keys against the ones the visualisation page reads,
    and an uploaded file's name on its way to the page. */
module Contracts {
  import opened Wrappers
  import opened Text
  import opened Fields
  import opened Json
  import opened Process
  import opened Frames
  import GanController
  import GanBalancing
  import PreprocessingController
  import Prepro
  import AnalyzeDataset
  import DataVisualization
  import Registry

  // ---------------------------------------------------------------------
  // Balancing: three arguments sent, six read
  // ---------------------------------------------------------------------

  /** `execFile("python", [script, input, output])` gives the script
      `sys.argv == [script, input, output]`; its first read past the end,
      `sys.argv[3]`, raises, whatever the paths are. */
  lemma GanScriptRejectsControllerArgv(script: string, input: string, output: string)
    ensures GanBalancing.ParseGanArgv(GanController.ScriptArgv(script, input, output))
      == Err(GanBalancing.IndexErrorMessage)
  {
  }

  // ---------------------------------------------------------------------
  // Preprocessing: two arguments sent, three read
  // ---------------------------------------------------------------------

  /** The controller's command, as the shell splits it into `python` and
      the script's `sys.argv`. */
  function PreproArgv(f: PreprocessingController.Flags, script: string, datasetPath: string): (argv: seq<string>)
    requires '"' !in script && '\\' !in script
    requires '"' !in datasetPath && '\\' !in datasetPath
    ensures argv == [script, datasetPath, PreprocessingController.OptionsBlob(f)]
  {
    ReadWordsValue(PreprocessingController.CommandFor(f, script, datasetPath))[1..]
  }

  function ReadWordsValue(command: string): seq<string>
  {
    match PreprocessingController.ReadWords(command)
    case Some(ws) => ws
    case None => []
  }

  /** The script never reaches `preprocess_dataset`: it stops at the
      decoding of the options or, when they decode, at `sys.argv[3]`. */
  lemma PreproScriptNeverRuns(
    f: PreprocessingController.Flags, script: string, datasetPath: string, parse: string -> ParseResult)
    requires '"' !in script && '\\' !in script
    requires '"' !in datasetPath && '\\' !in datasetPath
    ensures Prepro.ReadArgv(PreproArgv(f, script, datasetPath), parse).Raised?
    ensures parse(PreprocessingController.OptionsBlob(f)).Parsed? ==>
      Prepro.ReadArgv(PreproArgv(f, script, datasetPath), parse) == Prepro.Raised(Prepro.IndexError)
  {
  }

  /** How the controller's `exec` sees the script end: an uncaught
      exception is a non-zero exit; a printed result is normal output
      (`dumps` is `json.dumps`, `stderr` what the script wrote there). */
  function Completion(e: Prepro.Exit, dumps: Json -> string, stderr: string): (x: ExecOutcome)
    ensures e.Uncaught? <==> x.ExecFailed?
  {
    match e
    case Uncaught(_) => ExecFailed(stderr)
    case Printed(out) => Exited(dumps(out) + "\n", stderr)
  }

  /** End to end: a preprocessing request for a stored, present dataset
      runs the script, which raises before doing any work, so the reply
      is always 500 "Python script execution failed" with the script's
      standard error. */
  lemma PreprocessingRequestAlwaysFails(
    req: PreprocessingController.PreproRequest, records: seq<Registry.DatasetRecord>, cwd: string, controllerDir: string,
    existing: set<string>, parse: string -> ParseResult, pyParse: string -> ParseResult,
    load: Result<Table>, failure: Option<string>, ms: Prepro.Measures, dumps: Json -> string, stderr: string)
    requires Registry.FindByName(records, req.dataset).Some?
    requires PreprocessingController.DatasetPath(cwd, Registry.FindByName(records, req.dataset).value.path) in existing
    requires var s := PreprocessingController.ScriptPath(controllerDir); '"' !in s && '\\' !in s
    requires var p := PreprocessingController.DatasetPath(cwd, Registry.FindByName(records, req.dataset).value.path);
      '"' !in p && '\\' !in p
    ensures var s := PreprocessingController.ScriptPath(controllerDir);
      var p := PreprocessingController.DatasetPath(cwd, Registry.FindByName(records, req.dataset).value.path);
      var exit := Prepro.Script(PreproArgv(req.flags, s, p), pyParse, load, failure, ms);
      var reply := PreprocessingController.PreprocessDataset(
        req, Registry.Answered(records), cwd, controllerDir, existing, Completion(exit, dumps, stderr), parse);
      reply.response == Response(500, ErrorDetails(PreprocessingController.ExecFailedMessage, JStr(stderr)))
  {
    var s := PreprocessingController.ScriptPath(controllerDir);
    var p := PreprocessingController.DatasetPath(cwd, Registry.FindByName(records, req.dataset).value.path);
    PreproScriptNeverRuns(req.flags, s, p, pyParse);
  }

  // ---------------------------------------------------------------------
  // Analysis: keys written and keys read
  // ---------------------------------------------------------------------

  /** The page reads `NoOfNormalSamples` and `NoOfAttackSamples`; the
      script writes `NoofNormalSamples` and `NoofAttackSamples`. */
  lemma PageKeysNotWritten()
    ensures DataVisualization.NormalSamplesKey !in AnalyzeDataset.AnalysisKeys
    ensures DataVisualization.AttackSamplesKey !in AnalyzeDataset.AnalysisKeys
  {
    var ks := AnalyzeDataset.AnalysisKeys;
    assert ks[7][2] != DataVisualization.NormalSamplesKey[2];
    assert ks[8][2] != DataVisualization.AttackSamplesKey[2];
    assert ks[7][2] != DataVisualization.AttackSamplesKey[2];
    assert ks[8][2] != DataVisualization.NormalSamplesKey[2];
  }

  /** So for any analysis the script prints, both pie slices are 0. */
  lemma PieOfScriptOutputIsEmpty(a: AnalyzeDataset.Analysis)
    ensures DataVisualization.PieData(AnalyzeDataset.AnalysisJson(a)) == [("Normal", JNum(0.0)), ("Attack", JNum(0.0))]
  {
    PageKeysNotWritten();
    DataVisualization.PieNeedsExactKeys(AnalyzeDataset.AnalysisJson(a));
  }

  /** The two entries of the printed analysis the bar chart reads. */
  lemma AnalysisJsonReads(a: AnalyzeDataset.Analysis)
    ensures var fs := AnalyzeDataset.AnalysisJson(a).fields;
      && Lookup(fs, DataVisualization.SamplesPerClassKey) == Some(JObj(AnalyzeDataset.CountsJson(a.samplesPerClass)))
      && Lookup(fs, DataVisualization.NormalClassKey) == Some(JStr(a.normalClass))
  {
    SamplesPerClassRead(a);
    NormalClassRead(a);
  }

  lemma SamplesPerClassRead(a: AnalyzeDataset.Analysis)
    ensures Lookup(AnalyzeDataset.AnalysisJson(a).fields, DataVisualization.SamplesPerClassKey)
      == Some(JObj(AnalyzeDataset.CountsJson(a.samplesPerClass)))
  {
    var fs := AnalyzeDataset.AnalysisJson(a).fields;
    var ks := AnalyzeDataset.AnalysisKeys;
    assert Keys(fs) == ks;
    assert fs[6] == (DataVisualization.SamplesPerClassKey, JObj(AnalyzeDataset.CountsJson(a.samplesPerClass))) by {
      assert Keys(fs)[6] == ks[6];
    }
    forall j | 6 < j < |fs|
      ensures fs[j].0 != fs[6].0
    {
      assert Keys(fs)[j] == ks[j];
      assert |ks[j]| != |ks[6]|;
    }
    LookupLast(fs, 6);
  }

  lemma NormalClassRead(a: AnalyzeDataset.Analysis)
    ensures Lookup(AnalyzeDataset.AnalysisJson(a).fields, DataVisualization.NormalClassKey) == Some(JStr(a.normalClass))
  {
    var fs := AnalyzeDataset.AnalysisJson(a).fields;
    var ks := AnalyzeDataset.AnalysisKeys;
    assert Keys(fs) == ks;
    assert fs[9] == (DataVisualization.NormalClassKey, JStr(a.normalClass)) by {
      assert Keys(fs)[9] == ks[9];
    }
    assert fs[10].0 != fs[9].0 by {
      assert Keys(fs)[10] == ks[10];
      assert ks[10][0] != ks[9][0];
    }
    LookupLast(fs, 9);
  }

  /** A printed analysis, once fetched without error, always shows as the
      summary: its one object-valued field, `SamplesPerClass`, is not a
      field the page shows as text. */
  lemma ScriptAnalysisRenders(a: AnalyzeDataset.Analysis)
    ensures var j := AnalyzeDataset.AnalysisJson(a);
      DataVisualization.Render(DataVisualization.View(Some(j), false, None))
        == DataVisualization.Summary(
             DataVisualization.DisplayName(a.datasetName), DataVisualization.PieData(j), DataVisualization.AttackClassData(j))
  {
    var j := AnalyzeDataset.AnalysisJson(a);
    var v := DataVisualization.View(Some(j), false, None);
    DatasetNameRead(a);
    PrintedFieldsRender(a);
    var s := DataVisualization.Render(v);
    assert Truthy(j);
    assert s.Summary?;
  }

  lemma DatasetNameRead(a: AnalyzeDataset.Analysis)
    ensures Prop(AnalyzeDataset.AnalysisJson(a), DataVisualization.DatasetNameKey) == Some(JStr(a.datasetName))
  {
    var fs := AnalyzeDataset.AnalysisJson(a).fields;
    var ks := AnalyzeDataset.AnalysisKeys;
    assert Keys(fs) == ks;
    assert fs[0] == (DataVisualization.DatasetNameKey, JStr(a.datasetName)) by {
      assert Keys(fs)[0] == ks[0];
    }
    forall j | 0 < j < |fs|
      ensures fs[j].0 != fs[0].0
    {
      assert Keys(fs)[j] == ks[j];
      assert |ks[j]| != |ks[0]| || ks[j][0] != ks[0][0] || ks[j][7] != ks[0][7];
    }
    LookupLast(fs, 0);
  }

  /** Every value of the printed object except `SamplesPerClass` is a
      string, a number or an array of strings. */
  lemma PrintedValuesRender(a: AnalyzeDataset.Analysis)
    ensures var fs := AnalyzeDataset.AnalysisJson(a).fields;
      forall i :: 0 <= i < |fs| && fs[i].0 != DataVisualization.SamplesPerClassKey ==>
        DataVisualization.RenderableChild(fs[i].1)
  {
    var fs := AnalyzeDataset.AnalysisJson(a).fields;
    var ks := AnalyzeDataset.AnalysisKeys;
    assert Keys(fs) == ks;
    assert fs[6].0 == DataVisualization.SamplesPerClassKey by {
      assert Keys(fs)[6] == ks[6];
    }
    var classes := fs[10].1;
    assert classes.JArr? && forall k :: 0 <= k < |classes.items| ==> classes.items[k].JStr?;
  }

  /** A key of another length than `SamplesPerClass` reads a renderable
      value from the printed object, if any. */
  lemma PrintedKeyRenders(a: AnalyzeDataset.Analysis, k: string)
    requires |k| != |DataVisualization.SamplesPerClassKey|
    ensures var p := Prop(AnalyzeDataset.AnalysisJson(a), k);
      p.Some? ==> DataVisualization.RenderableChild(p.value)
  {
    var j := AnalyzeDataset.AnalysisJson(a);
    PrintedValuesRender(a);
    if Prop(j, k).Some? {
      var i :| 0 <= i < |j.fields| && j.fields[i] == (k, Prop(j, k).value);
    }
  }

  lemma PrintedFieldsRender(a: AnalyzeDataset.Analysis)
    ensures DataVisualization.FieldsRender(AnalyzeDataset.AnalysisJson(a))
  {
    PrintedKeyRenders(a, "DatasetType");
    PrintedKeyRenders(a, "Size(KB)");
    PrintedKeyRenders(a, "NoOfAttributes");
    PrintedKeyRenders(a, "TotalSamples");
    PrintedKeyRenders(a, "NoOfClasses");
    PrintedKeyRenders(a, DataVisualization.NormalSamplesKey);
    PrintedKeyRenders(a, DataVisualization.AttackSamplesKey);
  }

  /** Counts already largest first: the first is the normal class and
      the rest, in order, are the attack classes. */
  lemma SummariseOrdered(name: string, dtype: string, sizeKb: real, t: Table, counts: seq<(string, nat)>)
    requires |t.columns| > 0 && |counts| > 0
    requires AnalyzeDataset.NonIncreasing(counts)
    ensures var a := AnalyzeDataset.Summarise(name, dtype, sizeKb, t, counts).value;
      a.samplesPerClass == counts && a.normalClass == counts[0].0 && a.attackClasses == Keys(counts[1..])
  {
    AnalyzeDataset.SortKeepsOrderedCounts(counts);
  }

  /** Dropping the first entry's key from counts with distinct keys
      leaves the others. */
  lemma DropFirstClass(counts: seq<(string, nat)>)
    requires |counts| > 0
    requires forall i, j :: 0 <= i < j < |counts| ==> counts[i].0 != counts[j].0
    ensures var cj := AnalyzeDataset.CountsJson(counts);
      DataVisualization.WithoutClass(cj, JStr(counts[0].0)) == cj[1..]
      && Keys(cj[1..]) == Keys(counts[1..])
  {
    var cj := AnalyzeDataset.CountsJson(counts);
    var rest := cj[1..];
    forall i | 0 <= i < |rest|
      ensures Keys(rest)[i] == counts[i + 1].0
    {
      assert rest[i] == cj[i + 1];
      assert Keys(cj)[i + 1] == counts[i + 1].0;
    }
    assert Keys(rest) == Keys(counts[1..]);
    assert counts[0].0 !in Keys(rest);
    assert cj == [] + [(counts[0].0, cj[0].1)] + rest by {
      assert Keys(cj)[0] == counts[0].0;
    }
    DataVisualization.WithoutClassDropsOne([], counts[0].0, cj[0].1, rest);
  }

  /** With distinct class labels already in pandas' largest-first order,
      the page's bars are the script's attack classes, in order, with
      their counts. */
  lemma BarsAreAttackClasses(name: string, dtype: string, sizeKb: real, t: Table, counts: seq<(string, nat)>)
    requires |t.columns| > 0 && |counts| > 0
    requires AnalyzeDataset.NonIncreasing(counts)
    requires forall i, j :: 0 <= i < j < |counts| ==> counts[i].0 != counts[j].0
    ensures var a := AnalyzeDataset.Summarise(name, dtype, sizeKb, t, counts).value;
      var bars := DataVisualization.AttackClassData(AnalyzeDataset.AnalysisJson(a));
      && bars == AnalyzeDataset.CountsJson(counts)[1..]
      && Keys(bars) == a.attackClasses
  {
    SummariseOrdered(name, dtype, sizeKb, t, counts);
    var a := AnalyzeDataset.Summarise(name, dtype, sizeKb, t, counts).value;
    var v := AnalyzeDataset.AnalysisJson(a);
    AnalysisJsonReads(a);
    DataVisualization.AttackClassDataOf(v.fields, AnalyzeDataset.CountsJson(counts), counts[0].0);
    DropFirstClass(counts);
  }

  // ---------------------------------------------------------------------
  // An upload's name
  // ---------------------------------------------------------------------

  /** The upload middleware stores `<millis>-<original>` under a
      directory; the analysis names the dataset after the last `/`, and
      the page shows the original name up to its first dot. */
  lemma UploadNameShownAsOriginal(dir: string, millis: nat, original: string)
    requires '/' !in original && '\\' !in original
    ensures DataVisualization.DisplayName(AnalyzeDataset.DatasetName(dir + "/" + (NatStr(millis) + "-" + original)))
      == FirstSegment(original, '.')
  {
    var stored := NatStr(millis) + "-" + original;
    UploadNameHasNoSlash(NatStr(millis), original);
    AnalyzeDataset.DatasetNameAfterLastSlash(dir, stored);
    DataVisualization.DisplayNameOfUpload(millis, original);
  }

  lemma UploadNameHasNoSlash(d: string, original: string)
    requires AllDigits(d) && '/' !in original
    ensures '/' !in d + "-" + original
  {
    var stored := d + "-" + original;
    forall i | 0 <= i < |stored|
      ensures stored[i] != '/'
    {
      if i < |d| {
        assert IsDigit(d[i]);
      } else if i > |d| {
        assert stored[i] == original[i - |d| - 1];
      }
    }
  }
}

=== FILE: data_balancing.dfy ===
/** The data balancing page: four method checkboxes, an apply button and
    the "Balancing Method Applied" line of the summary it reveals. */
module DataBalancing {
  import opened Text

  /** The four methods, in the order the options object declares them. */
  datatype Method = Gans | Oversampling | Undersampling | ClassWeightAdjustment

  const Declared: seq<Method> := [Gans, Oversampling, Undersampling, ClassWeightAdjustment]

  /** The option key, which is also the checkbox's `name`. */
  function Name(m: Method): (n: string)
    ensures |n| > 0 && ',' !in n && !JsSpace(n[0])
  {
    match m
    case Gans => "GANS"
    case Oversampling => "Oversampling"
    case Undersampling => "Undersampling"
    case ClassWeightAdjustment => "ClassWeightAdjustment"
  }

  lemma NameInjective(m: Method, k: Method)
    ensures Name(m) == Name(k) <==> m == k
  {
    if m != k {
      assert |Name(m)| != |Name(k)|;
    }
  }

  datatype Options = Options(gans: bool, oversampling: bool, undersampling: bool, classWeightAdjustment: bool)

  /** `options[name]`. */
  function Get(o: Options, m: Method): bool {
    match m
    case Gans => o.gans
    case Oversampling => o.oversampling
    case Undersampling => o.undersampling
    case ClassWeightAdjustment => o.classWeightAdjustment
  }

  /** `{ ...o, [name]: b }`: the named option takes `b`, the others keep
      their values. */
  function Set(o: Options, m: Method, b: bool): (r: Options)
    ensures Get(r, m) == b
    ensures forall k :: k != m ==> Get(r, k) == Get(o, k)
  {
    match m
    case Gans => o.(gans := b)
    case Oversampling => o.(oversampling := b)
    case Undersampling => o.(undersampling := b)
    case ClassWeightAdjustment => o.(classWeightAdjustment := b)
  }

  datatype Page = Page(options: Options, showSummary: bool)

  /** Every option off and the summary hidden. */
  const InitialPage := Page(Options(false, false, false, false), false)

  lemma InitialPageIsClear()
    ensures forall m :: !Get(InitialPage.options, m)
    ensures !InitialPage.showSummary
  {
  }

  /** `handleCheckboxChange` for the box called `m`. */
  function OnCheckboxChange(p: Page, m: Method, checked: bool): (r: Page)
    ensures Get(r.options, m) == checked
    ensures forall k :: k != m ==> Get(r.options, k) == Get(p.options, k)
    ensures r.showSummary == p.showSummary
  {
    p.(options := Set(p.options, m, checked))
  }

  /** `handleApply`: reveals the summary and changes nothing else. */
  function OnApply(p: Page): (r: Page)
    ensures r.showSummary
    ensures r.options == p.options
  {
    p.(showSummary := true)
  }

  lemma ApplyIsIdempotent(p: Page)
    ensures OnApply(OnApply(p)) == OnApply(p)
  {
  }

  /** The names of the checked methods among `ms`, in the order of `ms`. */
  function CheckedAmong(ms: seq<Method>, o: Options): (ns: seq<string>)
    ensures |ns| <= |ms|
    ensures forall i :: 0 <= i < |ns| ==> |ns[i]| > 0 && ',' !in ns[i] && !JsSpace(ns[i][0])
    decreases |ms|
  {
    if |ms| == 0 then []
    else if Get(o, ms[0]) then [Name(ms[0])] + CheckedAmong(ms[1..], o)
    else CheckedAmong(ms[1..], o)
  }

  lemma {:induction false} CheckedAmongNames(ms: seq<Method>, o: Options, m: Method)
    ensures Name(m) in CheckedAmong(ms, o) <==> m in ms && Get(o, m)
    decreases |ms|
  {
    if |ms| > 0 {
      CheckedAmongNames(ms[1..], o, m);
      NameInjective(m, ms[0]);
      assert m in ms <==> m == ms[0] || m in ms[1..];
    }
  }

  /** `Object.keys(options).filter(key => options[key])`. */
  function CheckedNames(o: Options): seq<string> {
    CheckedAmong(Declared, o)
  }

  /** `... .join(', ') || 'None'`: an empty join is falsy. The line reads
      "None" exactly when no box is checked, and reading it back gives
      exactly the checked options. */
  function MethodsSummary(o: Options): (r: string)
    ensures r == "None" <==> forall m :: !Get(o, m)
    ensures Decode(r) == o
  {
    var ns := CheckedNames(o);
    if |ns| == 0 then
      NothingCheckedReadsNone(o);
      "None"
    else
      SomethingCheckedReadsNames(o);
      Join(ns, ", ")
  }

  /** A method is listed exactly when its box is checked. */
  lemma ListedIffChecked(o: Options, m: Method)
    ensures Name(m) in CheckedNames(o) <==> Get(o, m)
  {
    CheckedAmongNames(Declared, o, m);
  }

  /** With no name listed, no box is checked and "None" reads back as
      no option. */
  lemma NothingCheckedReadsNone(o: Options)
    requires |CheckedNames(o)| == 0
    ensures forall m :: !Get(o, m)
    ensures Decode("None") == o
  {
    forall m
      ensures !Get(o, m)
    {
      ListedIffChecked(o, m);
    }
    NoneDecodesEmpty();
    assert o == Options(false, false, false, false);
  }

  /** "None" names no option. */
  lemma NoneDecodesEmpty()
    ensures Decode("None") == Options(false, false, false, false)
  {
    SplitWithoutSep("None", ',');
    TrimStartOfName("None");
    assert Pieces("None") == ["None"];
    NoneIsNoName(Gans);
    NoneIsNoName(Oversampling);
    NoneIsNoName(Undersampling);
    NoneIsNoName(ClassWeightAdjustment);
  }

  /** With some name listed, some box is checked, the join is not "None"
      and it reads back as the checked options. */
  lemma SomethingCheckedReadsNames(o: Options)
    requires |CheckedNames(o)| > 0
    ensures exists m :: Get(o, m)
    ensures Join(CheckedNames(o), ", ") != "None"
    ensures Decode(Join(CheckedNames(o), ", ")) == o
  {
    var ns := CheckedNames(o);
    ListedIffChecked(o, Gans);
    ListedIffChecked(o, Oversampling);
    ListedIffChecked(o, Undersampling);
    ListedIffChecked(o, ClassWeightAdjustment);
    var s := Join(ns, ", ");
    JoinCommaStartsWithHead(ns);
    assert s[0] == ns[0][0];
    assert ns[0] in ns;
    assert "None"[0] == 'N';
    assert ns[0][0] != 'N';
    PiecesOfJoin(ns);
  }

  lemma JoinCommaStartsWithHead(ns: seq<string>)
    requires |ns| > 0 && |ns[0]| > 0
    ensures |Join(ns, ", ")| > 0 && Join(ns, ", ")[0] == ns[0][0]
  {
  }

  // ---------------------------------------------------------------------
  // Reading the summary back
  // ---------------------------------------------------------------------

  /** The pieces of a summary line: split at the commas, leading white
      space dropped. */
  function Pieces(s: string): (ps: seq<string>)
    ensures |ps| == |Split(s, ',')|
  {
    var raw := Split(s, ',');
    seq(|raw|, i requires 0 <= i < |raw| => TrimStart(raw[i], JsSpace))
  }

  /** The options a summary line names. */
  function Decode(s: string): Options {
    var ps := Pieces(s);
    Options(Name(Gans) in ps, Name(Oversampling) in ps, Name(Undersampling) in ps, Name(ClassWeightAdjustment) in ps)
  }

  function Spaced(ns: seq<string>): (r: seq<string>)
    ensures |r| == |ns|
    ensures forall i :: 0 <= i < |ns| ==> r[i] == " " + ns[i]
  {
    seq(|ns|, i requires 0 <= i < |ns| => " " + ns[i])
  }

  /** Splitting a `", "`-join of comma-free names at the commas gives the
      first name and the others with their leading space. */
  lemma {:induction false} SplitCommaJoin(ns: seq<string>)
    requires |ns| > 0
    requires forall i :: 0 <= i < |ns| ==> ',' !in ns[i]
    ensures Split(Join(ns, ", "), ',') == [ns[0]] + Spaced(ns[1..])
    decreases |ns|
  {
    if |ns| == 1 {
      SplitWithoutSep(ns[0], ',');
      assert Spaced(ns[1..]) == [];
    } else {
      var tail := Join(ns[1..], ", ");
      assert Join(ns, ", ") == ns[0] + [','] + (" " + tail);
      SplitAtSep(ns[0], " " + tail, ',');
      SplitCommaJoin(ns[1..]);
      var rest := Split(tail, ',');
      assert (" " + tail)[1..] == tail;
      assert Split(" " + tail, ',') == [" " + rest[0]] + rest[1..];
      assert rest[1..] == Spaced(ns[2..]);
      assert [" " + ns[1]] + Spaced(ns[2..]) == Spaced(ns[1..]);
    }
  }

  lemma TrimStartOfName(n: string)
    requires |n| > 0 && !JsSpace(n[0])
    ensures TrimStart(n, JsSpace) == n
    ensures TrimStart(" " + n, JsSpace) == n
  {
    assert (" " + n)[1..] == n;
  }

  /** The pieces of a summary of checked boxes are their names. */
  lemma PiecesOfJoin(ns: seq<string>)
    requires |ns| > 0
    requires forall i :: 0 <= i < |ns| ==> |ns[i]| > 0 && ',' !in ns[i] && !JsSpace(ns[i][0])
    ensures Pieces(Join(ns, ", ")) == ns
  {
    var j := Join(ns, ", ");
    SplitCommaJoin(ns);
    var raw := Split(j, ',');
    var spaced := Spaced(ns[1..]);
    assert raw == [ns[0]] + spaced;
    var ps := Pieces(j);
    assert |ps| == |ns|;
    forall i | 0 <= i < |ns|
      ensures ps[i] == ns[i]
    {
      assert ps[i] == TrimStart(raw[i], JsSpace);
      TrimStartOfName(ns[i]);
      if i > 0 {
        assert raw[i] == spaced[i - 1];
        assert ns[1..][i - 1] == ns[i];
      }
    }
  }

  lemma NoneIsNoName(m: Method)
    ensures Name(m) !in ["None"]
  {
    assert Name(m) != "None" by {
      if m == Gans {
        assert Name(m)[0] != "None"[0];
      }
    }
  }
}

=== FILE: data_visualization.dfy ===
/** The data visualisation page: the analysis it picks for the selected
    dataset, which screen it shows, and the three things it derives from
    an analysis (the displayed dataset name, the normal-versus-attack pie
    and the per-class bars). */
module DataVisualization {
  import opened Wrappers
  import opened Text
  import opened Fields
  import opened Json
  import opened Registry

  // ---------------------------------------------------------------------
  // Page state
  // ---------------------------------------------------------------------

  const FetchFailedMessage := "Failed to fetch data"

  /** The three pieces of component state. */
  datatype View = View(analysis: Option<Json>, loading: bool, error: Option<string>)

  /** Before the effect has run: no analysis, loading, no error. */
  const Initial := View(None, true, None)

  /** The outcome of `fetchAnalysisData()`: the stored records, or a
      rejected request. */
  datatype Fetch = Fetched(records: seq<DatasetRecord>) | FetchFailed

  /** `!selectedDataset`: no selection, or the empty name. */
  predicate NoSelection(selected: Option<string>) {
    selected.None? || selected.value == ""
  }

  /** The analysis the page keeps for a fetched record list: that of the
      first record with the selected name, or none. */
  function AnalysisFor(records: seq<DatasetRecord>, name: string): (a: Option<Json>)
    ensures (forall i :: 0 <= i < |records| ==> records[i].name != name) ==> a.None?
    ensures forall i :: FirstNamedAt(records, name, i) ==> a == records[i].analysis
  {
    match FindByName(records, name)
    case None => None
    case Some(r) =>
      forall i | FirstNamedAt(records, name, i)
        ensures records[i] == r
      {
        var j :| FirstNamedAt(records, name, j) && records[j] == r;
        FirstNamedAtUnique(records, name, i, j);
      }
      r.analysis
  }

  lemma FirstNamedAtUnique(records: seq<DatasetRecord>, name: string, i: int, j: int)
    requires FirstNamedAt(records, name, i) && FirstNamedAt(records, name, j)
    ensures i == j
  {
  }

  /** The effect for one selection. With no selection the analysis is
      dropped and loading ends without a fetch; otherwise loading ends
      with the fetched record's analysis or, on a failed fetch, with the
      error set and the analysis left as it was. An error once set is
      never cleared. */
  function OnSelection(v: View, selected: Option<string>, fetch: Fetch): (w: View)
    ensures !w.loading
    ensures NoSelection(selected) ==> w == View(None, false, v.error)
    ensures !NoSelection(selected) && fetch.FetchFailed? ==> w == View(v.analysis, false, Some(FetchFailedMessage))
    ensures !NoSelection(selected) && fetch.Fetched? ==>
      w == View(AnalysisFor(fetch.records, selected.value), false, v.error)
    ensures v.error.Some? ==> w.error.Some?
  {
    if NoSelection(selected) then v.(analysis := None, loading := false)
    else
      match fetch
      case FetchFailed => v.(error := Some(FetchFailedMessage), loading := false)
      case Fetched(records) => v.(analysis := AnalysisFor(records, selected.value), loading := false)
  }

  // ---------------------------------------------------------------------
  // Derived data
  // ---------------------------------------------------------------------

  /** `v || 0` for a property that may be missing. */
  function OrZero(p: Option<Json>): (y: Json)
    ensures y == JNum(0.0) || (p.Some? && y == p.value && Truthy(y))
  {
    if p.Some? && Truthy(p.value) then p.value else JNum(0.0)
  }

  const NormalSamplesKey := "NoOfNormalSamples"
  const AttackSamplesKey := "NoOfAttackSamples"

  /** `normalVsAttackData`: the normal slice, then the attack slice. */
  function PieData(analysis: Json): (d: seq<(string, Json)>)
    ensures |d| == 2 && d[0].0 == "Normal" && d[1].0 == "Attack"
    ensures d[0].1 == OrZero(Prop(analysis, NormalSamplesKey))
    ensures d[1].1 == OrZero(Prop(analysis, AttackSamplesKey))
  {
    [("Normal", OrZero(Prop(analysis, NormalSamplesKey))), ("Attack", OrZero(Prop(analysis, AttackSamplesKey)))]
  }

  /** A slice is non-zero only when the analysis has a truthy value under
      the exact key the page reads. */
  lemma PieNeedsExactKeys(analysis: Json)
    requires analysis.JObj?
    requires NormalSamplesKey !in Keys(analysis.fields) && AttackSamplesKey !in Keys(analysis.fields)
    ensures PieData(analysis) == [("Normal", JNum(0.0)), ("Attack", JNum(0.0))]
  {
  }

  /** `.filter(([className]) => className !== normal)`: the entries whose
      key is not the normal class, in order. */
  function WithoutClass(es: seq<(string, Json)>, normal: Json): (r: seq<(string, Json)>)
    ensures forall e :: e in r <==> e in es && JStr(e.0) != normal
    ensures |r| <= |es|
    decreases |es|
  {
    if |es| == 0 then []
    else if JStr(es[0].0) != normal then [es[0]] + WithoutClass(es[1..], normal)
    else WithoutClass(es[1..], normal)
  }

  /** The filter keeps a list without the normal class as it is. */
  lemma {:induction false} WithoutAbsentClass(es: seq<(string, Json)>, normal: string)
    requires normal !in Keys(es)
    ensures WithoutClass(es, JStr(normal)) == es
    decreases |es|
  {
    if |es| > 0 {
      assert normal !in Keys(es[1..]) by {
        assert forall i :: 0 <= i < |es[1..]| ==> Keys(es[1..])[i] == Keys(es)[i + 1];
      }
      WithoutAbsentClass(es[1..], normal);
      assert Keys(es)[0] == es[0].0;
      assert es == [es[0]] + es[1..];
    }
  }

  lemma {:induction false} WithoutClassConcat(a: seq<(string, Json)>, b: seq<(string, Json)>, normal: Json)
    ensures WithoutClass(a + b, normal) == WithoutClass(a, normal) + WithoutClass(b, normal)
    decreases |a|
  {
    if |a| == 0 {
      assert a + b == b;
    } else {
      assert (a + b)[1..] == a[1..] + b;
      WithoutClassConcat(a[1..], b, normal);
    }
  }

  /** The filter drops exactly the normal class's entry. */
  lemma WithoutClassDropsOne(a: seq<(string, Json)>, normal: string, count: Json, b: seq<(string, Json)>)
    requires normal !in Keys(a) && normal !in Keys(b)
    ensures WithoutClass(a + [(normal, count)] + b, JStr(normal)) == a + b
  {
    var n := JStr(normal);
    var one := [(normal, count)];
    assert WithoutClass(one, n) == [] by {
      assert one[1..] == [];
    }
    var head := a + one;
    assert WithoutClass(head, n) == a by {
      WithoutClassConcat(a, one, n);
      WithoutAbsentClass(a, normal);
    }
    assert WithoutClass(head + b, n) == a + b by {
      WithoutClassConcat(head, b, n);
      WithoutAbsentClass(b, normal);
    }
  }

  const SamplesPerClassKey := "SamplesPerClass"
  const NormalClassKey := "NormalClass"

  /** `attackClassData`: the entries of `SamplesPerClass || {}` without
      the normal class. */
  function AttackClassData(analysis: Json): (d: seq<(string, Json)>)
    ensures Prop(analysis, SamplesPerClassKey).None? ==> d == []
  {
    var counts := Prop(analysis, SamplesPerClassKey);
    var normal := Prop(analysis, NormalClassKey);
    var entries := if counts.Some? && Truthy(counts.value) then OwnEntries(counts.value) else [];
    // `className !== undefined` holds for every key.
    WithoutClass(entries, if normal.Some? then normal.value else JNull)
  }

  /** With an object of counts and a normal class, the bars are the
      counts' entries with the normal class taken out, order and values
      kept. */
  lemma AttackBarsOfCounts(fs: seq<(string, Json)>, counts: seq<(string, Json)>, normal: string)
    requires Lookup(fs, SamplesPerClassKey) == Some(JObj(counts))
    requires Lookup(fs, NormalClassKey) == Some(JStr(normal))
    ensures forall e :: e in AttackClassData(JObj(fs)) <==> e in counts && e.0 != normal
    ensures normal !in Keys(counts) ==> AttackClassData(JObj(fs)) == counts
  {
    if normal !in Keys(counts) {
      WithoutAbsentClass(counts, normal);
    }
  }

  lemma AttackClassDataOf(fs: seq<(string, Json)>, counts: seq<(string, Json)>, normal: string)
    requires Lookup(fs, SamplesPerClassKey) == Some(JObj(counts))
    requires Lookup(fs, NormalClassKey) == Some(JStr(normal))
    ensures AttackClassData(JObj(fs)) == WithoutClass(counts, JStr(normal))
  {
  }

  /** The leading run of decimal digits. */
  function LeadingDigits(s: string): (n: nat)
    ensures n <= |s| && AllDigits(s[..n])
    ensures n < |s| ==> !IsDigit(s[n])
    decreases |s|
  {
    if |s| > 0 && IsDigit(s[0]) then
      var n := 1 + LeadingDigits(s[1..]);
      assert s[..n] == [s[0]] + s[1..][..n - 1];
      n
    else 0
  }

  lemma {:induction false} LeadingDigitsOf(d: string, rest: string)
    requires AllDigits(d)
    requires |rest| > 0 && !IsDigit(rest[0])
    ensures LeadingDigits(d + rest) == |d|
    decreases |d|
  {
    if |d| > 0 {
      assert (d + rest)[1..] == d[1..] + rest;
      LeadingDigitsOf(d[1..], rest);
    } else {
      assert d + rest == rest;
    }
  }

  /** `.replace(/^\d+-/, '')`: one leading run of digits followed by `-`
      is removed; anything else is left alone. */
  function StripUploadPrefix(s: string): (r: string)
    ensures r == s || (exists n :: 0 < n < |s| && AllDigits(s[..n]) && s[n] == '-' && r == s[n + 1..])
    ensures |s| == 0 || !IsDigit(s[0]) ==> r == s
  {
    var n := LeadingDigits(s);
    if 0 < n < |s| && s[n] == '-' then s[n + 1..] else s
  }

  lemma StripUploadPrefixOf(d: string, rest: string)
    requires |d| > 0 && AllDigits(d)
    ensures StripUploadPrefix(d + "-" + rest) == rest
  {
    var s := d + "-" + rest;
    assert s == d + ("-" + rest);
    LeadingDigitsOf(d, "-" + rest);
    assert s[|d|] == '-';
    assert s[|d| + 1..] == rest;
  }

  /** The shown dataset name: after the last backslash, without the
      upload prefix, up to the first dot. It names no directory and has
      no extension. */
  function DisplayName(datasetName: string): (r: string)
    ensures '.' !in r && '\\' !in r
    ensures |r| <= |datasetName|
  {
    var file := LastSegment(datasetName, '\\');
    var original := StripUploadPrefix(file);
    assert '\\' !in original && |original| <= |file| by {
      if original != file {
        var n :| 0 < n < |file| && AllDigits(file[..n]) && file[n] == '-' && original == file[n + 1..];
        assert forall k :: 0 <= k < |original| ==> original[k] == file[n + 1 + k];
      }
    }
    FirstSegment(original, '.')
  }

  /** A stored upload name `<millis>-<original>` shows as the original
      name up to its first dot. */
  lemma DisplayNameOfUpload(millis: nat, original: string)
    requires '\\' !in original
    ensures DisplayName(NatStr(millis) + "-" + original) == FirstSegment(original, '.')
  {
    var d := NatStr(millis);
    var s := d + "-" + original;
    forall i | 0 <= i < |s|
      ensures s[i] != '\\'
    {
      if i < |d| {
        assert IsDigit(d[i]);
      } else if i > |d| {
        assert s[i] == original[i - |d| - 1];
      }
    }
    LastSegmentWithoutSep(s, '\\');
    StripUploadPrefixOf(d, original);
  }

  // ---------------------------------------------------------------------
  // Screens
  // ---------------------------------------------------------------------

  const DatasetNameKey := "DatasetName"

  /** A value React accepts as a child: anything but an object, and an
      array only when each of its items is one. */
  predicate RenderableChild(v: Json) {
    match v
    case JObj(_) => false
    case JArr(items) => forall i :: 0 <= i < |items| ==> RenderableChild(items[i])
    case _ => true
  }

  /** `{analysis[k]}`: an absent field renders nothing. */
  predicate FieldRenders(a: Json, k: string) {
    Prop(a, k).None? || RenderableChild(Prop(a, k).value)
  }

  /** `{analysis[k] || 'Data not available'}`: a falsy field is replaced
      by the text. */
  predicate DefaultedFieldRenders(a: Json, k: string) {
    Prop(a, k).None? || !Truthy(Prop(a, k).value) || RenderableChild(Prop(a, k).value)
  }

  /** Every field the summary shows is something React can render: four
      shown as they are, three with a fallback text. */
  predicate FieldsRender(a: Json) {
    && FieldRenders(a, "DatasetType")
    && FieldRenders(a, "Size(KB)")
    && FieldRenders(a, "NoOfAttributes")
    && FieldRenders(a, "TotalSamples")
    && DefaultedFieldRenders(a, "NoOfClasses")
    && DefaultedFieldRenders(a, NormalSamplesKey)
    && DefaultedFieldRenders(a, AttackSamplesKey)
  }

  /** What the page renders. `Crashed` is a render that throws: because
      `DatasetName` is not a string, or because a shown field is an
      object. */
  datatype Screen =
    | Spinner
    | ErrorText(message: string)
    | NoAnalysis
    | Summary(displayName: string, pie: seq<(string, Json)>, bars: seq<(string, Json)>)
    | Crashed

  function Render(v: View): (s: Screen)
    ensures v.loading ==> s == Spinner
    ensures !v.loading && v.error.Some? && v.error.value != "" ==> s == ErrorText(v.error.value)
    ensures s.Summary? ==> v.analysis.Some? && Truthy(v.analysis.value)
    ensures s.Summary? ==> s.pie == PieData(v.analysis.value) && s.bars == AttackClassData(v.analysis.value)
    ensures s.Summary? ==>
      && Prop(v.analysis.value, DatasetNameKey).Some? && Prop(v.analysis.value, DatasetNameKey).value.JStr?
      && s.displayName == DisplayName(Prop(v.analysis.value, DatasetNameKey).value.s)
    ensures s.Summary? ==> FieldsRender(v.analysis.value)
    ensures s == NoAnalysis <==>
      !v.loading && (v.error.None? || v.error.value == "") && (v.analysis.None? || !Truthy(v.analysis.value))
    ensures !v.loading && (v.error.None? || v.error.value == "") && v.analysis.Some? && Truthy(v.analysis.value) ==>
      (s.Summary? <==>
        && Prop(v.analysis.value, DatasetNameKey).Some? && Prop(v.analysis.value, DatasetNameKey).value.JStr?
        && FieldsRender(v.analysis.value))
  {
    if v.loading then Spinner
    else if v.error.Some? && v.error.value != "" then ErrorText(v.error.value)
    else if v.analysis.None? || !Truthy(v.analysis.value) then NoAnalysis
    else
      var a := v.analysis.value;
      match Prop(a, DatasetNameKey)
      case Some(JStr(n)) =>
        if FieldsRender(a) then Summary(DisplayName(n), PieData(a), AttackClassData(a)) else Crashed
      case _ => Crashed
  }

  /** After a failed fetch the page shows the error for every later
      selection, whatever is fetched. */
  lemma ErrorSticks(v: View, selected: Option<string>, fetch: Fetch)
    requires v.error == Some(FetchFailedMessage)
    ensures Render(OnSelection(v, selected, fetch)) == ErrorText(FetchFailedMessage)
  {
  }
}

=== FILE: fields.dfy ===
/** String-keyed entries in insertion order: a JavaScript object's own
    properties, a Python dict, an environment block. Reads answer from the
    LAST entry with the key, so a sequence with a repeated key behaves as
    `JSON.parse` does (the later value wins). */
module Fields {
  import opened Wrappers

  function Keys<V>(es: seq<(string, V)>): (ks: seq<string>)
    ensures |ks| == |es|
    ensures forall i :: 0 <= i < |es| ==> ks[i] == es[i].0
  {
    seq(|es|, i requires 0 <= i < |es| => es[i].0)
  }

  /** `obj[k]`: the value of the last entry with key `k`, if any. */
  function Lookup<V>(es: seq<(string, V)>, k: string): (r: Option<V>)
    ensures r.None? <==> k !in Keys(es)
    ensures r.Some? ==> (k, r.value) in es
    decreases |es|
  {
    if |es| == 0 then None
    else
      var later := Lookup(es[1..], k);
      if later.Some? then later
      else if es[0].0 == k then Some(es[0].1)
      else None
  }

  /** `obj[k] = v`: every entry with key `k` takes the value `v` in place;
      a new key is appended at the end. */
  function Put<V>(es: seq<(string, V)>, k: string, v: V): (r: seq<(string, V)>)
    ensures Lookup(r, k) == Some(v)
    ensures forall k' :: k' != k ==> Lookup(r, k') == Lookup(es, k')
    ensures k in Keys(es) ==> Keys(r) == Keys(es)
    ensures k !in Keys(es) ==> Keys(r) == Keys(es) + [k]
  {
    if k in Keys(es) then SetExisting(es, k, v) else
      var r := es + [(k, v)];
      AppendLookup(es, k, v);
      r
  }

  function SetExisting<V>(es: seq<(string, V)>, k: string, v: V): (r: seq<(string, V)>)
    requires k in Keys(es)
    ensures Lookup(r, k) == Some(v)
    ensures forall k' :: k' != k ==> Lookup(r, k') == Lookup(es, k')
    ensures Keys(r) == Keys(es)
    decreases |es|
  {
    var head := if es[0].0 == k then (k, v) else es[0];
    if k in Keys(es[1..]) then
      var r := [head] + SetExisting(es[1..], k, v);
      assert r[1..] == SetExisting(es[1..], k, v);
      r
    else
      var r := [head] + es[1..];
      assert r[1..] == es[1..];
      r
  }

  lemma {:induction false} AppendLookup<V>(es: seq<(string, V)>, k: string, v: V)
    ensures Lookup(es + [(k, v)], k) == Some(v)
    ensures forall k' :: k' != k ==> Lookup(es + [(k, v)], k') == Lookup(es, k')
    decreases |es|
  {
    if |es| > 0 {
      assert (es + [(k, v)])[1..] == es[1..] + [(k, v)];
      AppendLookup(es[1..], k, v);
    }
  }

  /** Object spread `{...a, ...b}`: `b`'s entries are written into `a` one
      by one, so `b` wins on shared keys and `a`'s key order comes first. */
  function Merge<V>(a: seq<(string, V)>, b: seq<(string, V)>): (r: seq<(string, V)>)
    ensures forall k :: Lookup(r, k) == if Lookup(b, k).Some? then Lookup(b, k) else Lookup(a, k)
    decreases |b|
  {
    if |b| == 0 then a else Merge(Put(a, b[0].0, b[0].1), b[1..])
  }

  /** The entries pairing `keys` with `values`, position by position. */
  function Entries<V>(keys: seq<string>, values: seq<V>): (r: seq<(string, V)>)
    requires |keys| == |values|
    ensures Keys(r) == keys
    ensures forall i :: 0 <= i < |keys| ==> r[i] == (keys[i], values[i])
  {
    seq(|keys|, i requires 0 <= i < |keys| => (keys[i], values[i]))
  }

  /** An entry no later entry shadows is what a read of its key finds. */
  lemma {:induction false} LookupLast<V>(es: seq<(string, V)>, i: nat)
    requires i < |es|
    requires forall j :: i < j < |es| ==> es[j].0 != es[i].0
    ensures Lookup(es, es[i].0) == Some(es[i].1)
    decreases |es|
  {
    var k := es[i].0;
    if i == 0 {
      assert k !in Keys(es[1..]) by {
        forall j | 0 <= j < |es[1..]|
          ensures Keys(es[1..])[j] != k
        {
          assert es[1..][j] == es[j + 1];
        }
      }
    } else {
      assert es[1..][i - 1] == es[i];
      assert forall j :: i - 1 < j < |es[1..]| ==> es[1..][j] == es[j + 1];
      LookupLast(es[1..], i - 1);
    }
  }
}

=== FILE: frames.dfy ===
/** What the Python scripts learn about a loaded CSV, at column level: a
    name, an abstract dtype tag and the column's value counts. The dtype
    and the order of the value counts are whatever pandas infers; they are
    taken as given. */
module Frames {
  import opened Wrappers

  /** The pandas dtypes the scripts distinguish. */
  datatype DType = Int64 | Float64 | Bool | Object | Category | Datetime

  /** `select_dtypes(include=["number"])`: booleans and datetimes are not numbers. */
  predicate IsNumeric(t: DType) {
    t == Int64 || t == Float64
  }

  /** `dtype == 'object' or dtype == 'category'`. */
  predicate IsCategorical(t: DType) {
    t == Object || t == Category
  }

  /** A column with its non-null value counts, as `value_counts()` orders
      them (pandas orders by count, largest first; ties are its choice). */
  datatype Column = Column(name: string, dtype: DType, valueCounts: seq<(string, nat)>)

  /** A loaded table: its columns in file order and its row count. */
  datatype Table = Table(columns: seq<Column>, rowCount: nat)

  function Names(cols: seq<Column>): (ns: seq<string>)
    ensures |ns| == |cols|
    ensures forall i :: 0 <= i < |cols| ==> ns[i] == cols[i].name
  {
    seq(|cols|, i requires 0 <= i < |cols| => cols[i].name)
  }

  /** Total of the counts. */
  function Sum(cs: seq<(string, nat)>): nat {
    if |cs| == 0 then 0 else cs[0].1 + Sum(cs[1..])
  }

  lemma {:induction false} SumAppend(a: seq<(string, nat)>, b: seq<(string, nat)>)
    ensures Sum(a + b) == Sum(a) + Sum(b)
    decreases |a|
  {
    if |a| == 0 {
      assert a + b == b;
    } else {
      assert (a + b)[1..] == a[1..] + b;
      SumAppend(a[1..], b);
    }
  }
}

=== FILE: gan_balancing.dfy ===
/** The GAN balancing script: every `attack_cat` class below the largest
    class count is topped up with generated rows until it reaches that
    count. Generated feature vectors are opaque (a parameter); what is
    modelled is which rows are added, with which class and label, and when
    the distance bookkeeping fails on mismatched tensor shapes. */
module GanBalancing {
  import opened Wrappers
  import opened Text

  /** A data row: its feature values (every column but the last two), the
      `label` column and the `attack_cat` column, `None` where that cell is
      missing (NaN). */
  datatype Row = Row(features: seq<real>, labelValue: int, attackCat: Option<string>)

  /** `(df['attack_cat'] == c).sum()`. */
  function Count(rows: seq<Row>, c: string): (n: nat)
    ensures n <= |rows|
  {
    if |rows| == 0 then 0 else (if rows[0].attackCat == Some(c) then 1 else 0) + Count(rows[1..], c)
  }

  lemma {:induction false} CountAppend(a: seq<Row>, b: seq<Row>, c: string)
    ensures Count(a + b, c) == Count(a, c) + Count(b, c)
    decreases |a|
  {
    if |a| == 0 {
      assert a + b == b;
    } else {
      assert (a + b)[1..] == a[1..] + b;
      CountAppend(a[1..], b, c);
    }
  }

  /** `df['attack_cat'].isna().sum()`: the rows no class count sees. */
  function Missing(rows: seq<Row>): (n: nat)
    ensures n <= |rows|
  {
    if |rows| == 0 then 0 else (if rows[0].attackCat.None? then 1 else 0) + Missing(rows[1..])
  }

  lemma {:induction false} MissingAppend(a: seq<Row>, b: seq<Row>)
    ensures Missing(a + b) == Missing(a) + Missing(b)
    decreases |a|
  {
    if |a| == 0 {
      assert a + b == b;
    } else {
      assert (a + b)[1..] == a[1..] + b;
      MissingAppend(a[1..], b);
    }
  }

  predicate Distinct(cs: seq<string>) {
    forall i, j :: 0 <= i < j < |cs| ==> cs[i] != cs[j]
  }

  /** The index of `value_counts()`: each class present exactly once, in
      an order pandas chooses; a missing class is not among them. */
  predicate IsClassOrder(order: seq<string>, rows: seq<Row>) {
    && Distinct(order)
    && (forall i :: 0 <= i < |rows| && rows[i].attackCat.Some? ==> rows[i].attackCat.value in order)
    && (forall k :: 0 <= k < |order| ==> Count(rows, order[k]) > 0)
  }

  /** `class_counts.max()`; 0 when there is no class at all. */
  function TargetCount(rows: seq<Row>, order: seq<string>): (t: nat)
    ensures forall k :: 0 <= k < |order| ==> Count(rows, order[k]) <= t
    ensures |order| > 0 ==> exists k :: 0 <= k < |order| && Count(rows, order[k]) == t
    ensures |order| == 0 ==> t == 0
    decreases |order|
  {
    if |order| == 0 then 0
    else
      var rest := TargetCount(rows, order[1..]);
      var here := Count(rows, order[0]);
      if here >= rest then here
      else
        assert |order[1..]| > 0;
        var k :| 0 <= k < |order[1..]| && Count(rows, order[1..][k]) == rest;
        assert order[k + 1] == order[1..][k];
        rest
  }

  /** `class_counts[class_counts < target_count].index`, order kept. */
  function Minority(rows: seq<Row>, order: seq<string>, target: nat): (m: seq<string>)
    ensures forall c :: c in m <==> c in order && Count(rows, c) < target
    ensures Distinct(order) ==> Distinct(m)
    ensures |m| <= |order|
    decreases |order|
  {
    if |order| == 0 then []
    else
      var rest := Minority(rows, order[1..], target);
      if Count(rows, order[0]) < target then
        assert Distinct(order) ==> order[0] !in order[1..];
        [order[0]] + rest
      else rest
  }

  /** The rows generated for class `c`: `k` rows of that class, label 1. */
  function Synthetic(c: string, k: nat, gen: (string, nat) -> seq<real>): (rs: seq<Row>)
    ensures |rs| == k
    ensures forall i :: 0 <= i < k ==> rs[i] == Row(gen(c, i), 1, Some(c))
  {
    seq(k, i requires 0 <= i < k => Row(gen(c, i), 1, Some(c)))
  }

  lemma SyntheticCount(c: string, k: nat, gen: (string, nat) -> seq<real>, d: string)
    ensures Count(Synthetic(c, k, gen), d) == if d == c then k else 0
    decreases k
  {
    var rs := Synthetic(c, k, gen);
    if k > 0 {
      SyntheticCount(c, k - 1, gen, d);
      assert rs == Synthetic(c, k - 1, gen) + [rs[k - 1]];
      CountAppend(Synthetic(c, k - 1, gen), [rs[k - 1]], d);
    }
  }

  /** Subtracting the first `min(n, k)` of `k` generated rows from `n` real
      rows broadcasts only when the row counts agree or one of them is 1. */
  predicate ShapesBroadcast(n: nat, k: nat) {
    n <= k || k == 1
  }

  function ShapeMessage(n: nat, k: nat): string {
    "The size of tensor a (" + NatStr(n) + ") must match the size of tensor b ("
    + NatStr(k) + ") at non-singleton dimension 0"
  }

  /** The rows the loop appends for `classes`, in turn, or the error of
      the first class whose distance step fails. */
  function Generated(orig: seq<Row>, classes: seq<string>, target: nat, gen: (string, nat) -> seq<real>)
    : (r: Result<seq<Row>>)
    requires forall k :: 0 <= k < |classes| ==> Count(orig, classes[k]) < target
    ensures r.Ok? <==> AllBroadcast(orig, classes, target)
    decreases |classes|
  {
    if |classes| == 0 then Ok([])
    else
      var c := classes[0];
      var n := Count(orig, c);
      var k := target - n;
      var later := classes[1..];
      assert forall j :: 0 <= j < |later| ==> later[j] == classes[j + 1];
      if !ShapesBroadcast(n, k) then Err(ShapeMessage(n, k))
      else
        match Generated(orig, later, target, gen)
        case Err(m) =>
          assert exists j :: 0 <= j < |later| && !ShapesBroadcast(Count(orig, later[j]), target - Count(orig, later[j]));
          Err(m)
        case Ok(rest) =>
          Ok(Synthetic(c, k, gen) + rest)
  }

  /** One turn of the loop: a successful run for `classes` is the first
      class's rows followed by a successful run for the others. */
  lemma GeneratedStep(orig: seq<Row>, classes: seq<string>, target: nat, gen: (string, nat) -> seq<real>)
    requires |classes| > 0
    requires forall k :: 0 <= k < |classes| ==> Count(orig, classes[k]) < target
    requires Generated(orig, classes, target, gen).Ok?
    ensures forall k :: 0 <= k < |classes[1..]| ==> Count(orig, classes[1..][k]) < target
    ensures Generated(orig, classes[1..], target, gen).Ok?
    ensures Generated(orig, classes, target, gen).value
         == Synthetic(classes[0], target - Count(orig, classes[0]), gen) + Generated(orig, classes[1..], target, gen).value
  {
    var later := classes[1..];
    assert forall j :: 0 <= j < |later| ==> later[j] == classes[j + 1];
  }

  /** Every generated row carries label 1 and one of the listed classes. */
  lemma {:induction false} GeneratedRows(orig: seq<Row>, classes: seq<string>, target: nat, gen: (string, nat) -> seq<real>)
    requires forall k :: 0 <= k < |classes| ==> Count(orig, classes[k]) < target
    requires Generated(orig, classes, target, gen).Ok?
    ensures var r := Generated(orig, classes, target, gen).value;
      forall i :: 0 <= i < |r| ==> r[i].labelValue == 1 && r[i].attackCat.Some? && r[i].attackCat.value in classes
    decreases |classes|
  {
    if |classes| > 0 {
      GeneratedStep(orig, classes, target, gen);
      var later := classes[1..];
      GeneratedRows(orig, later, target, gen);
      var rest := Generated(orig, later, target, gen).value;
      var here := Synthetic(classes[0], target - Count(orig, classes[0]), gen);
      var r := Generated(orig, classes, target, gen).value;
      assert r == here + rest;
      forall i | 0 <= i < |r|
        ensures r[i].labelValue == 1 && r[i].attackCat.Some? && r[i].attackCat.value in classes
      {
        if i < |here| {
          assert r[i] == here[i];
        } else {
          assert r[i] == rest[i - |here|];
          assert rest[i - |here|].attackCat.value in later;
        }
      }
    }
  }

  /** Each listed class gains `target − count` rows and no other class
      gains any. */
  lemma {:induction false} GeneratedCount(
    orig: seq<Row>, classes: seq<string>, target: nat, gen: (string, nat) -> seq<real>, d: string)
    requires forall k :: 0 <= k < |classes| ==> Count(orig, classes[k]) < target
    requires Distinct(classes)
    requires Generated(orig, classes, target, gen).Ok?
    ensures Count(Generated(orig, classes, target, gen).value, d) == if d in classes then target - Count(orig, d) else 0
    decreases |classes|
  {
    if |classes| > 0 {
      GeneratedStep(orig, classes, target, gen);
      var c := classes[0];
      var k := target - Count(orig, c);
      var rest := Generated(orig, classes[1..], target, gen).value;
      var later := classes[1..];
      assert forall j :: 0 <= j < |later| ==> later[j] == classes[j + 1];
      assert Distinct(later);
      GeneratedCount(orig, later, target, gen, d);
      CountAppend(Synthetic(c, k, gen), rest, d);
      SyntheticCount(c, k, gen, d);
      if d == c {
        assert d !in later;
      } else {
        assert d in classes <==> d in later;
      }
    }
  }

  /** Every listed class is below `target` and its distance step succeeds. */
  predicate AllBroadcast(rows: seq<Row>, classes: seq<string>, target: nat) {
    forall k :: 0 <= k < |classes| ==>
      Count(rows, classes[k]) < target &&
      ShapesBroadcast(Count(rows, classes[k]), target - Count(rows, classes[k]))
  }

  /** The distance step succeeds for every class of `order` below `target`. */
  predicate BroadcastBelow(rows: seq<Row>, order: seq<string>, target: nat) {
    forall c :: c in order && Count(rows, c) < target ==>
      ShapesBroadcast(Count(rows, c), target - Count(rows, c))
  }

  /** The distance step succeeds for every class below the target. */
  predicate MinoritiesBroadcast(rows: seq<Row>, order: seq<string>) {
    BroadcastBelow(rows, order, TargetCount(rows, order))
  }

  /** `balance_dataset`, as far as rows go: the original rows, then the
      generated rows of every minority class in class order. */
  function BalanceDataset(rows: seq<Row>, order: seq<string>, gen: (string, nat) -> seq<real>): (r: Result<seq<Row>>)
    requires IsClassOrder(order, rows)
    ensures r.Ok? <==> MinoritiesBroadcast(rows, order)
    ensures r.Ok? ==> |r.value| >= |rows| && r.value[..|rows|] == rows
  {
    var target := TargetCount(rows, order);
    var minority := Minority(rows, order, target);
    MinorityBroadcast(rows, order, target);
    MinorityBelowTarget(rows, order, target);
    match Generated(rows, minority, target, gen)
    case Err(m) => Err(m)
    case Ok(extra) =>
      var r := rows + extra;
      assert r[..|rows|] == rows;
      Ok(r)
  }

  lemma MinorityBelowTarget(rows: seq<Row>, order: seq<string>, target: nat)
    ensures var m := Minority(rows, order, target);
      forall k :: 0 <= k < |m| ==> Count(rows, m[k]) < target
  {
    var m := Minority(rows, order, target);
    assert forall k :: 0 <= k < |m| ==> m[k] in m;
  }

  lemma MinorityBroadcast(rows: seq<Row>, order: seq<string>, target: nat)
    ensures AllBroadcast(rows, Minority(rows, order, target), target) <==> BroadcastBelow(rows, order, target)
  {
    var m := Minority(rows, order, target);
    if AllBroadcast(rows, m, target) {
      forall c | c in order && Count(rows, c) < target
        ensures ShapesBroadcast(Count(rows, c), target - Count(rows, c))
      {
        assert c in m;
        var k :| 0 <= k < |m| && m[k] == c;
      }
    }
    if BroadcastBelow(rows, order, target) {
      forall k | 0 <= k < |m|
        ensures ShapesBroadcast(Count(rows, m[k]), target - Count(rows, m[k]))
      {
        assert m[k] in m;
      }
    }
  }

  /** The rows after the originals are generated ones: label 1 and a
      class that was below the target. */
  lemma AppendedRowsAreSynthetic(rows: seq<Row>, order: seq<string>, gen: (string, nat) -> seq<real>)
    requires IsClassOrder(order, rows)
    requires BalanceDataset(rows, order, gen).Ok?
    ensures var r := BalanceDataset(rows, order, gen).value;
      forall i :: |rows| <= i < |r| ==>
        && r[i].labelValue == 1 && r[i].attackCat.Some? && r[i].attackCat.value in order
        && Count(rows, r[i].attackCat.value) < TargetCount(rows, order)
  {
    var target := TargetCount(rows, order);
    var minority := Minority(rows, order, target);
    var extra := Generated(rows, minority, target, gen).value;
    var r := BalanceDataset(rows, order, gen).value;
    assert r == rows + extra;
    GeneratedRows(rows, minority, target, gen);
    assert forall i :: |rows| <= i < |r| ==> r[i] == extra[i - |rows|];
  }

  /** After balancing every class has exactly the target count. */
  lemma BalancedCounts(rows: seq<Row>, order: seq<string>, gen: (string, nat) -> seq<real>, c: string)
    requires IsClassOrder(order, rows)
    requires BalanceDataset(rows, order, gen).Ok?
    requires c in order
    ensures Count(BalanceDataset(rows, order, gen).value, c) == TargetCount(rows, order)
  {
    var target := TargetCount(rows, order);
    var minority := Minority(rows, order, target);
    var extra := Generated(rows, minority, target, gen).value;
    assert BalanceDataset(rows, order, gen).value == rows + extra;
    CountAppend(rows, extra, c);
    GeneratedCount(rows, minority, target, gen, c);
    var k :| 0 <= k < |order| && order[k] == c;
  }

  // ---------------------------------------------------------------------
  // Totals
  // ---------------------------------------------------------------------

  /** The sum of the class counts over `order`. */
  function CountsTotal(rows: seq<Row>, order: seq<string>): nat
    decreases |order|
  {
    if |order| == 0 then 0 else Count(rows, order[0]) + CountsTotal(rows, order[1..])
  }

  lemma {:induction false} CountsTotalOfEqualCounts(rows: seq<Row>, order: seq<string>, t: nat)
    requires forall k :: 0 <= k < |order| ==> Count(rows, order[k]) == t
    ensures CountsTotal(rows, order) == |order| * t
    decreases |order|
  {
    if |order| > 0 {
      assert forall k :: 0 <= k < |order[1..]| ==> order[1..][k] == order[k + 1];
      CountsTotalOfEqualCounts(rows, order[1..], t);
      assert |order| * t == t + (|order| - 1) * t;
    }
  }

  lemma {:induction false} CountsTotalCons(x: Row, rows: seq<Row>, order: seq<string>)
    requires Distinct(order)
    ensures CountsTotal([x] + rows, order)
         == CountsTotal(rows, order) + (if x.attackCat.Some? && x.attackCat.value in order then 1 else 0)
    decreases |order|
  {
    if |order| > 0 {
      assert ([x] + rows)[1..] == rows;
      CountsTotalCons(x, rows, order[1..]);
      assert x.attackCat.Some? && x.attackCat.value in order
        <==> x.attackCat == Some(order[0]) || (x.attackCat.Some? && x.attackCat.value in order[1..]);
      assert order[0] !in order[1..];
    }
  }

  /** With every present class listed once in `order`, the class counts
      and the missing cells add up to the number of rows. */
  lemma {:induction false} CountsTotalIsSize(rows: seq<Row>, order: seq<string>)
    requires Distinct(order)
    requires forall i :: 0 <= i < |rows| && rows[i].attackCat.Some? ==> rows[i].attackCat.value in order
    ensures CountsTotal(rows, order) + Missing(rows) == |rows|
    decreases |rows|
  {
    if |rows| == 0 {
      CountsTotalOfEqualCounts(rows, order, 0);
    } else {
      assert rows == [rows[0]] + rows[1..];
      CountsTotalIsSize(rows[1..], order);
      CountsTotalCons(rows[0], rows[1..], order);
    }
  }

  /** After balancing there are exactly `#classes × target` rows with a
      class, and the rows with a missing class are kept. */
  lemma BalancedSize(rows: seq<Row>, order: seq<string>, gen: (string, nat) -> seq<real>)
    requires IsClassOrder(order, rows)
    requires BalanceDataset(rows, order, gen).Ok?
    ensures |BalanceDataset(rows, order, gen).value| == |order| * TargetCount(rows, order) + Missing(rows)
    ensures Missing(BalanceDataset(rows, order, gen).value) == Missing(rows)
  {
    var r := BalanceDataset(rows, order, gen).value;
    var t := TargetCount(rows, order);
    AppendedRowsAreSynthetic(rows, order, gen);
    forall i | 0 <= i < |r| && r[i].attackCat.Some?
      ensures r[i].attackCat.value in order
    {
      if i < |rows| {
        assert r[i] == r[..|rows|][i];
      }
    }
    AppendedKeepMissing(rows, r);
    CountsTotalIsSize(r, order);
    forall k | 0 <= k < |order|
      ensures Count(r, order[k]) == t
    {
      BalancedCounts(rows, order, gen, order[k]);
    }
    CountsTotalOfEqualCounts(r, order, t);
  }

  /** Appending rows that all carry a class keeps the missing count. */
  lemma AppendedKeepMissing(rows: seq<Row>, r: seq<Row>)
    requires |rows| <= |r| && r[..|rows|] == rows
    requires forall i :: |rows| <= i < |r| ==> r[i].attackCat.Some?
    ensures Missing(r) == Missing(rows)
  {
    var extra := r[|rows|..];
    assert r == rows + extra;
    MissingAppend(rows, extra);
    NoneMissing(extra);
  }

  lemma {:induction false} NoneMissing(rows: seq<Row>)
    requires forall i :: 0 <= i < |rows| ==> rows[i].attackCat.Some?
    ensures Missing(rows) == 0
    decreases |rows|
  {
    if |rows| > 0 {
      NoneMissing(rows[1..]);
    }
  }

  /** Each minority class gains exactly `target − count` rows; classes
      already at the target gain none. */
  lemma GainPerClass(rows: seq<Row>, order: seq<string>, gen: (string, nat) -> seq<real>, c: string)
    requires IsClassOrder(order, rows)
    requires BalanceDataset(rows, order, gen).Ok?
    requires c in order
    ensures var r := BalanceDataset(rows, order, gen).value;
      Count(r[|rows|..], c) == TargetCount(rows, order) - Count(rows, c)
  {
    var r := BalanceDataset(rows, order, gen).value;
    assert r == r[..|rows|] + r[|rows|..];
    CountAppend(r[..|rows|], r[|rows|..], c);
    BalancedCounts(rows, order, gen, c);
  }

  // ---------------------------------------------------------------------
  // The command line
  // ---------------------------------------------------------------------

  datatype GanArgs = GanArgs(
    datasetPath: string, generatorPath: string, discriminatorPath: string,
    latentDim: int, inputDim: int, outputPath: string)

  const IndexErrorMessage := "list index out of range"

  /** Text `int()` accepts: decimal digits with an optional sign. */
  predicate IntLiteral(s: string) {
    || (|s| > 0 && AllDigits(s))
    || (|s| > 1 && (s[0] == '-' || s[0] == '+') && AllDigits(s[1..]))
  }

  /** `int(s)` for an optional sign followed by decimal digits; anything
      else is the `ValueError` of `int()`. */
  function PyInt(s: string): (r: Result<int>)
    ensures r.Ok? <==> IntLiteral(s)
    ensures AllDigits(s) && |s| > 0 ==> r == Ok(DigitsValue(s))
    ensures |s| > 1 && s[0] == '-' && AllDigits(s[1..]) ==> r == Ok(0 - DigitsValue(s[1..]))
    ensures |s| > 1 && s[0] == '+' && AllDigits(s[1..]) ==> r == Ok(DigitsValue(s[1..]))
    ensures r.Err? ==> r.msg == "invalid literal for int() with base 10: '" + s + "'"
  {
    if |s| > 0 && AllDigits(s) then Ok(DigitsValue(s))
    else if |s| > 1 && s[0] == '-' && AllDigits(s[1..]) then Ok(0 - DigitsValue(s[1..]) as int)
    else if |s| > 1 && s[0] == '+' && AllDigits(s[1..]) then Ok(DigitsValue(s[1..]))
    else Err("invalid literal for int() with base 10: '" + s + "'")
  }

  /** `str(n)` for any integer. */
  function IntStr(n: int): string {
    if n < 0 then "-" + NatStr(-n) else NatStr(n)
  }

  /** `int(str(n)) == n`. */
  lemma PyIntRoundTrip(n: int)
    ensures PyInt(IntStr(n)) == Ok(n)
  {
    if n < 0 {
      var s := "-" + NatStr(-n);
      assert s[1..] == NatStr(-n);
      assert !IsDigit(s[0]);
      NatStrRoundTrip(-n);
    } else {
      NatStrRoundTrip(n);
    }
  }

  /** The `__main__` block's reads of `sys.argv`, in the order it makes
      them: three paths, two integers, one path. */
  function ParseGanArgv(argv: seq<string>): (r: Result<GanArgs>)
    ensures |argv| < 5 ==> r == Err(IndexErrorMessage)
    ensures r.Ok? ==> |argv| >= 7
    ensures r.Ok? ==> (r.value.datasetPath == argv[1] && r.value.generatorPath == argv[2]
                       && r.value.discriminatorPath == argv[3] && r.value.outputPath == argv[6])
    ensures r.Ok? ==> PyInt(argv[4]) == Ok(r.value.latentDim) && PyInt(argv[5]) == Ok(r.value.inputDim)
    ensures |argv| >= 7 && PyInt(argv[4]).Ok? && PyInt(argv[5]).Ok? ==> r.Ok?
  {
    if |argv| < 5 then Err(IndexErrorMessage)
    else
      match PyInt(argv[4])
      case Err(m) => Err(m)
      case Ok(latent) =>
        if |argv| < 6 then Err(IndexErrorMessage)
        else
          match PyInt(argv[5])
          case Err(m) => Err(m)
          case Ok(input) =>
            if |argv| < 7 then Err(IndexErrorMessage)
            else Ok(GanArgs(argv[1], argv[2], argv[3], latent, input, argv[6]))
  }
}

=== FILE: gan_controller.dfy ===
/** The GAN balancing request handler: pick the latest preprocessed
    dataset, check that it and the two model artifacts exist, derive the
    output path, run the balancing script, and map its outcome to an HTTP
    reply. Probes, the spawned process and the reply are all part of the
    result, so "nothing was run" is a statement about the value returned. */
module GanController {
  import opened Wrappers
  import opened Text
  import opened Fields
  import opened Json
  import opened Paths
  import opened Registry
  import opened Process

  const NoDatasetMessage := "No preprocessed dataset found"
  const DatasetMissingMessage := "Dataset file not found"
  const ModelsMissingMessage := "GAN model files missing"
  const ExecFailedMessage := "GAN script execution failed"
  const ParseFailedMessage := "Failed to parse GAN results"
  const NotCreatedMessage := "Balanced dataset file was not created"
  const SuccessMessage := "Dataset balanced successfully"
  const ServerErrorMessage := "Server error"

  /** The TypeError message V8 gives for reading `error` from `null`. */
  const NullReadMessage := "Cannot read properties of null (reading 'error')"

  /** The script location written into the controller. */
  const ScriptLocation := "E:/7th Semester/ids/Server/GANBalancing.py"

  /** The output ceiling handed to `execFile`: 10 MiB. */
  const MaxBuffer: nat := 1024 * 1024 * 10

  /** The variable added to the inherited environment. */
  const LibGuardVariable := "KMP_DUPLICATE_LIB_OK"

  function UploadsDir(cwd: string): string {
    Resolve(cwd, "uploads")
  }

  /** `path.resolve("uploads", path.basename(stored))`. */
  function InputPath(cwd: string, stored: string): (r: string)
    ensures Basename(stored) != "" ==> r == cwd + "/uploads/" + Basename(stored)
    ensures Basename(stored) == "" ==> r == cwd + "/uploads"
  {
    var dir := UploadsDir(cwd);
    var name := Basename(stored);
    assert dir == cwd + "/uploads";
    assert name != "" ==> dir + "/" + name == cwd + "/uploads/" + name;
    Resolve(dir, name)
  }

  function GeneratorPath(cwd: string): string {
    Resolve(Resolve(cwd, "GANModel"), "gan_generator.pth")
  }

  function DiscriminatorPath(cwd: string): string {
    Resolve(Resolve(cwd, "GANModel"), "gan_discriminator.pth")
  }

  /** `path.resolve(ScriptLocation)`: with POSIX rules the drive-letter
      location is relative, so it lands below the working directory. */
  function ScriptPath(cwd: string): string {
    Resolve(cwd, ScriptLocation)
  }

  /** `datasetPath.replace(".csv", "_balanced.csv")`. */
  function OutputPath(input: string): (r: string)
    ensures !Occurs(input, ".csv") ==> r == input
    ensures forall i :: FirstOccurrence(input, ".csv", i) ==> r == input[..i] + "_balanced.csv" + input[i + 4..]
  {
    ReplaceFirst(input, ".csv", "_balanced.csv")
  }

  /** The argument vector handed to `python`. */
  function ScriptArgv(script: string, input: string, output: string): seq<string> {
    [script, input, output]
  }

  /** `{ ...process.env, KMP_DUPLICATE_LIB_OK: "TRUE" }`. */
  function ScriptEnv(inherited: seq<(string, string)>): (env: seq<(string, string)>)
    ensures Lookup(env, LibGuardVariable) == Some("TRUE")
    ensures forall k :: k != LibGuardVariable ==> Lookup(env, k) == Lookup(inherited, k)
  {
    Put(Merge([], inherited), LibGuardVariable, "TRUE")
  }

  /** `result.error` is truthy (for a non-null result). */
  predicate HasTruthyError(v: Json) {
    match Prop(v, "error")
    case Some(e) => Truthy(e)
    case None => false
  }

  /** A parse outcome that reaches the output-file check: parsed, not
      `null`, and without a truthy `error`. */
  predicate Accepted(p: ParseResult) {
    p.Parsed? && p.value != JNull && !HasTruthyError(p.value)
  }

  /** `{ message: SuccessMessage, ...result }`: the result's own entries
      override the success text, including one named `message`. */
  function SuccessBody(result: Json): (body: Json)
    ensures body.JObj?
    ensures forall k :: k != "message" ==> Lookup(body.fields, k) == Lookup(OwnEntries(result), k)
    ensures Lookup(body.fields, "message") ==
      if Lookup(OwnEntries(result), "message").Some? then Lookup(OwnEntries(result), "message")
      else Some(JStr(SuccessMessage))
  {
    JObj(Merge([("message", JStr(SuccessMessage))], OwnEntries(result)))
  }

  function ParseFailureBody(details: string, raw: string): Json {
    JObj([("error", JStr(ParseFailedMessage)), ("details", JStr(details)), ("rawOutput", JStr(raw))])
  }

  /** The `execFile` callback: the reply and the after-run probes it makes. */
  function OnScriptExit(exec: ExecOutcome, parse: string -> ParseResult, output: string, after: set<string>)
    : (r: (Response, seq<Probe>))
    ensures exec.ExecFailed? ==> r == (Response(500, ErrorDetails(ExecFailedMessage, JStr(exec.stderr))), [])
    ensures exec.Exited? && parse(Trim(exec.stdout, JsSpace)).SyntaxError? ==>
      r == (Response(500, ParseFailureBody(parse(Trim(exec.stdout, JsSpace)).message, exec.stdout)), [])
    ensures exec.Exited? && parse(Trim(exec.stdout, JsSpace)) == Parsed(JNull) ==>
      r == (Response(500, ParseFailureBody(NullReadMessage, exec.stdout)), [])
    ensures exec.Exited? && parse(Trim(exec.stdout, JsSpace)).Parsed? && parse(Trim(exec.stdout, JsSpace)).value != JNull
            && HasTruthyError(parse(Trim(exec.stdout, JsSpace)).value) ==>
      r == (Response(500, parse(Trim(exec.stdout, JsSpace)).value), [])
    ensures r.1 == (if exec.Exited? && Accepted(parse(Trim(exec.stdout, JsSpace))) then [Probe(output, true)] else [])
    ensures r.0.status == 200 <==> exec.Exited? && Accepted(parse(Trim(exec.stdout, JsSpace))) && output in after
    ensures r.0.status == 200 ==> r.0.body == SuccessBody(parse(Trim(exec.stdout, JsSpace)).value)
    ensures exec.Exited? && Accepted(parse(Trim(exec.stdout, JsSpace))) && output !in after ==>
      r.0 == Response(500, ErrorDetails(NotCreatedMessage, parse(Trim(exec.stdout, JsSpace)).value))
    ensures r.0.status == 200 || r.0.status == 500
  {
    match exec
    case ExecFailed(stderr) => (Response(500, ErrorDetails(ExecFailedMessage, JStr(stderr))), [])
    case Exited(stdout, _) =>
      match parse(Trim(stdout, JsSpace))
      case SyntaxError(m) => (Response(500, ParseFailureBody(m, stdout)), [])
      case Parsed(result) =>
        if result == JNull then (Response(500, ParseFailureBody(NullReadMessage, stdout)), [])
        else if HasTruthyError(result) then (Response(500, result), [])
        else if output in after then (Response(200, SuccessBody(result)), [Probe(output, true)])
        else (Response(500, ErrorDetails(NotCreatedMessage, result)), [Probe(output, true)])
  }

  /** The record the handler works on, when the query answered. */
  function Chosen(query: Query): Option<DatasetRecord> {
    if query.Answered? then LatestPreprocessed(query.records) else None
  }

  /** The input path of the chosen record. */
  function ChosenInput(query: Query, cwd: string): string
    requires Chosen(query).Some?
  {
    InputPath(cwd, Chosen(query).value.preprocessedPath.value)
  }

  /** Every pre-run check passes, so the script is started. */
  predicate Launches(query: Query, cwd: string, before: set<string>) {
    && Chosen(query).Some?
    && ChosenInput(query, cwd) in before
    && GeneratorPath(cwd) in before
    && DiscriminatorPath(cwd) in before
  }

  /** `balanceDatasetWithGAN` as one request-to-reply function. `before`
      and `after` are the paths that exist before and after the script runs;
      `exec` is what the spawned process did; `parse` is `JSON.parse`. */
  function BalanceDatasetWithGan(
    query: Query, cwd: string, inherited: seq<(string, string)>,
    before: set<string>, after: set<string>,
    exec: ExecOutcome, parse: string -> ParseResult): (reply: Reply)
    ensures query.QueryFailed? ==>
      reply == Reply(Response(500, ErrorDetails(ServerErrorMessage, JStr(query.message))), [], None)
    ensures query.Answered? && (forall i :: 0 <= i < |query.records| ==> query.records[i].preprocessedPath.None?) ==>
      reply == Reply(Response(404, ErrorObj(NoDatasetMessage)), [], None)
    ensures Chosen(query).Some? ==> |reply.probes| >= 1 && reply.probes[0] == Probe(ChosenInput(query, cwd), false)
    ensures Chosen(query).Some? && ChosenInput(query, cwd) !in before ==>
      reply == Reply(Response(400, ErrorObj(DatasetMissingMessage)), [Probe(ChosenInput(query, cwd), false)], None)
    ensures Chosen(query).Some? && ChosenInput(query, cwd) in before
            && (GeneratorPath(cwd) !in before || DiscriminatorPath(cwd) !in before) ==>
      reply.response == Response(500, ErrorObj(ModelsMissingMessage)) && reply.spawned.None?
    ensures reply.spawned.Some? <==> Launches(query, cwd, before)
    ensures Launches(query, cwd, before) ==>
      var input := ChosenInput(query, cwd);
      && reply.spawned == Some(ExecFile("python", [ScriptPath(cwd), input, OutputPath(input)], ScriptEnv(inherited), MaxBuffer))
      && reply.response == OnScriptExit(exec, parse, OutputPath(input), after).0
      && reply.probes == [Probe(input, false), Probe(GeneratorPath(cwd), false), Probe(DiscriminatorPath(cwd), false)]
                         + OnScriptExit(exec, parse, OutputPath(input), after).1
    ensures forall p :: p in reply.probes && p.afterRun ==> Launches(query, cwd, before)
  {
    match query
    case QueryFailed(m) => Reply(Response(500, ErrorDetails(ServerErrorMessage, JStr(m))), [], None)
    case Answered(records) =>
      match LatestPreprocessed(records)
      case None => Reply(Response(404, ErrorObj(NoDatasetMessage)), [], None)
      case Some(record) =>
        var input := InputPath(cwd, record.preprocessedPath.value);
        var generator := GeneratorPath(cwd);
        var discriminator := DiscriminatorPath(cwd);
        if input !in before then
          Reply(Response(400, ErrorObj(DatasetMissingMessage)), [Probe(input, false)], None)
        else if generator !in before then
          Reply(Response(500, ErrorObj(ModelsMissingMessage)), [Probe(input, false), Probe(generator, false)], None)
        else if discriminator !in before then
          Reply(Response(500, ErrorObj(ModelsMissingMessage)),
                [Probe(input, false), Probe(generator, false), Probe(discriminator, false)], None)
        else
          var output := OutputPath(input);
          var spawn := ExecFile("python", ScriptArgv(ScriptPath(cwd), input, output), ScriptEnv(inherited), MaxBuffer);
          var (response, afterProbes) := OnScriptExit(exec, parse, output, after);
          Reply(response, [Probe(input, false), Probe(generator, false), Probe(discriminator, false)] + afterProbes, Some(spawn))
  }

  // ---------------------------------------------------------------------
  // Properties of the handler
  // ---------------------------------------------------------------------

  /** The stored directory part of the preprocessed path is ignored: only
      its base name, placed below `uploads`, is probed. */
  lemma InputPathIgnoresDirectory(cwd: string, dir: string, name: string)
    requires |name| > 0 && '/' !in name
    ensures InputPath(cwd, dir + "/" + name) == cwd + "/uploads/" + name
  {
    BasenameOfChild(dir, name);
  }

  /** Only the first `.csv` in the whole path is replaced, whatever
      follows it: a directory whose name contains `.csv` takes the suffix
      and the file name keeps its own. */
  lemma {:induction false} OutputPathReplacesFirstCsv(stem: string, rest: string)
    requires !Occurs(stem, ".csv")
    ensures OutputPath(stem + ".csv" + rest) == stem + "_balanced.csv" + rest
  {
    var s := stem + ".csv" + rest;
    assert s[|stem|..|stem| + 4] == ".csv";
    assert OccursAt(s, ".csv", |stem|);
    forall j | 0 <= j < |stem|
      ensures !OccursAt(s, ".csv", j)
    {
      if j + 4 <= |stem| {
        assert s[j..j + 4] == stem[j..j + 4];
        assert !OccursAt(stem, ".csv", j);
      } else {
        var d := |stem| - j;
        assert s[j..j + 4][d] == '.';
        assert ".csv"[d] != '.';
      }
    }
    assert FirstOccurrence(s, ".csv", |stem|);
    assert s[..|stem|] == stem;
    assert s[|stem| + 4..] == rest;
  }

  /** For a name ending in `.csv` with no earlier `.csv`, the output path
      replaces that suffix. */
  lemma OutputPathOfCsvName(stem: string)
    requires !Occurs(stem, ".csv")
    ensures OutputPath(stem + ".csv") == stem + "_balanced.csv"
  {
    OutputPathReplacesFirstCsv(stem, "");
    assert stem + ".csv" + "" == stem + ".csv";
    assert stem + "_balanced.csv" + "" == stem + "_balanced.csv";
  }

  /** Without `.csv` in the input path, the output path is the input path,
      so the after-run check is met by the input file itself. */
  lemma NoCsvOutputIsInput(
    query: Query, cwd: string, inherited: seq<(string, string)>,
    before: set<string>, after: set<string>, stdout: string, stderr: string, parse: string -> ParseResult)
    requires Launches(query, cwd, before)
    requires !Occurs(ChosenInput(query, cwd), ".csv")
    requires ChosenInput(query, cwd) in after
    requires Accepted(parse(Trim(stdout, JsSpace)))
    ensures BalanceDatasetWithGan(query, cwd, inherited, before, after, Exited(stdout, stderr), parse).response.status == 200
  {
  }

  /** Standard error of a normal exit never changes the reply. */
  lemma StderrAloneChangesNothing(
    query: Query, cwd: string, inherited: seq<(string, string)>,
    before: set<string>, after: set<string>, stdout: string, e1: string, e2: string, parse: string -> ParseResult)
    ensures BalanceDatasetWithGan(query, cwd, inherited, before, after, Exited(stdout, e1), parse)
         == BalanceDatasetWithGan(query, cwd, inherited, before, after, Exited(stdout, e2), parse)
  {
  }

  /** The first character JSON text may start with, white space included. */
  predicate JsonLead(c: char) {
    c in {'{', '[', '"', '-', 't', 'f', 'n', ' ', '\t', '\n', '\r'} || IsDigit(c)
  }

  /** A parser that, like `JSON.parse`, rejects text whose first character
      cannot begin a JSON value. */
  ghost predicate RejectsNonJsonLead(parse: string -> ParseResult) {
    forall s :: |s| > 0 && !JsonLead(s[0]) ==> parse(s).SyntaxError?
  }

  /** The callback parses the whole trimmed standard output: a log line
      printed before the JSON line makes the reply a parse failure that
      carries the untrimmed output. */
  lemma LogLineBeforeResultFailsParse(
    log: string, json: string, stderr: string, parse: string -> ParseResult, output: string, after: set<string>)
    requires RejectsNonJsonLead(parse)
    requires |log| > 0 && !JsonLead(log[0]) && !JsSpace(log[0])
    ensures var stdout := log + "\n" + json;
      var r := OnScriptExit(Exited(stdout, stderr), parse, output, after);
      r.0.status == 500
      && r.0.body.JObj?
      && Lookup(r.0.body.fields, "error") == Some(JStr(ParseFailedMessage))
      && Lookup(r.0.body.fields, "rawOutput") == Some(JStr(stdout))
  {
    var stdout := log + "\n" + json;
    assert stdout[0] == log[0];
    LoggedOutputIsRejected(stdout, log[0], parse);
    var m := parse(Trim(stdout, JsSpace)).message;
    assert OnScriptExit(Exited(stdout, stderr), parse, output, after).0 == Response(500, ParseFailureBody(m, stdout));
    ParseFailureBodyReads(m, stdout);
  }

  /** The parse-failure body names the failure and carries the raw output. */
  lemma ParseFailureBodyReads(details: string, raw: string)
    ensures Lookup(ParseFailureBody(details, raw).fields, "error") == Some(JStr(ParseFailedMessage))
    ensures Lookup(ParseFailureBody(details, raw).fields, "rawOutput") == Some(JStr(raw))
  {
    var fs := ParseFailureBody(details, raw).fields;
    assert |fs[1].0| != |fs[0].0| && |fs[2].0| != |fs[0].0|;
    LookupLast(fs, 0);
    LookupLast(fs, 2);
  }

  lemma LoggedOutputIsRejected(stdout: string, lead: char, parse: string -> ParseResult)
    requires RejectsNonJsonLead(parse)
    requires |stdout| > 0 && stdout[0] == lead && !JsonLead(lead) && !JsSpace(lead)
    ensures parse(Trim(stdout, JsSpace)).SyntaxError?
  {
    TrimKeepsLead(stdout, JsSpace);
  }
}

=== FILE: json.dfy ===
/** JSON values as the controllers and the dashboard see them once parsed,
    with JavaScript's truthiness, property reads and own-entry enumeration
    (shared by object spread and `Object.entries`). */
module Json {
  import opened Wrappers
  import opened Fields
  import Text

  /** Numbers are exact reals; objects keep their entries in enumeration order. */
  datatype Json =
    | JNull
    | JBool(b: bool)
    | JNum(n: real)
    | JStr(s: string)
    | JArr(items: seq<Json>)
    | JObj(fields: seq<(string, Json)>)

  /** JavaScript truthiness: `null`, `false`, `0` and `""` are falsy. */
  predicate Truthy(v: Json) {
    match v
    case JNull => false
    case JBool(b) => b
    case JNum(n) => n != 0.0
    case JStr(s) => s != ""
    case JArr(_) => true
    case JObj(_) => true
  }

  /** `v.k` for a named (non-index) key. Only objects carry such own
      properties; reading from `null` throws, which callers decide on before. */
  function Prop(v: Json, k: string): (r: Option<Json>)
    ensures r.Some? ==> v.JObj? && (k, r.value) in v.fields
    ensures v.JObj? && k in Keys(v.fields) ==> r.Some?
  {
    if v.JObj? then Lookup(v.fields, k) else None
  }

  /** Entries keyed by the decimal indices `start`, `start + 1`, ... */
  function Indexed(items: seq<Json>, start: nat): (r: seq<(string, Json)>)
    ensures |r| == |items|
    ensures forall i :: 0 <= i < |items| ==> r[i] == (Text.NatStr(start + i), items[i])
    decreases |items|
  {
    if |items| == 0 then [] else [(Text.NatStr(start), items[0])] + Indexed(items[1..], start + 1)
  }

  /** The own enumerable string-keyed entries of a value, in order: an
      object's fields, an array's or a string's indexed elements, and
      nothing for `null`, booleans and numbers. */
  function OwnEntries(v: Json): (r: seq<(string, Json)>)
    ensures v.JObj? ==> r == v.fields
    ensures v.JArr? ==> |r| == |v.items| && forall i :: 0 <= i < |v.items| ==> r[i] == (Text.NatStr(i), v.items[i])
    ensures v.JStr? ==> |r| == |v.s| && forall i :: 0 <= i < |v.s| ==> r[i] == (Text.NatStr(i), JStr([v.s[i]]))
    ensures v.JNull? || v.JBool? || v.JNum? ==> r == []
  {
    match v
    case JObj(fs) => fs
    case JArr(items) => Indexed(items, 0)
    case JStr(s) => Indexed(seq(|s|, i requires 0 <= i < |s| => JStr([s[i]])), 0)
    case _ => []
  }

  /** `{ error: msg }` */
  function ErrorObj(msg: string): Json {
    JObj([("error", JStr(msg))])
  }

  /** `{ error: msg, details: details }` */
  function ErrorDetails(msg: string, details: Json): Json {
    JObj([("error", JStr(msg)), ("details", details)])
  }
}

=== FILE: paths.dfy ===
/** The two Node.js `path` operations the controllers use, with POSIX
    separators and without normalisation of `.` and `..` segments. */
module Paths {
  import opened Text

  predicate IsSlash(c: char) {
    c == '/'
  }

  /** `path.basename(p)`: the last `/`-separated segment once trailing
      slashes are dropped. */
  function Basename(p: string): (r: string)
    ensures '/' !in r
    ensures |r| <= |p|
  {
    LastSegment(TrimEnd(p, IsSlash), '/')
  }

  /** Whatever directory a stored path names, its base name is the part
      after the last `/`. */
  lemma BasenameOfChild(dir: string, name: string)
    requires |name| > 0 && '/' !in name
    ensures Basename(dir + "/" + name) == name
  {
    var s := dir + "/" + name;
    assert s[|s| - 1] == name[|name| - 1];
    assert TrimEnd(s, IsSlash) == s;
    LastSegmentAfterSep(dir, '/', name);
  }

  /** `path.resolve(base, p)` for one relative-or-absolute segment `p`: an
      absolute `p` wins, an empty one leaves `base`, otherwise `p` is
      appended below `base`. */
  function Resolve(base: string, p: string): (r: string)
    ensures |p| > 0 && p[0] == '/' ==> r == p
    ensures |p| > 0 && p[0] != '/' ==> r == base + "/" + p
    ensures p == "" ==> r == base
  {
    if p == "" then base else if p[0] == '/' then p else base + "/" + p
  }
}

=== FILE: prepro.dfy ===
/** The preprocessing script, at column level: which columns are targets,
    which features are numeric, which summaries each switch fills in, and
    which columns the written CSV has. Cell values and every statistic
    (means, deviations, missing counts, explained variance) are inputs. */
module Prepro {
  import opened Wrappers
  import opened Text
  import opened Fields
  import opened Json
  import opened Frames
  import opened Process

  // ---------------------------------------------------------------------
  // Column selection
  // ---------------------------------------------------------------------

  /** `df.columns = df.columns.str.strip()`: every name loses its
      surrounding white space; dtypes and values stay. */
  function StripNames(cols: seq<Column>): (r: seq<Column>)
    ensures |r| == |cols|
    ensures forall i :: 0 <= i < |cols| ==> r[i] == cols[i].(name := Trim(cols[i].name, PySpace))
  {
    seq(|cols|, i requires 0 <= i < |cols| => cols[i].(name := Trim(cols[i].name, PySpace)))
  }

  /** Every name after the strip has no surrounding white space left. */
  lemma StrippedNamesAreTrimmed(cols: seq<Column>)
    ensures forall c :: c in StripNames(cols) ==> Trim(c.name, PySpace) == c.name
  {
    var r := StripNames(cols);
    forall c | c in r
      ensures Trim(c.name, PySpace) == c.name
    {
      var i :| 0 <= i < |r| && r[i] == c;
      TrimIdempotent(cols[i].name, PySpace);
    }
  }

  const AttackCatName := "attack_cat"
  const LabelName := "label"

  /** `col.strip().lower() in ['attack_cat', 'label']`: the name, without
      its surrounding white space, spells one of the two in any case. */
  predicate IsTargetName(n: string): (b: bool)
    ensures b <==> CaselessMatch(Trim(n, PySpace), AttackCatName) || CaselessMatch(Trim(n, PySpace), LabelName)
  {
    var t := Trim(n, PySpace);
    TargetKeyMatches(t);
    AsciiLower(t) == AttackCatName || AsciiLower(t) == LabelName
  }

  lemma TargetKeyMatches(t: string)
    ensures AsciiLower(t) == AttackCatName || AsciiLower(t) == LabelName
      <==> CaselessMatch(t, AttackCatName) || CaselessMatch(t, LabelName)
  {
    AsciiLowerMatches(t, AttackCatName);
    AsciiLowerMatches(t, LabelName);
  }

  /** The four column selections the script makes. `Target` and `Feature`
      split all columns; `Numeric` and `NonNumeric` split the features
      (`select_dtypes` with `include` and with `exclude` of "number"). */
  datatype Kind = Target | Feature | Numeric | NonNumeric

  predicate Is(k: Kind, c: Column) {
    match k
    case Target => IsTargetName(c.name)
    case Feature => !IsTargetName(c.name)
    case Numeric => IsNumeric(c.dtype)
    case NonNumeric => !IsNumeric(c.dtype)
  }

  function Complement(k: Kind): Kind {
    match k
    case Target => Feature
    case Feature => Target
    case Numeric => NonNumeric
    case NonNumeric => Numeric
  }

  /** The columns of kind `k`, in column order. */
  function Pick(cols: seq<Column>, k: Kind): (r: seq<Column>)
    ensures forall c :: c in r <==> c in cols && Is(k, c)
    ensures |r| <= |cols|
    decreases |cols|
  {
    if |cols| == 0 then []
    else if Is(k, cols[0]) then [cols[0]] + Pick(cols[1..], k)
    else Pick(cols[1..], k)
  }

  /** `s` is `a` and `b` interleaved: both keep their order, every
      position of `s` comes from exactly one of them. */
  predicate Interleaves<T(==)>(a: seq<T>, b: seq<T>, s: seq<T>)
    decreases |s|
  {
    if |s| == 0 then a == [] && b == []
    else
      || (|a| > 0 && a[0] == s[0] && Interleaves(a[1..], b, s[1..]))
      || (|b| > 0 && b[0] == s[0] && Interleaves(a, b[1..], s[1..]))
  }

  /** A selection and its complement split the columns without
      reordering, dropping or duplicating any. */
  lemma {:induction false} PickSplits(cols: seq<Column>, k: Kind)
    ensures Interleaves(Pick(cols, k), Pick(cols, Complement(k)), cols)
    decreases |cols|
  {
    if |cols| > 0 {
      PickSplits(cols[1..], k);
    }
  }

  /** Interleaving keeps lengths and contents. */
  lemma {:induction false} InterleavesMultiset<T>(a: seq<T>, b: seq<T>, s: seq<T>)
    requires Interleaves(a, b, s)
    ensures |s| == |a| + |b|
    ensures multiset(s) == multiset(a) + multiset(b)
    decreases |s|
  {
    if |s| > 0 {
      MultisetOfCons(s);
      if |a| > 0 && a[0] == s[0] && Interleaves(a[1..], b, s[1..]) {
        InterleavesMultiset(a[1..], b, s[1..]);
        MultisetOfCons(a);
      } else {
        InterleavesMultiset(a, b[1..], s[1..]);
        MultisetOfCons(b);
      }
    }
  }

  lemma MultisetOfCons<T>(x: seq<T>)
    requires |x| > 0
    ensures multiset(x) == multiset{x[0]} + multiset(x[1..])
  {
    assert x == [x[0]] + x[1..];
  }

  lemma {:induction false} InterleavedNames(a: seq<Column>, b: seq<Column>, s: seq<Column>)
    requires Interleaves(a, b, s)
    ensures Interleaves(Names(a), Names(b), Names(s))
    decreases |s|
  {
    if |s| > 0 {
      assert Names(s)[1..] == Names(s[1..]);
      if |a| > 0 && a[0] == s[0] && Interleaves(a[1..], b, s[1..]) {
        assert Names(a)[1..] == Names(a[1..]);
        InterleavedNames(a[1..], b, s[1..]);
      } else {
        assert Names(b)[1..] == Names(b[1..]);
        InterleavedNames(a, b[1..], s[1..]);
      }
    }
  }

  // ---------------------------------------------------------------------
  // Summaries
  // ---------------------------------------------------------------------

  /** The keyword arguments of `preprocess_dataset` that the options blob
      supplies, read with Python truthiness. */
  datatype Options = Options(
    missingValueHandling: bool, featureScaling: bool, encodingCategorical: bool, featureSelection: bool)

  /** What the model takes as given rather than computing: missing-value
      counts before and after imputation, the four scaling statistics of
      a column, how many principal components keep 95% of the variance,
      and the rounded percentage text of each component. */
  datatype Measures = Measures(
    missingBefore: string -> nat,
    missingAfter: string -> nat,
    statistic: (string, string) -> real,
    components: nat,
    varianceText: nat -> string)

  const OriginalMeanKey := "Original Mean"
  const OriginalStdKey := "Original Std"
  const ScaledMeanKey := "Scaled Mean"
  const ScaledStdKey := "Scaled Std"

  /** A `scaling_summary` value: the two statistics before scaling, then
      the two added by `update` after it. */
  function ScalingStats(ms: Measures, name: string): (v: Json)
    ensures v.JObj? && Keys(v.fields) == [OriginalMeanKey, OriginalStdKey, ScaledMeanKey, ScaledStdKey]
  {
    var keys := [OriginalMeanKey, OriginalStdKey, ScaledMeanKey, ScaledStdKey];
    JObj(Entries(keys, seq(4, i requires 0 <= i < 4 => JNum(ms.statistic(name, keys[i])))))
  }

  function ScalingSummary(ms: Measures, numeric: seq<Column>): (r: seq<(string, Json)>)
    ensures Keys(r) == Names(numeric)
  {
    seq(|numeric|, i requires 0 <= i < |numeric| => (numeric[i].name, ScalingStats(ms, numeric[i].name)))
  }

  /** `len(le.classes_)`: one class per distinct non-null value, and one
      more for the missing value when the column still holds one at the
      encoding step (the label encoder keeps NaN as a class of its own). */
  function ClassCount(ms: Measures, c: Column): (n: nat)
    ensures n == |c.valueCounts| || (n == |c.valueCounts| + 1 && ms.missingAfter(c.name) > 0)
    ensures ms.missingAfter(c.name) > 0 ==> n > |c.valueCounts|
  {
    |c.valueCounts| + (if ms.missingAfter(c.name) > 0 then 1 else 0)
  }

  const EncodedPrefix := "Encoded "
  const EncodedSuffix := " unique values"

  /** `f"Encoded {len(le.classes_)} unique values"`. */
  function EncodedText(ms: Measures, c: Column): string {
    EncodedPrefix + NatStr(ClassCount(ms, c)) + EncodedSuffix
  }

  /** The number in the text reads back as the class count. */
  lemma EncodedTextNamesCount(ms: Measures, c: Column)
    ensures var t := EncodedText(ms, c);
      && |t| > |EncodedPrefix| + |EncodedSuffix|
      && AllDigits(t[|EncodedPrefix|..|t| - |EncodedSuffix|])
      && DigitsValue(t[|EncodedPrefix|..|t| - |EncodedSuffix|]) == ClassCount(ms, c)
  {
    var t := EncodedText(ms, c);
    var d := NatStr(ClassCount(ms, c));
    assert t[|EncodedPrefix|..|t| - |EncodedSuffix|] == d;
    NatStrRoundTrip(ClassCount(ms, c));
  }

  function EncodingSummary(ms: Measures, nonNumeric: seq<Column>): (r: seq<(string, Json)>)
    ensures Keys(r) == Names(nonNumeric)
    ensures forall i :: 0 <= i < |nonNumeric| ==> r[i].1 == JStr(EncodedText(ms, nonNumeric[i]))
  {
    seq(|nonNumeric|, i requires 0 <= i < |nonNumeric| => (nonNumeric[i].name, JStr(EncodedText(ms, nonNumeric[i]))))
  }

  /** The principal-component column names `PC1` ... `PCk`. */
  function ComponentNames(k: nat): (ns: seq<string>)
    ensures |ns| == k
    ensures forall i :: 0 <= i < k ==> ns[i] == "PC" + NatStr(i + 1)
  {
    seq(k, i requires 0 <= i < k => "PC" + NatStr(i + 1))
  }

  function SelectionSummary(ms: Measures): (r: seq<(string, Json)>)
    ensures Keys(r) == ComponentNames(ms.components)
  {
    var ns := ComponentNames(ms.components);
    Entries(ns, seq(ms.components, i requires 0 <= i < ms.components =>
      JStr(ms.varianceText(i) + "% variance explained")))
  }

  /** `df.isna().sum().to_dict()` over the feature columns. */
  function MissingCounts(count: string -> nat, features: seq<Column>): (r: seq<(string, Json)>)
    ensures Keys(r) == Names(features)
  {
    seq(|features|, i requires 0 <= i < |features| => (features[i].name, JNum(count(features[i].name) as real)))
  }

  // ---------------------------------------------------------------------
  // The run
  // ---------------------------------------------------------------------

  /** The returned dictionary's parts, and the header of the written CSV. */
  datatype Summary = Summary(
    originalMissing: seq<(string, Json)>,
    afterMissing: seq<(string, Json)>,
    scaling: seq<(string, Json)>,
    encoding: seq<(string, Json)>,
    selection: seq<(string, Json)>,
    numericNames: seq<string>,
    nonNumericNames: seq<string>,
    outputPath: string,
    outputColumns: seq<string>)

  /** Whether PCA runs: the switch is on and, after label encoding turned
      the non-numeric features into integers, some feature is numeric. */
  predicate RunsPca(opts: Options, numeric: seq<Column>, nonNumeric: seq<Column>) {
    opts.featureSelection && (|numeric| > 0 || (opts.encodingCategorical && |nonNumeric| > 0))
  }

  /** The feature part of the written header. PCA puts its components
      first and then keeps what `drop(columns=numeric_cols)` leaves: the
      non-numeric features, encoded or not. */
  function FeatureColumns(opts: Options, ms: Measures, features: seq<Column>, nonNumeric: seq<Column>)
    : seq<string>
  {
    if RunsPca(opts, Pick(features, Numeric), nonNumeric) then ComponentNames(ms.components) + Names(nonNumeric)
    else Names(features)
  }

  /** The summary of a loaded table whose names are already stripped. */
  function Summarise(opts: Options, outputPath: string, cols: seq<Column>, ms: Measures): (s: Summary)
    ensures s.outputPath == outputPath
  {
    var features := Pick(cols, Feature);
    var numeric := Pick(features, Numeric);
    var nonNumeric := Pick(features, NonNumeric);
    Summary(
      MissingCounts(ms.missingBefore, features),
      MissingCounts(ms.missingAfter, features),
      if opts.featureScaling && |numeric| > 0 then ScalingSummary(ms, numeric) else [],
      if opts.encodingCategorical && |nonNumeric| > 0 then EncodingSummary(ms, nonNumeric) else [],
      if RunsPca(opts, numeric, nonNumeric) then SelectionSummary(ms) else [],
      Names(numeric),
      Names(nonNumeric),
      outputPath,
      FeatureColumns(opts, ms, features, nonNumeric) + Names(Pick(cols, Target)))
  }

  /** `preprocess_dataset`. `load` is `pd.read_csv` of the input;
      `failure` is the message of an exception raised by a numeric step
      (imputation, label encoding, scaling, PCA) or by writing the CSV.
      Any exception becomes the `error` result; otherwise the table is
      summarised after its names are stripped. */
  function PreprocessDataset(
    opts: Options, outputPath: string, load: Result<Table>, failure: Option<string>, ms: Measures)
    : (r: Result<Summary>)
    ensures load.Err? ==> r == Err(load.msg)
    ensures load.Ok? && failure.Some? ==> r == Err(failure.value)
    ensures r.Ok? <==> load.Ok? && failure.None?
    ensures r.Ok? ==> r.value == Summarise(opts, outputPath, StripNames(load.value.columns), ms)
  {
    match load
    case Err(m) => Err(m)
    case Ok(t) =>
      if failure.Some? then Err(failure.value)
      else Ok(Summarise(opts, outputPath, StripNames(t.columns), ms))
  }

  /** The two name lists split the non-target columns: order kept, each
      column in exactly one list, numeric ones first list. */
  lemma FeatureNamesSplit(opts: Options, outputPath: string, cols: seq<Column>, ms: Measures)
    ensures var s := Summarise(opts, outputPath, cols, ms);
      var features := Pick(cols, Feature);
      && Interleaves(s.numericNames, s.nonNumericNames, Names(features))
      && |s.numericNames| + |s.nonNumericNames| == |features|
  {
    var features := Pick(cols, Feature);
    var s := Summarise(opts, outputPath, cols, ms);
    assert s.numericNames == Names(Pick(features, Numeric)) && s.nonNumericNames == Names(Pick(features, NonNumeric));
    NumericNamesSplit(features);
  }

  lemma NumericNamesSplit(features: seq<Column>)
    ensures Interleaves(Names(Pick(features, Numeric)), Names(Pick(features, NonNumeric)), Names(features))
    ensures |Pick(features, Numeric)| + |Pick(features, NonNumeric)| == |features|
  {
    PickSplits(features, Numeric);
    InterleavedNames(Pick(features, Numeric), Pick(features, NonNumeric), features);
    InterleavesMultiset(Pick(features, Numeric), Pick(features, NonNumeric), features);
  }

  /** The features are exactly the columns whose stripped, lower-cased
      name is neither `attack_cat` nor `label`, and with the targets they
      make up all the columns. */
  lemma TargetsSplitOff(cols: seq<Column>)
    ensures
      && Interleaves(Pick(cols, Target), Pick(cols, Feature), cols)
      && (forall c :: c in Pick(cols, Feature) ==> !IsTargetName(c.name))
      && (forall c :: c in Pick(cols, Target) ==> IsTargetName(c.name))
  {
    PickSplits(cols, Target);
  }

  /** Which summaries are filled in: encoding covers the non-numeric
      features exactly when its switch is on, scaling the numeric ones
      exactly when its switch is on, and selection stays empty while its
      switch is off. */
  lemma SummariesFollowSwitches(opts: Options, outputPath: string, cols: seq<Column>, ms: Measures)
    ensures var s := Summarise(opts, outputPath, cols, ms);
      && Keys(s.encoding) == (if opts.encodingCategorical then s.nonNumericNames else [])
      && Keys(s.scaling) == (if opts.featureScaling then s.numericNames else [])
      && (!opts.featureSelection ==> s.selection == [])
      && Keys(s.originalMissing) == Keys(s.afterMissing)
      && Keys(s.originalMissing) == Names(Pick(cols, Feature))
  {
    var features := Pick(cols, Feature);
    if |Pick(features, NonNumeric)| == 0 {
      assert Names(Pick(features, NonNumeric)) == [];
    }
    if |Pick(features, Numeric)| == 0 {
      assert Names(Pick(features, Numeric)) == [];
    }
  }

  /** The written header ends with the target columns, in column order,
      and nothing before them is a target. */
  lemma TargetsLast(opts: Options, outputPath: string, cols: seq<Column>, ms: Measures)
    ensures var s := Summarise(opts, outputPath, cols, ms);
      var targets := Names(Pick(cols, Target));
      && |s.outputColumns| >= |targets|
      && s.outputColumns[|s.outputColumns| - |targets|..] == targets
      && forall i :: 0 <= i < |s.outputColumns| - |targets| ==> !IsTargetName(s.outputColumns[i])
  {
    var s := Summarise(opts, outputPath, cols, ms);
    var features := Pick(cols, Feature);
    var nonNumeric := Pick(features, NonNumeric);
    FeatureColumnsNotTargets(opts, ms, features, nonNumeric);
    assert s.outputColumns == FeatureColumns(opts, ms, features, nonNumeric) + Names(Pick(cols, Target));
  }

  /** No component name `PC<i>` is a target name. */
  lemma ComponentNameNotTarget(i: nat)
    ensures !IsTargetName("PC" + NatStr(i))
  {
    var n := "PC" + NatStr(i);
    assert n[0] == 'P';
    TrimKeepsLead(n, PySpace);
    var t := Trim(n, PySpace);
    assert AsciiLower(t)[0] == 'p';
    assert AttackCatName[0] == 'a' && LabelName[0] == 'l';
  }

  /** The columns written before the targets are components or feature
      names, none of them a target name. */
  lemma FeatureColumnsNotTargets(opts: Options, ms: Measures, features: seq<Column>, nonNumeric: seq<Column>)
    requires forall c :: c in features ==> !IsTargetName(c.name)
    requires forall c :: c in nonNumeric ==> c in features
    ensures var fc := FeatureColumns(opts, ms, features, nonNumeric);
      forall i :: 0 <= i < |fc| ==> !IsTargetName(fc[i])
  {
    var fc := FeatureColumns(opts, ms, features, nonNumeric);
    forall i | 0 <= i < |fc|
      ensures !IsTargetName(fc[i])
    {
      if RunsPca(opts, Pick(features, Numeric), nonNumeric) {
        var k := ms.components;
        if i < k {
          assert fc[i] == ComponentNames(k)[i];
          ComponentNameNotTarget(i + 1);
        } else {
          assert fc[i] == Names(nonNumeric)[i - k];
          assert nonNumeric[i - k] in nonNumeric;
        }
      } else {
        assert fc[i] == Names(features)[i];
        assert features[i] in features;
      }
    }
  }

  /** Without PCA the features are written as they are, in order. */
  lemma NoPcaKeepsFeatures(opts: Options, outputPath: string, cols: seq<Column>, ms: Measures)
    requires !opts.featureSelection
    ensures var s := Summarise(opts, outputPath, cols, ms);
      s.outputColumns == Names(Pick(cols, Feature)) + Names(Pick(cols, Target))
  {
  }

  /** With PCA the components come first and the non-numeric features
      stay, even when label encoding already fed them into the PCA. */
  lemma PcaKeepsNonNumeric(opts: Options, outputPath: string, cols: seq<Column>, ms: Measures)
    requires opts.featureSelection && opts.encodingCategorical
    requires |Pick(Pick(cols, Feature), NonNumeric)| > 0
    ensures var s := Summarise(opts, outputPath, cols, ms);
      var k := ms.components;
      && Keys(s.selection) == ComponentNames(k)
      && Keys(s.encoding) == s.nonNumericNames
      && |s.outputColumns| >= k + |s.nonNumericNames|
      && s.outputColumns[..k] == ComponentNames(k)
      && s.outputColumns[k..k + |s.nonNumericNames|] == s.nonNumericNames
  {
    var s := Summarise(opts, outputPath, cols, ms);
    var features := Pick(cols, Feature);
    var nonNumeric := Pick(features, NonNumeric);
    var k := ms.components;
    assert RunsPca(opts, Pick(features, Numeric), nonNumeric);
    assert s.selection == SelectionSummary(ms);
    assert s.encoding == EncodingSummary(ms, nonNumeric);
    assert s.nonNumericNames == Names(nonNumeric);
    assert s.outputColumns == ComponentNames(k) + Names(nonNumeric) + Names(Pick(cols, Target));
    ThreeParts(ComponentNames(k), Names(nonNumeric), Names(Pick(cols, Target)));
  }

  lemma ThreeParts(a: seq<string>, b: seq<string>, c: seq<string>)
    ensures |a + b + c| >= |a| + |b|
    ensures (a + b + c)[..|a|] == a
    ensures (a + b + c)[|a|..|a| + |b|] == b
  {
    var abc := a + b + c;
    assert abc[..|a|] == a;
    assert abc[|a|..|a| + |b|] == b;
  }

  // ---------------------------------------------------------------------
  // The printed result
  // ---------------------------------------------------------------------

  const MissingSummaryKey := "missingValueSummary"
  const ScalingSummaryKey := "featureScalingSummary"
  const EncodingSummaryKey := "encodingSummary"
  const SelectionSummaryKey := "featureSelectionSummary"
  const NumericNamesKey := "numericFeatureNames"
  const NonNumericNamesKey := "nonNumericFeatureNames"
  const OutputPathKey := "preprocessedFilePath"

  /** The keys of the returned dictionary, in order. */
  const ResponseKeys: seq<string> := [
    MissingSummaryKey, ScalingSummaryKey, EncodingSummaryKey, SelectionSummaryKey,
    NumericNamesKey, NonNumericNamesKey, OutputPathKey]

  function StringArray(ns: seq<string>): (v: Json)
    ensures v.JArr? && |v.items| == |ns|
    ensures forall i :: 0 <= i < |ns| ==> v.items[i] == JStr(ns[i])
  {
    JArr(seq(|ns|, i requires 0 <= i < |ns| => JStr(ns[i])))
  }

  function ResponseJson(s: Summary): (v: Json)
    ensures v.JObj? && Keys(v.fields) == ResponseKeys
    ensures v.fields[6] == (OutputPathKey, JStr(s.outputPath))
  {
    JObj(Entries(ResponseKeys, [
      JObj([("Original Missing Values", JObj(s.originalMissing)), ("After Preprocessing", JObj(s.afterMissing))]),
      JObj(s.scaling),
      JObj(s.encoding),
      JObj(s.selection),
      StringArray(s.numericNames),
      StringArray(s.nonNumericNames),
      JStr(s.outputPath)]))
  }

  /** `print(json.dumps(result))`: the summary, or exactly `{"error": msg}`. */
  function Output(r: Result<Summary>): (v: Json)
    ensures r.Err? ==> v == ErrorObj(r.msg)
    ensures r.Ok? ==> v.JObj? && Keys(v.fields) == ResponseKeys && OutputPathKey !in Keys(v.fields)[..6]
  {
    match r
    case Err(m) => ErrorObj(m)
    case Ok(s) =>
      var v := ResponseJson(s);
      assert Keys(v.fields)[..6] == ResponseKeys[..6];
      v
  }

  /** A successful run prints its output path under `preprocessedFilePath`
      and carries no `error` key. */
  lemma OutputNamesPath(s: Summary)
    ensures Lookup(Output(Ok(s)).fields, OutputPathKey) == Some(JStr(s.outputPath))
    ensures Lookup(Output(Ok(s)).fields, "error").None?
  {
    var fs := Output(Ok(s)).fields;
    assert fs == ResponseJson(s).fields;
    assert |fs| == 7;
    LastEntryWins(fs);
    NoErrorKey();
  }

  lemma NoErrorKey()
    ensures "error" !in ResponseKeys
  {
    forall i | 0 <= i < |ResponseKeys|
      ensures |ResponseKeys[i]| > 5
    {
    }
  }

  lemma LastEntryWins(fs: seq<(string, Json)>)
    requires |fs| > 0
    ensures Lookup(fs, fs[|fs| - 1].0) == Some(fs[|fs| - 1].1)
    decreases |fs|
  {
    if |fs| > 1 {
      assert fs[1..][|fs| - 2] == fs[|fs| - 1];
      LastEntryWins(fs[1..]);
    }
  }

  // ---------------------------------------------------------------------
  // The command line
  // ---------------------------------------------------------------------

  /** The names of the four switches, as keyword arguments. */
  const FlagNames: seq<string> := ["missingValueHandling", "featureScaling", "encodingCategorical", "featureSelection"]

  /** Python truthiness of a decoded JSON value: empty containers are
      false too. */
  predicate PyTruthy(v: Json) {
    match v
    case JNull => false
    case JBool(b) => b
    case JNum(n) => n != 0.0
    case JStr(s) => s != ""
    case JArr(items) => items != []
    case JObj(fields) => fields != []
  }

  /** Exceptions the `__main__` block can raise before the function's
      own `try` takes over. */
  datatype PyException = IndexError | DecodeError(message: string) | TypeError

  /** How far the `__main__` block gets: the call it makes, or the
      exception that ends the script first. */
  datatype Start = Call(datasetPath: string, opts: Options, outputPath: string) | Raised(exception: PyException)

  /** `**options` binds only when the decoded value is an object whose
      keys are exactly the four switch names (a repeated key counts once,
      the last value wins). */
  predicate BindsAsOptions(v: Json) {
    && v.JObj?
    && (forall i :: 0 <= i < |v.fields| ==> v.fields[i].0 in FlagNames)
    && (forall j :: 0 <= j < |FlagNames| ==> FlagNames[j] in Keys(v.fields))
  }

  function Flag(v: Json, j: nat): bool
    requires BindsAsOptions(v) && j < |FlagNames|
  {
    PyTruthy(Lookup(v.fields, FlagNames[j]).value)
  }

  /** The `__main__` block up to the call: `argv[1]`, `json.loads(argv[2])`,
      `argv[3]`, then keyword binding, raising at the first step that
      fails. `argv[0]` is the script. */
  function ReadArgv(argv: seq<string>, parse: string -> ParseResult): (r: Start)
    ensures |argv| < 3 ==> r == Raised(IndexError)
    ensures |argv| >= 3 && parse(argv[2]).SyntaxError? ==> r == Raised(DecodeError(parse(argv[2]).message))
    ensures |argv| == 3 && parse(argv[2]).Parsed? ==> r == Raised(IndexError)
    ensures r.Call? <==> |argv| >= 4 && parse(argv[2]).Parsed? && BindsAsOptions(parse(argv[2]).value)
    ensures r.Call? ==> r.datasetPath == argv[1] && r.outputPath == argv[3]
  {
    if |argv| < 3 then Raised(IndexError)
    else
      match parse(argv[2])
      case SyntaxError(m) => Raised(DecodeError(m))
      case Parsed(v) =>
        if |argv| < 4 then Raised(IndexError)
        else if !BindsAsOptions(v) then Raised(TypeError)
        else Call(argv[1], Options(Flag(v, 0), Flag(v, 1), Flag(v, 2), Flag(v, 3)), argv[3])
  }

  /** The script's end: a printed result, or an exception that escapes. */
  datatype Exit = Printed(out: Json) | Uncaught(exception: PyException)

  /** The whole script. `load` is what reading the named dataset gives. */
  function Script(
    argv: seq<string>, parse: string -> ParseResult, load: Result<Table>, failure: Option<string>, ms: Measures)
    : (e: Exit)
    ensures e.Printed? <==> ReadArgv(argv, parse).Call?
    ensures e.Printed? ==> e.out.JObj?
  {
    match ReadArgv(argv, parse)
    case Raised(x) => Uncaught(x)
    case Call(_, opts, outputPath) => Printed(Output(PreprocessDataset(opts, outputPath, load, failure, ms)))
  }
}

=== FILE: preprocessing_controller.dfy ===
/** The preprocessing request handler: find the named dataset, check its
    file, serialise the four flags, build a shell command line, run it, and
    answer with the first stdout line that looks like a JSON object. */
module PreprocessingController {
  import opened Wrappers
  import opened Text
  import opened Fields
  import opened Json
  import opened Paths
  import opened Registry
  import opened Process

  /** The four preprocessing switches of a request, in the order the
      handler serialises them. */
  datatype Flags = Flags(
    missingValueHandling: bool,
    featureScaling: bool,
    encodingCategorical: bool,
    featureSelection: bool)

  datatype PreproRequest = PreproRequest(flags: Flags, dataset: string)

  const ExecFailedMessage := "Python script execution failed"
  const ParseFailedMessage := "Failed to parse Python output"
  const NoJsonLineMessage := "No valid JSON output from Python script."
  const HandlerFailedMessage := "Preprocessing failed"

  // ---------------------------------------------------------------------
  // The options blob
  // ---------------------------------------------------------------------

  function BoolText(b: bool): string {
    if b then "true" else "false"
  }

  const MissingKey := "{\"missingValueHandling\":"
  const ScalingKey := ",\"featureScaling\":"
  const EncodingKey := ",\"encodingCategorical\":"
  const SelectionKey := ",\"featureSelection\":"

  /** `JSON.stringify` of the four flags, keys in declaration order:
      `{"missingValueHandling":…,"featureScaling":…,"encodingCategorical":…,"featureSelection":…}`.
      The dataset name is not an input, so it cannot appear in the blob.
      The blob reads back as the same four flags and holds no backslash. */
  function OptionsBlob(f: Flags): (r: string)
    ensures DecodeOptions(r) == Some(f)
    ensures '\\' !in r
  {
    var r3 := SelectionKey + BoolText(f.featureSelection) + "}";
    var r2 := EncodingKey + BoolText(f.encodingCategorical) + r3;
    var r1 := ScalingKey + BoolText(f.featureScaling) + r2;
    var r := MissingKey + BoolText(f.missingValueHandling) + r1;
    BlobOfFieldsDecodes(f, r, r1, r2, r3);
    BlobOfFieldsHasNoBackslash(f, r, r1, r2, r3);
    r
  }

  /** The blob built field by field reads back as the flags. */
  lemma BlobOfFieldsDecodes(f: Flags, r: string, r1: string, r2: string, r3: string)
    requires r3 == SelectionKey + BoolText(f.featureSelection) + "}"
    requires r2 == EncodingKey + BoolText(f.encodingCategorical) + r3
    requires r1 == ScalingKey + BoolText(f.featureScaling) + r2
    requires r == MissingKey + BoolText(f.missingValueHandling) + r1
    ensures DecodeOptions(r) == Some(f)
  {
    ReadFieldOf(MissingKey, f.missingValueHandling, r1);
    ReadFieldOf(ScalingKey, f.featureScaling, r2);
    ReadFieldOf(EncodingKey, f.encodingCategorical, r3);
    ReadFieldOf(SelectionKey, f.featureSelection, "}");
    DecodeFields(r, r1, r2, r3, f);
  }

  /** The blob built field by field holds no backslash. */
  lemma BlobOfFieldsHasNoBackslash(f: Flags, r: string, r1: string, r2: string, r3: string)
    requires r3 == SelectionKey + BoolText(f.featureSelection) + "}"
    requires r2 == EncodingKey + BoolText(f.encodingCategorical) + r3
    requires r1 == ScalingKey + BoolText(f.featureScaling) + r2
    requires r == MissingKey + BoolText(f.missingValueHandling) + r1
    ensures '\\' !in r
  {
    FieldHasNoBackslash(SelectionKey, f.featureSelection, "}");
    FieldHasNoBackslash(EncodingKey, f.encodingCategorical, r3);
    FieldHasNoBackslash(ScalingKey, f.featureScaling, r2);
    FieldHasNoBackslash(MissingKey, f.missingValueHandling, r1);
  }

  /** Reads `true` or `false` at the front of `s`. */
  function ReadBool(s: string): Option<(bool, string)> {
    if StartsWith(s, "true") then Some((true, s[4..]))
    else if StartsWith(s, "false") then Some((false, s[5..]))
    else None
  }

  /** Drops `lit` from the front of `s`, if it is there. */
  function Expect(s: string, lit: string): Option<string> {
    if StartsWith(s, lit) then Some(s[|lit|..]) else None
  }

  /** Reads `key` and then a boolean at the front of `s`. */
  function ReadField(s: string, key: string): Option<(bool, string)> {
    match Expect(s, key)
    case None => None
    case Some(rest) => ReadBool(rest)
  }

  /** Reads the blob back: the four keys in this order, boolean values,
      and nothing after the closing brace. */
  function DecodeOptions(s: string): Option<Flags> {
    match ReadField(s, MissingKey)
    case None => None
    case Some((a, s1)) =>
      match ReadField(s1, ScalingKey)
      case None => None
      case Some((b, s2)) =>
        match ReadField(s2, EncodingKey)
        case None => None
        case Some((c, s3)) =>
          match ReadField(s3, SelectionKey)
          case None => None
          case Some((d, s4)) => if s4 == "}" then Some(Flags(a, b, c, d)) else None
  }

  lemma ReadBoolText(b: bool, rest: string)
    ensures ReadBool(BoolText(b) + rest) == Some((b, rest))
  {
    var s := BoolText(b) + rest;
    assert s[..|BoolText(b)|] == BoolText(b);
    assert s[|BoolText(b)|..] == rest;
    if !b {
      assert !StartsWith(s, "true") by { assert s[0] == 'f'; }
    }
  }

  lemma ReadFieldOf(key: string, b: bool, rest: string)
    ensures ReadField(key + BoolText(b) + rest, key) == Some((b, rest))
  {
    var s := key + BoolText(b) + rest;
    assert s[..|key|] == key;
    assert s[|key|..] == BoolText(b) + rest;
    ReadBoolText(b, rest);
  }

  lemma DecodeFields(s: string, r1: string, r2: string, r3: string, f: Flags)
    requires ReadField(s, MissingKey) == Some((f.missingValueHandling, r1))
    requires ReadField(r1, ScalingKey) == Some((f.featureScaling, r2))
    requires ReadField(r2, EncodingKey) == Some((f.encodingCategorical, r3))
    requires ReadField(r3, SelectionKey) == Some((f.featureSelection, "}"))
    ensures DecodeOptions(s) == Some(f)
  {
  }

  /** A key, a boolean and a backslash-free rest hold no backslash. */
  lemma FieldHasNoBackslash(key: string, b: bool, rest: string)
    requires key in [MissingKey, ScalingKey, EncodingKey, SelectionKey]
    requires '\\' !in rest
    ensures '\\' !in key + BoolText(b) + rest
  {
    KeyHasNoBackslash(key);
    KeyHasNoBackslash(BoolText(b));
    NotInConcat('\\', key, BoolText(b));
    NotInConcat('\\', key + BoolText(b), rest);
  }

  lemma NotInConcat(c: char, a: string, b: string)
    requires c !in a && c !in b
    ensures c !in a + b
  {
  }

  /** The pieces of the blob: key texts, `true` and `false`. */
  lemma KeyHasNoBackslash(s: string)
    requires s in [MissingKey, ScalingKey, EncodingKey, SelectionKey, "true", "false"]
    ensures '\\' !in s
  {
    if s == MissingKey {
      assert '\\' !in MissingKey;
    } else if s == ScalingKey {
      assert '\\' !in ScalingKey;
    } else if s == EncodingKey {
      assert '\\' !in EncodingKey;
    } else if s == SelectionKey {
      assert '\\' !in SelectionKey;
    }
  }

  // ---------------------------------------------------------------------
  // Quote escaping
  // ---------------------------------------------------------------------

  function QuoteCount(s: string): (n: nat)
    ensures n <= |s|
    ensures n == 0 <==> '"' !in s
  {
    if |s| == 0 then 0 else (if s[0] == '"' then 1 else 0) + QuoteCount(s[1..])
  }

  /** `s.replace(/"/g, '\\"')`: every double quote gains a backslash in
      front of it. */
  function Escape(s: string): (r: string)
    ensures |r| == |s| + QuoteCount(s)
    ensures |r| > 0 ==> r[0] != '"'
    ensures '"' !in s ==> r == s
  {
    if |s| == 0 then ""
    else
      var rest := Escape(s[1..]);
      var head := if s[0] == '"' then "\\\"" else [s[0]];
      head + rest
  }

  /** Every quote has a backslash just before it. */
  predicate QuotesEscaped(r: string) {
    forall i :: 0 <= i < |r| && r[i] == '"' ==> 0 < i && r[i - 1] == '\\'
  }

  /** Every backslash has a quote just after it. */
  predicate BackslashesEscape(r: string) {
    forall i :: 0 <= i < |r| && r[i] == '\\' ==> i + 1 < |r| && r[i + 1] == '"'
  }

  /** In escaped text every quote is escaped; and when the original held
      no backslash, every backslash belongs to an escaped quote. */
  lemma {:induction false} EscapeShape(s: string)
    ensures QuotesEscaped(Escape(s))
    ensures '\\' !in s ==> BackslashesEscape(Escape(s))
    decreases |s|
  {
    if |s| > 0 {
      EscapeShape(s[1..]);
      var rest := Escape(s[1..]);
      var head := if s[0] == '"' then "\\\"" else [s[0]];
      var r := head + rest;
      assert Escape(s) == r;
      forall i | 0 <= i < |r| && r[i] == '"'
        ensures 0 < i && r[i - 1] == '\\'
      {
        if i >= |head| {
          assert r[i] == rest[i - |head|];
          if i - |head| > 0 {
            assert r[i - 1] == rest[i - |head| - 1];
          }
        }
      }
      if '\\' !in s {
        assert '\\' !in s[1..] by {
          forall j | 0 <= j < |s[1..]|
            ensures s[1..][j] != '\\'
          {
            assert s[1..][j] == s[j + 1];
          }
        }
        forall i | 0 <= i < |r| && r[i] == '\\'
          ensures i + 1 < |r| && r[i + 1] == '"'
        {
          if i >= |head| {
            assert r[i] == rest[i - |head|];
            assert r[i + 1] == rest[i - |head| + 1];
          } else {
            assert s[0] in s;
          }
        }
      }
    }
  }

  /** The inverse rewrite: each `\"`, read left to right, becomes `"`. */
  function Unescape(s: string): string {
    if |s| >= 2 && s[0] == '\\' && s[1] == '"' then "\"" + Unescape(s[2..])
    else if |s| == 0 then ""
    else [s[0]] + Unescape(s[1..])
  }

  /** Escaping is undone by unescaping, whatever the text holds. */
  lemma {:induction false} EscapeRoundTrip(s: string)
    ensures Unescape(Escape(s)) == s
    decreases |s|
  {
    if |s| > 0 {
      var rest := Escape(s[1..]);
      EscapeRoundTrip(s[1..]);
      if s[0] == '"' {
        assert Escape(s) == "\\\"" + rest;
        UnescapeQuote(rest);
        assert "\"" + s[1..] == s;
      } else {
        assert Escape(s) == [s[0]] + rest;
        UnescapeOther(s[0], rest);
        assert [s[0]] + s[1..] == s;
      }
    }
  }

  lemma UnescapeQuote(rest: string)
    ensures Unescape("\\\"" + rest) == "\"" + Unescape(rest)
  {
    assert ("\\\"" + rest)[2..] == rest;
  }

  lemma UnescapeOther(c: char, rest: string)
    requires c != '"'
    requires |rest| > 0 ==> rest[0] != '"'
    ensures Unescape([c] + rest) == [c] + Unescape(rest)
  {
    assert ([c] + rest)[1..] == rest;
  }

  // ---------------------------------------------------------------------
  // The command line and how a shell reads it
  // ---------------------------------------------------------------------

  /** A word between double quotes, as the template writes it. */
  function Quoted(w: string): string {
    "\"" + w + "\""
  }

  /** `python "<script>" "<datasetPath>" "<escaped>"`. With quote-free,
      backslash-free paths, and `escaped` the escaping of a backslash-free
      blob, the shell hands `python` exactly three words: the script, the
      dataset path and the original blob. */
  function Command(script: string, datasetPath: string, escaped: string): (r: string)
    ensures '"' !in script && '\\' !in script && '"' !in datasetPath && '\\' !in datasetPath ==>
      forall blob :: '\\' !in blob && escaped == Escape(blob) ==>
        ReadWords(r) == Some(["python", script, datasetPath, blob])
  {
    var r := "python " + (Quoted(script) + (" " + (Quoted(datasetPath) + (" " + Quoted(escaped)))));
    if '"' !in script && '\\' !in script && '"' !in datasetPath && '\\' !in datasetPath then
      CommandWords(script, datasetPath, escaped);
      r
    else
      r
  }

  /** Reads a double-quoted word whose opening quote is already consumed:
      `\"` and `\\` stand for `"` and `\`, and the word ends at the next
      unescaped quote. Yields the word and the text after the quote. */
  function ReadQuoted(s: string): (r: Option<(string, string)>)
    ensures r.Some? ==> |r.value.1| < |s|
    decreases |s|
  {
    if |s| == 0 then None
    else if s[0] == '"' then Some(("", s[1..]))
    else if s[0] == '\\' && |s| >= 2 && (s[1] == '"' || s[1] == '\\') then
      match ReadQuoted(s[2..])
      case None => None
      case Some((w, rest)) => Some(([s[1]] + w, rest))
    else
      match ReadQuoted(s[1..])
      case None => None
      case Some((w, rest)) => Some(([s[0]] + w, rest))
  }

  /** Reads an unquoted word up to the next space. */
  function ReadBare(s: string): (r: (string, string))
    ensures |r.1| <= |s|
    ensures |s| > 0 && s[0] != ' ' ==> |r.1| < |s|
    decreases |s|
  {
    if |s| == 0 || s[0] == ' ' then ("", s)
    else
      var (w, rest) := ReadBare(s[1..]);
      ([s[0]] + w, rest)
  }

  /** The words a shell makes of a command line built from spaces, bare
      words and double-quoted words. */
  function ReadWords(s: string): Option<seq<string>>
    decreases |s|
  {
    if |s| == 0 then Some([])
    else if s[0] == ' ' then ReadWords(s[1..])
    else if s[0] == '"' then
      match ReadQuoted(s[1..])
      case None => None
      case Some((w, rest)) =>
        match ReadWords(rest)
        case None => None
        case Some(ws) => Some([w] + ws)
    else
      var (w, rest) := ReadBare(s);
      match ReadWords(rest)
      case None => None
      case Some(ws) => Some([w] + ws)
  }

  function Prepend(w: string, ws: Option<seq<string>>): Option<seq<string>> {
    if ws.Some? then Some([w] + ws.value) else None
  }

  lemma {:induction false} ReadQuotedEscaped(w: string, rest: string)
    requires '\\' !in w
    ensures ReadQuoted(Escape(w) + "\"" + rest) == Some((w, rest))
    decreases |w|
  {
    if |w| == 0 {
      var s := Escape(w) + "\"" + rest;
      assert s[1..] == rest;
    } else {
      ReadQuotedEscaped(w[1..], rest);
      ReadQuotedEscapedStep(w, rest);
    }
  }

  /** One character of the word more: escaped, it reads back as itself. */
  lemma ReadQuotedEscapedStep(w: string, rest: string)
    requires |w| > 0 && '\\' !in w
    requires ReadQuoted(Escape(w[1..]) + "\"" + rest) == Some((w[1..], rest))
    ensures ReadQuoted(Escape(w) + "\"" + rest) == Some((w, rest))
  {
    assert w[0] in w;
    var tail := Escape(w[1..]) + "\"" + rest;
    EscapeHead(w, rest);
    if w[0] == '"' {
      ReadQuotedQuote(tail, w[1..], rest);
      assert "\"" + w[1..] == w;
    } else {
      ReadQuotedPlain(w[0], tail, w[1..], rest);
      assert [w[0]] + w[1..] == w;
    }
  }

  /** Escaping rewrites the first character and then the rest. */
  lemma EscapeHead(w: string, rest: string)
    requires |w| > 0
    ensures w[0] == '"' ==> Escape(w) + "\"" + rest == "\\\"" + (Escape(w[1..]) + "\"" + rest)
    ensures w[0] != '"' ==> Escape(w) + "\"" + rest == [w[0]] + (Escape(w[1..]) + "\"" + rest)
  {
    var head := if w[0] == '"' then "\\\"" else [w[0]];
    var e := Escape(w[1..]);
    assert Escape(w) == head + e;
    AppendAssoc3(head, e, "\"", rest);
  }

  lemma AppendAssoc3(a: string, b: string, c: string, d: string)
    ensures a + b + c + d == a + (b + c + d)
  {
  }

  /** An escaped quote stands for a quote in the word. */
  lemma ReadQuotedQuote(tail: string, w: string, rest: string)
    requires ReadQuoted(tail) == Some((w, rest))
    ensures ReadQuoted("\\\"" + tail) == Some(("\"" + w, rest))
  {
    assert ("\\\"" + tail)[2..] == tail;
  }

  /** Any other character stands for itself. */
  lemma ReadQuotedPlain(c: char, tail: string, w: string, rest: string)
    requires c != '"' && c != '\\'
    requires ReadQuoted(tail) == Some((w, rest))
    ensures ReadQuoted([c] + tail) == Some(([c] + w, rest))
  {
    assert ([c] + tail)[1..] == tail;
  }

  lemma ReadWordsQuoted(w: string, rest: string)
    requires '\\' !in w
    ensures ReadWords(Quoted(Escape(w)) + rest) == Prepend(w, ReadWords(rest))
  {
    var s := Quoted(Escape(w)) + rest;
    assert s[1..] == Escape(w) + "\"" + rest;
    ReadQuotedEscaped(w, rest);
  }

  lemma ReadWordsSpace(rest: string)
    ensures ReadWords(" " + rest) == ReadWords(rest)
  {
    assert (" " + rest)[1..] == rest;
  }

  lemma {:induction false} ReadBareWord(w: string, rest: string)
    requires ' ' !in w
    requires |rest| == 0 || rest[0] == ' '
    ensures ReadBare(w + rest) == (w, rest)
    decreases |w|
  {
    if |w| > 0 {
      assert (w + rest)[1..] == w[1..] + rest;
      ReadBareWord(w[1..], rest);
      assert [w[0]] + w[1..] == w;
    } else {
      assert w + rest == rest;
    }
  }

  lemma ReadWordsPython(rest: string)
    ensures ReadWords("python " + rest) == Prepend("python", ReadWords(rest))
  {
    var s := "python " + rest;
    assert s == "python" + (" " + rest);
    ReadBareWord("python", " " + rest);
    assert (" " + rest)[1..] == rest;
  }

  lemma PythonThen(rest: string, ws: seq<string>)
    requires ReadWords(rest) == Some(ws)
    ensures ReadWords("python " + rest) == Some(["python"] + ws)
  {
    ReadWordsPython(rest);
  }

  /** The words of the command line, for every blob `escaped` can be the
      escaping of. */
  lemma CommandWords(script: string, datasetPath: string, escaped: string)
    requires '"' !in script && '\\' !in script
    requires '"' !in datasetPath && '\\' !in datasetPath
    ensures forall blob :: '\\' !in blob && escaped == Escape(blob) ==>
      ReadWords("python " + (Quoted(script) + (" " + (Quoted(datasetPath) + (" " + Quoted(escaped))))))
        == Some(["python", script, datasetPath, blob])
  {
    var q1 := Quoted(script) + (" " + (Quoted(datasetPath) + (" " + Quoted(escaped))));
    forall blob | '\\' !in blob && escaped == Escape(blob)
      ensures ReadWords("python " + q1) == Some(["python", script, datasetPath, blob])
    {
      var ws := [script, datasetPath, blob];
      assert ReadWords(q1) == Some(ws) by {
        ThreeQuotedWords(script, datasetPath, blob);
      }
      PythonThen(q1, ws);
      assert ["python"] + ws == ["python", script, datasetPath, blob];
    }
  }

  lemma ThreeQuotedWords(a: string, b: string, c: string)
    requires '"' !in a && '\\' !in a && '"' !in b && '\\' !in b && '\\' !in c
    ensures ReadWords(Quoted(a) + (" " + (Quoted(b) + (" " + Quoted(Escape(c)))))) == Some([a, b, c])
  {
    var q3 := Quoted(Escape(c));
    var q2 := Quoted(b) + (" " + q3);
    assert ReadWords(q2) == Some([b, c]) by {
      LastQuotedWord(c);
      PlainQuotedWordThen(b, q3, [c]);
      assert [b] + [c] == [b, c];
    }
    PlainQuotedWordThen(a, q2, [b, c]);
    assert [a] + [b, c] == [a, b, c];
  }

  /** The same for a word that needs no escaping. */
  lemma PlainQuotedWordThen(w: string, rest: string, ws: seq<string>)
    requires '"' !in w && '\\' !in w
    requires ReadWords(rest) == Some(ws)
    ensures ReadWords(Quoted(w) + (" " + rest)) == Some([w] + ws)
  {
    assert Escape(w) == w;
    QuotedWordThen(w, rest, ws);
  }

  /** A quoted word, a space, and words that read as `ws`. */
  lemma QuotedWordThen(w: string, rest: string, ws: seq<string>)
    requires '\\' !in w
    requires ReadWords(rest) == Some(ws)
    ensures ReadWords(Quoted(Escape(w)) + (" " + rest)) == Some([w] + ws)
  {
    ReadWordsQuoted(w, " " + rest);
    ReadWordsSpace(rest);
  }

  lemma LastQuotedWord(w: string)
    requires '\\' !in w
    ensures ReadWords(Quoted(Escape(w))) == Some([w])
  {
    assert Quoted(Escape(w)) == Quoted(Escape(w)) + "";
    ReadWordsQuoted(w, "");
    assert ReadWords("") == Some([]);
    assert [w] + [] == [w];
  }

  // ---------------------------------------------------------------------
  // The stdout scanner
  // ---------------------------------------------------------------------

  /** Index of the first line starting with `{`. */
  function FirstBraceIndex(lines: seq<string>): (r: Option<nat>)
    ensures r.Some? ==> r.value < |lines| && StartsWith(lines[r.value], "{")
    ensures r.Some? ==> forall j :: 0 <= j < r.value ==> !StartsWith(lines[j], "{")
    ensures r.None? ==> forall j :: 0 <= j < |lines| ==> !StartsWith(lines[j], "{")
    decreases |lines|
  {
    if |lines| == 0 then None
    else if StartsWith(lines[0], "{") then Some(0)
    else
      match FirstBraceIndex(lines[1..])
      case None => None
      case Some(i) => Some(i + 1)
  }

  /** `stdout.split("\n").find(line => line.startsWith("{"))`: the line is
      not trimmed, so an indented object is not found. */
  function FirstBraceLine(stdout: string): (r: Option<string>)
    ensures r.Some? ==> StartsWith(r.value, "{") && '\n' !in r.value
    ensures r.None? ==> forall j :: 0 <= j < |Split(stdout, '\n')| ==> !StartsWith(Split(stdout, '\n')[j], "{")
    ensures r.Some? ==> exists i ::
      && 0 <= i < |Split(stdout, '\n')|
      && r.value == Split(stdout, '\n')[i]
      && forall j :: 0 <= j < i ==> !StartsWith(Split(stdout, '\n')[j], "{")
  {
    var lines := Split(stdout, '\n');
    match FirstBraceIndex(lines)
    case None => None
    case Some(i) => Some(lines[i])
  }

  lemma {:induction false} FirstBraceIndexConcat(a: seq<string>, b: seq<string>)
    requires FirstBraceIndex(a).Some?
    ensures FirstBraceIndex(a + b) == FirstBraceIndex(a)
    decreases |a|
  {
    if !StartsWith(a[0], "{") {
      assert (a + b)[1..] == a[1..] + b;
      FirstBraceIndexConcat(a[1..], b);
    }
  }

  lemma {:induction false} FirstBraceIndexSkips(a: seq<string>, b: seq<string>)
    requires FirstBraceIndex(a).None?
    ensures FirstBraceIndex(a + b) == if FirstBraceIndex(b).Some? then Some(|a| + FirstBraceIndex(b).value) else None
    decreases |a|
  {
    if |a| == 0 {
      assert a + b == b;
    } else {
      var ab := a + b;
      assert !StartsWith(a[0], "{");
      assert FirstBraceIndex(a[1..]).None?;
      assert ab[0] == a[0];
      assert ab[1..] == a[1..] + b;
      FirstBraceIndexSkips(a[1..], b);
      if FirstBraceIndex(b).Some? {
        assert FirstBraceIndex(ab[1..]) == Some(|a| - 1 + FirstBraceIndex(b).value);
      } else {
        assert FirstBraceIndex(ab[1..]).None?;
      }
    }
  }

  /** Output after the first object line is never looked at. */
  lemma LaterOutputIgnored(a: string, b: string)
    requires FirstBraceLine(a).Some?
    ensures FirstBraceLine(a + "\n" + b) == FirstBraceLine(a)
  {
    SplitConcat(a, b, '\n');
    FirstBraceIndexConcat(Split(a, '\n'), Split(b, '\n'));
    var i := FirstBraceIndex(Split(a, '\n')).value;
    assert (Split(a, '\n') + Split(b, '\n'))[i] == Split(a, '\n')[i];
  }

  /** Log lines without a leading `{` before the object are skipped. */
  lemma LogLinesSkipped(log: string, b: string)
    requires FirstBraceLine(log).None?
    ensures FirstBraceLine(log + "\n" + b) == FirstBraceLine(b)
  {
    SplitConcat(log, b, '\n');
    var la, lb := Split(log, '\n'), Split(b, '\n');
    FirstBraceIndexSkips(la, lb);
    if FirstBraceIndex(lb).Some? {
      assert (la + lb)[|la| + FirstBraceIndex(lb).value] == lb[FirstBraceIndex(lb).value];
    }
  }

  // ---------------------------------------------------------------------
  // The handler
  // ---------------------------------------------------------------------

  /** `path.resolve(__dirname, "../prepro.py")`, without normalising `..`. */
  function ScriptPath(controllerDir: string): string {
    Resolve(controllerDir, "../prepro.py")
  }

  /** `path.resolve(path.resolve("uploads"), record.path)`: an absolute
      stored path is used as it is, a relative one is placed below the
      `uploads` directory. */
  function DatasetPath(cwd: string, stored: string): (p: string)
    ensures |stored| > 0 && stored[0] == '/' ==> p == stored
    ensures |stored| > 0 && stored[0] != '/' ==> p == cwd + "/uploads/" + stored
    ensures stored == "" ==> p == cwd + "/uploads"
  {
    var dir := Resolve(cwd, "uploads");
    assert dir == cwd + "/uploads";
    assert dir + "/" + stored == cwd + "/uploads/" + stored;
    Resolve(dir, stored)
  }

  function CommandFor(f: Flags, script: string, datasetPath: string): string {
    Command(script, datasetPath, Escape(OptionsBlob(f)))
  }

  /** The `exec` callback. */
  function OnExit(exec: ExecOutcome, parse: string -> ParseResult): (res: Response)
    ensures exec.ExecFailed? ==> res == Response(500, ErrorDetails(ExecFailedMessage, JStr(exec.stderr)))
    ensures exec.Exited? && FirstBraceLine(exec.stdout).None? ==>
      res == Response(500, ErrorDetails(ParseFailedMessage, JStr(NoJsonLineMessage)))
    ensures exec.Exited? && FirstBraceLine(exec.stdout).Some? && parse(FirstBraceLine(exec.stdout).value).SyntaxError? ==>
      res == Response(500, ErrorDetails(ParseFailedMessage, JStr(parse(FirstBraceLine(exec.stdout).value).message)))
    ensures res.status == 200 <==>
      exec.Exited? && FirstBraceLine(exec.stdout).Some? && parse(FirstBraceLine(exec.stdout).value).Parsed?
    ensures res.status == 200 ==> res.body == parse(FirstBraceLine(exec.stdout).value).value
  {
    match exec
    case ExecFailed(stderr) => Response(500, ErrorDetails(ExecFailedMessage, JStr(stderr)))
    case Exited(stdout, _) =>
      match FirstBraceLine(stdout)
      case None => Response(500, ErrorDetails(ParseFailedMessage, JStr(NoJsonLineMessage)))
      case Some(line) =>
        match parse(line)
        case SyntaxError(m) => Response(500, ErrorDetails(ParseFailedMessage, JStr(m)))
        case Parsed(v) => Response(200, v)
  }

  /** `preprocessDataset` as one request-to-reply function. `existing` is
      the set of paths present when the handler runs. */
  function PreprocessDataset(
    req: PreproRequest, query: Query, cwd: string, controllerDir: string,
    existing: set<string>, exec: ExecOutcome, parse: string -> ParseResult): (reply: Reply)
    ensures query.QueryFailed? ==>
      reply == Reply(Response(500, ErrorDetails(HandlerFailedMessage, JStr(query.message))), [], None)
    ensures query.Answered? && FindByName(query.records, req.dataset).None? ==>
      reply == Reply(Response(400, ErrorObj("Dataset not found: " + req.dataset)), [], None)
    ensures query.Answered? && FindByName(query.records, req.dataset).Some? ==>
      var p := DatasetPath(cwd, FindByName(query.records, req.dataset).value.path);
      && reply.probes == [Probe(p, false)]
      && (p !in existing ==> reply.response == Response(400, ErrorObj("Dataset file not found: " + req.dataset)) && reply.spawned.None?)
      && (p in existing ==>
           reply.spawned == Some(ShellCommand(CommandFor(req.flags, ScriptPath(controllerDir), p)))
           && reply.response == OnExit(exec, parse))
  {
    match query
    case QueryFailed(m) => Reply(Response(500, ErrorDetails(HandlerFailedMessage, JStr(m))), [], None)
    case Answered(records) =>
      match FindByName(records, req.dataset)
      case None => Reply(Response(400, ErrorObj("Dataset not found: " + req.dataset)), [], None)
      case Some(record) =>
        var p := DatasetPath(cwd, record.path);
        if p !in existing then
          Reply(Response(400, ErrorObj("Dataset file not found: " + req.dataset)), [Probe(p, false)], None)
        else
          var command := CommandFor(req.flags, ScriptPath(controllerDir), p);
          Reply(OnExit(exec, parse), [Probe(p, false)], Some(ShellCommand(command)))
  }

  /** Unlike the balancing handler, an `error` key in the parsed output
      does not change the status: it is relayed with 200. */
  lemma ErrorKeyStillSucceeds(stdout: string, stderr: string, parse: string -> ParseResult, msg: Json)
    requires FirstBraceLine(stdout).Some?
    requires parse(FirstBraceLine(stdout).value) == Parsed(JObj([("error", msg)]))
    ensures OnExit(Exited(stdout, stderr), parse) == Response(200, JObj([("error", msg)]))
  {
  }
}

=== FILE: process.dfy ===
/** What a controller sees of the outside world and what it hands back: the
    outcome of a spawned process, the outcome of parsing its output, the
    process it asked for, the existence probes it made, and the HTTP reply. */
module Process {
  import opened Wrappers
  import opened Json

  /** A spawned process either failed (non-zero exit, could not start, or
      overran the output ceiling), with its captured standard error, or
      exited normally with both captured streams. */
  datatype ExecOutcome = ExecFailed(stderr: string) | Exited(stdout: string, stderr: string)

  /** `JSON.parse`: a value, or a thrown SyntaxError with its message. The
      parser itself is a parameter of the controllers. */
  datatype ParseResult = Parsed(value: Json) | SyntaxError(message: string)

  /** A process request: `execFile(program, args, { env, maxBuffer })`, or
      `exec(command)` through the shell. */
  datatype Spawn =
    | ExecFile(program: string, args: seq<string>, env: seq<(string, string)>, maxBuffer: nat)
    | ShellCommand(command: string)

  /** One existence check of a path, before or after the process ran. */
  datatype Probe = Probe(path: string, afterRun: bool)

  datatype Response = Response(status: nat, body: Json)

  /** Everything one request does that an observer can see. */
  datatype Reply = Reply(response: Response, probes: seq<Probe>, spawned: Option<Spawn>)
}

=== FILE: registry.dfy ===
/** The dataset registry as the controllers and the dashboard read it: a
    sequence of stored records. The Mongoose model behind it is not part of
    this model; only the two lookups the core issues are. */
module Registry {
  import opened Wrappers
  import opened Json

  /** A stored dataset: unique name, upload path, the path of its
      preprocessed copy once one exists, upload time, and the analysis
      summary stored with it. */
  datatype DatasetRecord = DatasetRecord(
    name: string,
    path: string,
    preprocessedPath: Option<string>,
    uploadedAt: int,
    analysis: Option<Json>)

  /** The answer to a registry query: the records, or the message of the
      exception the query threw. */
  datatype Query = Answered(records: seq<DatasetRecord>) | QueryFailed(message: string)

  /** `findOne({ preprocessedPath: { $exists: true } }).sort({ uploadedAt: -1 })`:
      the most recently uploaded record that has a preprocessed path; among
      equal upload times, the earliest in registry order. */
  function LatestPreprocessed(rs: seq<DatasetRecord>): (r: Option<DatasetRecord>)
    ensures r.None? <==> forall i :: 0 <= i < |rs| ==> rs[i].preprocessedPath.None?
    ensures r.Some? ==> r.value in rs && r.value.preprocessedPath.Some?
    ensures r.Some? ==> forall i :: 0 <= i < |rs| && rs[i].preprocessedPath.Some? ==> rs[i].uploadedAt <= r.value.uploadedAt
    decreases |rs|
  {
    if |rs| == 0 then None
    else
      var best := LatestPreprocessed(rs[1..]);
      if rs[0].preprocessedPath.Some? && (best.None? || best.value.uploadedAt <= rs[0].uploadedAt) then Some(rs[0])
      else best
  }

  /** `i` is the position of the first record called `name`. */
  predicate FirstNamedAt(rs: seq<DatasetRecord>, name: string, i: int) {
    0 <= i < |rs| && rs[i].name == name && forall j :: 0 <= j < i ==> rs[j].name != name
  }

  /** `findOne({ name })` on the server and `data.find(d => d.name === name)`
      in the dashboard: the first record with that name. */
  function FindByName(rs: seq<DatasetRecord>, name: string): (r: Option<DatasetRecord>)
    ensures r.None? <==> forall i :: 0 <= i < |rs| ==> rs[i].name != name
    ensures r.Some? ==> exists i :: FirstNamedAt(rs, name, i) && rs[i] == r.value
    decreases |rs|
  {
    if |rs| == 0 then None
    else if rs[0].name == name then
      assert FirstNamedAt(rs, name, 0);
      Some(rs[0])
    else
      var r := FindByName(rs[1..], name);
      if r.Some? then
        var i :| FirstNamedAt(rs[1..], name, i) && rs[1..][i] == r.value;
        assert FirstNamedAt(rs, name, i + 1);
        r
      else r
  }
}

=== FILE: text.dfy ===
/** String operations the JavaScript and Python sources rely on: decimal
    rendering of integers, first-occurrence search and replace, splitting on
    one separator character, joining, and trimming with each language's own
    notion of white space. */
module Text {
  import opened Wrappers

  // ---------------------------------------------------------------------
  // Decimal digits
  // ---------------------------------------------------------------------

  predicate IsDigit(c: char) {
    '0' <= c <= '9'
  }

  predicate AllDigits(s: string) {
    forall i :: 0 <= i < |s| ==> IsDigit(s[i])
  }

  function DigitChar(d: nat): (c: char)
    requires d < 10
    ensures IsDigit(c)
  {
    ('0' as int + d) as char
  }

  function DigitValue(c: char): nat
    requires IsDigit(c)
  {
    c as int - '0' as int
  }

  /** Decimal rendering of a natural number without leading zeros, as
      `String(n)` in JavaScript and `str(n)` in Python print it. */
  function NatStr(n: nat): (r: string)
    ensures |r| >= 1
    ensures AllDigits(r)
    decreases n
  {
    if n < 10 then [DigitChar(n)] else NatStr(n / 10) + [DigitChar(n % 10)]
  }

  /** The number a string of decimal digits denotes. */
  function DigitsValue(s: string): nat
    requires AllDigits(s)
  {
    if |s| == 0 then 0 else 10 * DigitsValue(s[..|s| - 1]) + DigitValue(s[|s| - 1])
  }

  /** Reading back the decimal rendering of `n` gives `n`. */
  lemma {:induction false} NatStrRoundTrip(n: nat)
    ensures DigitsValue(NatStr(n)) == n
    decreases n
  {
    if n >= 10 {
      var s := NatStr(n);
      assert s[..|s| - 1] == NatStr(n / 10);
      NatStrRoundTrip(n / 10);
    }
  }

  /** Distinct numbers have distinct decimal renderings. */
  lemma NatStrInjective(m: nat, n: nat)
    requires NatStr(m) == NatStr(n)
    ensures m == n
  {
    NatStrRoundTrip(m);
    NatStrRoundTrip(n);
  }

  // ---------------------------------------------------------------------
  // Prefixes and substring occurrences
  // ---------------------------------------------------------------------

  predicate StartsWith(s: string, prefix: string) {
    |prefix| <= |s| && s[..|prefix|] == prefix
  }

  /** `pat` occurs in `s` starting at index `i`. */
  predicate OccursAt(s: string, pat: string, i: int) {
    0 <= i && i + |pat| <= |s| && s[i..i + |pat|] == pat
  }

  ghost predicate Occurs(s: string, pat: string) {
    exists i :: OccursAt(s, pat, i)
  }

  /** `i` is the index of the leftmost occurrence of `pat` in `s`. */
  predicate FirstOccurrence(s: string, pat: string, i: int) {
    OccursAt(s, pat, i) && forall j :: 0 <= j < i ==> !OccursAt(s, pat, j)
  }

  /** Index of the leftmost occurrence of `pat` at or after `from`. */
  function IndexOf(s: string, pat: string, from: nat): (r: Option<nat>)
    requires from <= |s|
    ensures r.Some? ==> from <= r.value && OccursAt(s, pat, r.value)
    ensures r.Some? ==> forall j :: from <= j < r.value ==> !OccursAt(s, pat, j)
    ensures r.None? ==> forall j :: from <= j ==> !OccursAt(s, pat, j)
    decreases |s| - from
  {
    if from + |pat| > |s| then None
    else if s[from..from + |pat|] == pat then Some(from)
    else IndexOf(s, pat, from + 1)
  }

  /** `String.prototype.replace` with a string pattern: only the leftmost
      occurrence of `pat` is replaced by `rep`; without one, `s` is returned. */
  function ReplaceFirst(s: string, pat: string, rep: string): (r: string)
    ensures !Occurs(s, pat) ==> r == s
    ensures forall i :: FirstOccurrence(s, pat, i) ==> r == s[..i] + rep + s[i + |pat|..]
  {
    match IndexOf(s, pat, 0)
    case None => s
    case Some(i) => s[..i] + rep + s[i + |pat|..]
  }

  // ---------------------------------------------------------------------
  // Splitting on one separator character and joining
  // ---------------------------------------------------------------------

  /** `s.split(sep)` for a one-character separator, in JavaScript and in
      Python alike: the pieces between separators, always at least one. */
  function Split(s: string, sep: char): (r: seq<string>)
    ensures |r| >= 1
    ensures forall k :: 0 <= k < |r| ==> sep !in r[k]
    decreases |s|
  {
    if |s| == 0 then [""]
    else
      var rest := Split(s[1..], sep);
      if s[0] == sep then [""] + rest
      else [[s[0]] + rest[0]] + rest[1..]
  }

  /** `parts.join(sep)`. */
  function Join(parts: seq<string>, sep: string): string {
    if |parts| == 0 then ""
    else if |parts| == 1 then parts[0]
    else parts[0] + sep + Join(parts[1..], sep)
  }

  /** Joining the pieces of a split gives back the original string. */
  lemma {:induction false} JoinSplit(s: string, sep: char)
    ensures Join(Split(s, sep), [sep]) == s
    decreases |s|
  {
    if |s| > 0 {
      var rest := Split(s[1..], sep);
      JoinSplit(s[1..], sep);
      assert rest == [rest[0]] + rest[1..];
      if s[0] == sep {
        assert Split(s, sep) == [""] + rest;
        assert Join([""] + rest, [sep]) == "" + [sep] + Join(rest, [sep]);
      } else {
        var parts := [[s[0]] + rest[0]] + rest[1..];
        assert Split(s, sep) == parts;
        if |rest| == 1 {
          assert Join(parts, [sep]) == [s[0]] + rest[0];
        } else {
          assert parts[1..] == rest[1..];
          assert Join(parts, [sep]) == [s[0]] + rest[0] + [sep] + Join(rest[1..], [sep]);
          assert Join(rest, [sep]) == rest[0] + [sep] + Join(rest[1..], [sep]);
        }
      }
      assert s == [s[0]] + s[1..];
    }
  }

  lemma {:induction false} SplitWithoutSep(a: string, sep: char)
    requires sep !in a
    ensures Split(a, sep) == [a]
    decreases |a|
  {
    if |a| > 0 {
      SplitWithoutSep(a[1..], sep);
      assert [a[0]] + a[1..] == a;
    }
  }

  lemma {:induction false} SplitAtSep(a: string, b: string, sep: char)
    requires sep !in a
    ensures Split(a + [sep] + b, sep) == [a] + Split(b, sep)
    decreases |a|
  {
    var s := a + [sep] + b;
    if |a| == 0 {
      assert s[1..] == b;
    } else {
      assert s[1..] == a[1..] + [sep] + b;
      SplitAtSep(a[1..], b, sep);
      assert [a[0]] + a[1..] == a;
    }
  }

  /** A separator between two texts splits exactly there. */
  lemma {:induction false} SplitConcat(a: string, b: string, sep: char)
    ensures Split(a + [sep] + b, sep) == Split(a, sep) + Split(b, sep)
    decreases |a|
  {
    var s := a + [sep] + b;
    if |a| == 0 {
      assert s[1..] == b;
    } else {
      assert s[1..] == a[1..] + [sep] + b;
      SplitConcat(a[1..], b, sep);
    }
  }

  /** Splitting a join of separator-free pieces gives back the pieces. */
  lemma {:induction false} SplitJoin(parts: seq<string>, sep: char)
    requires |parts| >= 1
    requires forall k :: 0 <= k < |parts| ==> sep !in parts[k]
    ensures Split(Join(parts, [sep]), sep) == parts
    decreases |parts|
  {
    if |parts| == 1 {
      SplitWithoutSep(parts[0], sep);
    } else {
      SplitJoin(parts[1..], sep);
      SplitAtSep(parts[0], Join(parts[1..], [sep]), sep);
      assert [parts[0]] + parts[1..] == parts;
    }
  }

  lemma {:induction false} JoinStartsWithHead(parts: seq<string>, sep: char)
    requires |parts| >= 1
    ensures var s := Join(parts, [sep]);
      |parts[0]| <= |s| && s[..|parts[0]|] == parts[0]
      && (|parts| > 1 ==> |parts[0]| < |s| && s[|parts[0]|] == sep)
      && (|parts| == 1 ==> s == parts[0])
  {
  }

  lemma {:induction false} JoinEndsWithLast(parts: seq<string>, sep: char)
    requires |parts| >= 1
    ensures var s := Join(parts, [sep]); var l := parts[|parts| - 1];
      |l| <= |s| && s[|s| - |l|..] == l
      && (|parts| > 1 ==> |l| < |s| && s[|s| - |l| - 1] == sep)
    decreases |parts|
  {
    if |parts| > 1 {
      JoinEndsWithLast(parts[1..], sep);
      var tail := Join(parts[1..], [sep]);
      var s := Join(parts, [sep]);
      assert s == parts[0] + [sep] + tail;
      assert s[|s| - |tail|..] == tail;
    }
  }

  /** `s.split(sep)[0]`: the text before the first `sep`, or all of `s`. */
  function FirstSegment(s: string, sep: char): (r: string)
    ensures sep !in r
    ensures |r| <= |s| && s[..|r|] == r
    ensures |r| < |s| ==> s[|r|] == sep
  {
    var parts := Split(s, sep);
    JoinSplit(s, sep);
    JoinStartsWithHead(parts, sep);
    parts[0]
  }

  /** `s.split(sep)[-1]` in Python, `s.split(sep).pop()` in JavaScript:
      the text after the last `sep`, or all of `s`. */
  function LastSegment(s: string, sep: char): (r: string)
    ensures sep !in r
    ensures |r| <= |s| && s[|s| - |r|..] == r
    ensures |r| < |s| ==> s[|s| - |r| - 1] == sep
  {
    var parts := Split(s, sep);
    JoinSplit(s, sep);
    JoinEndsWithLast(parts, sep);
    parts[|parts| - 1]
  }

  lemma {:induction false} SplitEndsAfterSep(x: string, sep: char, b: string)
    requires sep !in b
    ensures var parts := Split(x + [sep] + b, sep); |parts| >= 2 && parts[|parts| - 1] == b
    decreases |x|
  {
    var s := x + [sep] + b;
    if |x| == 0 {
      assert s[1..] == b;
      SplitWithoutSep(b, sep);
    } else {
      assert s[1..] == x[1..] + [sep] + b;
      SplitEndsAfterSep(x[1..], sep, b);
    }
  }

  /** The segment after the last `sep` of `a + [sep] + b` is `b`. */
  lemma LastSegmentAfterSep(a: string, sep: char, b: string)
    requires sep !in b
    ensures LastSegment(a + [sep] + b, sep) == b
  {
    SplitEndsAfterSep(a, sep, b);
  }

  /** A string without `sep` is its own last segment. */
  lemma LastSegmentWithoutSep(b: string, sep: char)
    requires sep !in b
    ensures LastSegment(b, sep) == b
  {
    SplitWithoutSep(b, sep);
  }

  /** The segment before the first `sep` of `a + [sep] + b` is `a`. */
  lemma FirstSegmentBeforeSep(a: string, sep: char, b: string)
    requires sep !in a
    ensures FirstSegment(a + [sep] + b, sep) == a
  {
    SplitAtSep(a, b, sep);
  }

  /** A string without `sep` is its own first segment. */
  lemma FirstSegmentWithoutSep(a: string, sep: char)
    requires sep !in a
    ensures FirstSegment(a, sep) == a
  {
    SplitWithoutSep(a, sep);
  }

  // ---------------------------------------------------------------------
  // Trimming
  // ---------------------------------------------------------------------

  /** White space as JavaScript's `String.prototype.trim` removes it
      (WhiteSpace and LineTerminator of ECMA-262). */
  predicate JsSpace(c: char) {
    || c in {'\t', '\n', '\U{B}', '\U{C}', '\r', ' ', '\U{A0}', '\U{1680}', '\U{2028}', '\U{2029}'}
    || c in {'\U{202F}', '\U{205F}', '\U{3000}', '\U{FEFF}'}
    || '\U{2000}' <= c <= '\U{200A}'
  }

  /** White space as Python's `str.strip()` removes it (`str.isspace`). */
  predicate PySpace(c: char) {
    || c in {'\t', '\n', '\U{B}', '\U{C}', '\r', ' ', '\U{85}', '\U{A0}', '\U{1680}', '\U{2028}', '\U{2029}'}
    || c in {'\U{202F}', '\U{205F}', '\U{3000}'}
    || '\U{1C}' <= c <= '\U{1F}'
    || '\U{2000}' <= c <= '\U{200A}'
  }

  function TrimStart(s: string, isSpace: char -> bool): (r: string)
    ensures |r| <= |s| && r == s[|s| - |r|..]
    ensures forall i :: 0 <= i < |s| - |r| ==> isSpace(s[i])
    ensures |r| > 0 ==> !isSpace(r[0])
    decreases |s|
  {
    if |s| > 0 && isSpace(s[0]) then TrimStart(s[1..], isSpace) else s
  }

  function TrimEnd(s: string, isSpace: char -> bool): (r: string)
    ensures |r| <= |s| && r == s[..|r|]
    ensures forall i :: |r| <= i < |s| ==> isSpace(s[i])
    ensures |r| > 0 ==> !isSpace(r[|r| - 1])
    decreases |s|
  {
    if |s| > 0 && isSpace(s[|s| - 1]) then TrimEnd(s[..|s| - 1], isSpace) else s
  }

  /** `r` is `s[a..a+|r|]`, everything outside that window is white space,
      and `r` neither starts nor ends with white space. */
  predicate TrimmedAt(s: string, r: string, a: int, isSpace: char -> bool) {
    && 0 <= a && a + |r| <= |s| && s[a..a + |r|] == r
    && (forall i :: 0 <= i < a ==> isSpace(s[i]))
    && (forall i :: a + |r| <= i < |s| ==> isSpace(s[i]))
    && (|r| > 0 ==> !isSpace(r[0]) && !isSpace(r[|r| - 1]))
  }

  /** Removes leading and trailing white space, and nothing else. */
  function Trim(s: string, isSpace: char -> bool): (r: string)
    ensures exists a :: TrimmedAt(s, r, a, isSpace)
  {
    var t := TrimStart(s, isSpace);
    var r := TrimEnd(t, isSpace);
    TrimBothEnds(s, t, r, isSpace);
    r
  }

  /** A suffix `t` of `s` after leading space, and a prefix `r` of `t`
      before trailing space, is a window of `s`. */
  lemma TrimBothEnds(s: string, t: string, r: string, isSpace: char -> bool)
    requires |t| <= |s| && t == s[|s| - |t|..]
    requires forall i :: 0 <= i < |s| - |t| ==> isSpace(s[i])
    requires |t| > 0 ==> !isSpace(t[0])
    requires |r| <= |t| && r == t[..|r|]
    requires forall i :: |r| <= i < |t| ==> isSpace(t[i])
    requires |r| > 0 ==> !isSpace(r[|r| - 1])
    ensures TrimmedAt(s, r, |s| - |t|, isSpace)
  {
    var a := |s| - |t|;
    var w := s[a..a + |r|];
    forall k | 0 <= k < |r|
      ensures w[k] == r[k]
    {
      assert r[k] == t[k];
    }
    assert w == r;
    forall i | a + |r| <= i < |s|
      ensures isSpace(s[i])
    {
      assert s[i] == t[i - a];
    }
  }

  /** Text that does not start with white space keeps its first character. */
  lemma TrimKeepsLead(s: string, isSpace: char -> bool)
    requires |s| > 0 && !isSpace(s[0])
    ensures |Trim(s, isSpace)| > 0 && Trim(s, isSpace)[0] == s[0]
  {
    var a :| TrimmedAt(s, Trim(s, isSpace), a, isSpace);
    assert a == 0;
  }

  /** Trimming twice is trimming once. */
  lemma TrimIdempotent(s: string, isSpace: char -> bool)
    ensures Trim(Trim(s, isSpace), isSpace) == Trim(s, isSpace)
  {
    var r := Trim(s, isSpace);
    var a :| TrimmedAt(s, r, a, isSpace);
    assert TrimStart(r, isSpace) == r;
    assert TrimEnd(r, isSpace) == r;
  }

  // ---------------------------------------------------------------------
  // Case
  // ---------------------------------------------------------------------

  function AsciiLowerChar(c: char): char {
    if 'A' <= c <= 'Z' then (c as int + 32) as char else c
  }

  /** `a` spells the lower-case word `w` with any of its ASCII letters
      in upper case. */
  predicate CaselessMatch(a: string, w: string) {
    && |a| == |w|
    && forall i :: 0 <= i < |a| ==> a[i] == w[i] || ('a' <= w[i] <= 'z' && a[i] as int == w[i] as int - 32)
  }

  /** Lower-casing gives a word without upper-case letters exactly when
      the text spells it in any mix of cases. */
  lemma AsciiLowerMatches(a: string, w: string)
    requires forall i :: 0 <= i < |w| ==> !('A' <= w[i] <= 'Z')
    ensures AsciiLower(a) == w <==> CaselessMatch(a, w)
  {
    var l := AsciiLower(a);
    if CaselessMatch(a, w) {
      forall i | 0 <= i < |a|
        ensures l[i] == w[i]
      {
        assert l[i] == AsciiLowerChar(a[i]);
      }
      assert l == w;
    }
    if l == w {
      forall i | 0 <= i < |a|
        ensures a[i] == w[i] || ('a' <= w[i] <= 'z' && a[i] as int == w[i] as int - 32)
      {
        assert l[i] == AsciiLowerChar(a[i]);
      }
    }
  }

  /** Lower-casing restricted to the ASCII letters. */
  function AsciiLower(s: string): (r: string)
    ensures |r| == |s|
    ensures forall i :: 0 <= i < |s| ==> r[i] == AsciiLowerChar(s[i])
  {
    seq(|s|, i requires 0 <= i < |s| => AsciiLowerChar(s[i]))
  }
}

=== FILE: wrappers.dfy ===
/** Optional values and error-carrying results shared by every module. */
module Wrappers {

  /** A value that may be absent (JavaScript `undefined`, Python `None`, a missing record). */
  datatype Option<+T> = None | Some(value: T)

  /** The outcome of a step that either yields a value or fails with a message
      (a thrown exception or an error reply). */
  datatype Result<+T> = Ok(value: T) | Err(msg: string)
}
